=== FILE: README.md ===
# pixi-graph core in Dafny

A model of the logic at the heart of pixi-graph, a graph renderer that draws
a graphology graph with Pixi. The model covers four parts.

- **Box selection.** `judge` normalises two screen points into a closed
  rectangle and selects the nodes inside it. It selects edges either by
  incidence to the selected nodes ("lazy") or by a six-clause
  segment–rectangle predicate. Three selection front-ends wrap it: `Choose`,
  `ChooseManual` and `chooseAuto`. Each is a small mode machine over mouse
  events.
- **The scene registry of `PixiGraph`.** Its key→handle maps follow the
  graph's add/drop/clear events. It keeps a hover flag per handle and
  decides the bilateral flag when an edge is created. It also computes the
  level-of-detail (LOD) step from the zoom and the `resetView` box, and it
  answers visibility queries that name unknown keys.
- **Per-element geometry and rendering.** `PixiEdge.updatePosition` places
  self-loops, lines, labels and arrows. The node renderer builds texture
  keys, sizes image icons and gates visibility by zoom. The badge ("attach")
  renderer decides when to rebuild and lays the badges out in two rows.
- **Style resolution and helpers.** The recursive style resolver and the
  layered right-wins merge are modelled, together with `throttle`,
  `Debounced` and the watermark's 3 × 3 grid.

Rendering objects become plain records of the fields the code reads and
writes. Time is an explicit input, and a pending timer is part of the state.
Trigonometry is replaced by a distance `d` with `d·d = dx² + dy²` and a
constant `s` with `s·s = 3`. JavaScript numbers are reals. Where NaN or
±Infinity decide a comparison (the slope clauses of `judge`), the
`ExtReal` module evaluates the clause literally. A lemma then shows that the
literal clause agrees with the guarded real one.

Modules, one per source file:

| file | module | source |
|---|---|---|
| wrappers.dfy | `Wrappers` | Option and Result |
| geometry.dfy | `Geometry` | points, rectangles, segments and drag boxes |
| ext_real.dfy | `ExtReal` | the IEEE special values of the slope clauses |
| segment.dfy | `SegmentTest` | the edge predicate of `judge` |
| judge.dfy | `JudgeSelected` | `judge` |
| choose.dfy | `Choose` | `Choose` |
| choose_manual.dfy | `ChooseManual` | `ChooseManual` |
| choose_auto.dfy | `ChooseAuto` | `chooseAuto` |
| style.dfy | `Style` | `resolveStyleDefinition(s)` and the merge |
| node_style.dfy | `Styles` | the resolved node and edge style records |
| node_renderer.dfy | `NodeRenderer` | `updateNodeStyle` and `updateNodeVisibility` |
| node_attach.dfy | `NodeAttach` | `updateNodeAttachGroup` and its layout |
| pixi_node.dfy | `PixiNode` | `PixiNode` |
| pixi_edge.dfy | `PixiEdge` | `PixiEdge` |
| registry.dfy | `Registry` | `PixiGraph` handlers, hover, LOD, `resetView` and queries |
| throttle.dfy | `Throttle` | `throttle` |
| debounce.dfy | `Debounce` | `Debounced` |
| watermark.dfy | `Watermark` | `makeWatermark` and `coverScreen` |

Where the descriptions of the library and its code differ, the model
follows the code. Four places are worth knowing.

- **Drops of unknown keys.** `dropNode` and `dropEdge` dereference the looked-up
  handle with `!`, so dropping a key that is not registered throws. The model
  returns `Err(UnknownKey(k))`, and `Registry.RegistryFollowsGraph` shows that
  this never happens for a legal run of graph events.
- **Bilateral edges.** The flag is set when
  `graph.edges(target, source)` holds more than one edge. With no
  direction given, graphology collects the edges between the two nodes in
  both directions, directed or undirected. The new edge is already in the
  graph, so it counts itself. In a plain A→B / B→A pair the second edge is
  bilateral and the first, added alone, is not
  (`Registry.OppositePairIsBilateral`). Neither edge's flag is updated
  afterwards. The graph is modelled with its type (directed, undirected or
  mixed) and each edge's orientation.
- **The `judge` front-ends.** `chooseAuto` and `ChooseManual` call `judge` without `lazy`, so they always
  use the geometric edge test.
- **The cover-mode watermark.** `coverScreen` writes `option.position`
  outside cover mode and then overwrites it. Its sprites are top-left
  anchored, offset by half the measured size.

## Model

| member | source | states |
|---|---|---|
| Geometry.NormRect | src/functional/choose/judgeSelected.ts:18-21 | the normalised rectangle is well formed, contains both corners and lies inside every rectangle that contains them |
| Geometry.NormRectSymmetric | src/functional/choose/judgeSelected.ts:18-21 | swapping start and end gives the same rectangle |
| Geometry.DragBox | src/functional/choose/choose.ts:93-96 | the drawn box has non-negative width/height and spans exactly the normalised rectangle of the two points |
| ExtReal.SpecialNotBetween | src/functional/choose/judgeSelected.ts:46-60 | a NaN or infinite quotient never satisfies a `>= lo && <= hi` window, so clauses on an infinite slope contribute nothing |
| SegmentTest.VerticalSlopeSpecial | src/functional/choose/judgeSelected.ts:42-43 | for a vertical segment (x1 = x2, zero length included) JavaScript's slope and intercept are not finite |
| SegmentTest.JsAbscissaSpecial | src/functional/choose/judgeSelected.ts:42-48 | for a vertical or horizontal segment `(y - b) / k` evaluates to NaN or an infinity |
| SegmentTest.JsAbscissaFinite | src/functional/choose/judgeSelected.ts:42-48 | otherwise `(y - b) / k` is the finite abscissa where the line reaches height y |
| SegmentTest.JsOrdinateSpecial | src/functional/choose/judgeSelected.ts:42-50 | for a vertical segment `k * x + b` evaluates to NaN or an infinity |
| SegmentTest.JsOrdinateFinite | src/functional/choose/judgeSelected.ts:42-50 | otherwise `k * x + b` is the line's finite ordinate at x |
| SegmentTest.SpecialWindows | src/functional/choose/judgeSelected.ts:46-60 | no NaN or infinity passes a clause's range comparisons |
| SegmentTest.JsHeightClauseAgrees | src/functional/choose/judgeSelected.ts:46-48 | the top/bottom clauses as JavaScript evaluates them equal the guarded real clauses (taken only when the segment is neither vertical nor horizontal) |
| SegmentTest.JsAbscissaClauseAgrees | src/functional/choose/judgeSelected.ts:49-60 | the left/right clauses as JavaScript evaluates them equal the guarded real clauses (taken only for a non-vertical segment) |
| SegmentTest.JsHitsIsHits | src/functional/choose/judgeSelected.ts:45-61 | the six-clause disjunction evaluated with JavaScript's special values equals the guarded real predicate |
| SegmentTest.MeetsVertical | src/functional/choose/judgeSelected.ts:47 | a vertical segment with a point in the rectangle satisfies the vertical clause (x in range, y-span overlapping) |
| SegmentTest.VerticalWitness | src/functional/choose/judgeSelected.ts:47 | the vertical clause yields a point of the segment inside the rectangle |
| SegmentTest.HeightWitness | src/functional/choose/judgeSelected.ts:46-48 | a top/bottom crossing yields a point of the segment inside the rectangle |
| SegmentTest.AbscissaWitness | src/functional/choose/judgeSelected.ts:49-60 | a left/right crossing yields a point of the segment inside the rectangle |
| SegmentTest.HitsImpliesMeets | src/functional/choose/judgeSelected.ts:45-61 | every selected segment meets the closed rectangle |
| SegmentTest.MeetsImpliesHits | src/functional/choose/judgeSelected.ts:45-61 | every segment meeting the closed rectangle is selected |
| SegmentTest.HitsIffMeets | src/functional/choose/judgeSelected.ts:45-61 | the edge predicate holds exactly when the closed segment meets the closed rectangle |
| SegmentTest.CrossingInWindow | src/functional/choose/judgeSelected.ts:46-48 | a segment entering and leaving the rectangle's height band within its x-range crosses the top or bottom side |
| JudgeSelected.IncidentEdges | src/functional/choose/judgeSelected.ts:29 | `graph.edges(node)` is exactly the edges with the node as source or target |
| JudgeSelected.Add | src/functional/choose/judgeSelected.ts:15-16 | adding to the result set keeps the old members, adds the key and keeps it duplicate-free |
| JudgeSelected.AddAll | src/functional/choose/judgeSelected.ts:30-32 | adding many keys gives the union and keeps it duplicate-free |
| JudgeSelected.SelectNodes | src/functional/choose/judgeSelected.ts:23-27 | a node is selected iff its screen point lies in the closed rectangle |
| JudgeSelected.LazyEdges | src/functional/choose/judgeSelected.ts:28-33 | lazy edges are exactly the edges incident to a selected node |
| JudgeSelected.SelectEdges | src/functional/choose/judgeSelected.ts:37-65 | an edge is selected iff the edge predicate holds on its screen segment |
| JudgeSelected.Judge | src/functional/choose/judgeSelected.ts:14-72 | results have no duplicates and name only nodes and edges of the graph |
| JudgeSelected.JudgeSwapInvariant | src/functional/choose/judgeSelected.ts:18-21 | swapping the two points gives identical node and edge results |
| JudgeSelected.JudgeNodesExact | src/functional/choose/judgeSelected.ts:23-27 | a node is in the result iff its screen position is in the closed rectangle, boundary included |
| JudgeSelected.JudgeLazyEdgesExact | src/functional/choose/judgeSelected.ts:28-37 | in lazy mode the edges are exactly the union of the incident edges of the selected nodes |
| JudgeSelected.JudgeEdgesGeometric | src/functional/choose/judgeSelected.ts:37-65 | in non-lazy mode an edge is selected iff its closed screen segment meets the closed rectangle |
| JudgeSelected.JudgeEdgeInside | src/functional/choose/judgeSelected.ts:61 | an edge with both screen endpoints inside the rectangle is selected |
| Choose.Init | src/functional/choose/choose.ts:20-42 | the tool starts hidden, not dragging, with no callback and no mouseup armed |
| Choose.Start | src/functional/choose/choose.ts:64-67 | the overlay is shown and the callback is replaced only by a given one |
| Choose.MouseDown | src/functional/choose/choose.ts:69-86 | a press records the start corner, starts dragging, arms mouseup, listens to moves and shows a zero-size box at the press; nothing else changes |
| Choose.MouseMove | src/functional/choose/choose.ts:88-103 | a move redraws the box from the start point only while dragging; otherwise nothing changes |
| Choose.MouseUp | src/functional/choose/choose.ts:105-169 | the callback, if any, receives non-lazy `judge` of start and end; dragging stops and the overlay hides |
| Choose.IdleRunsSilent | src/functional/choose/choose.ts:64-86 | with no `start` and no pending drag, no event sequence reports anything |
| Choose.AtMostOneReportPerStart | src/functional/choose/choose.ts:81-83 | the `once` mouseup listener gives at most one report between starts |
| Choose.DragDirectionIrrelevant | src/functional/choose/choose.ts:112-115 | dragging p→q and q→p report the same selection |
| Choose.ZeroSizeDragReports | src/functional/choose/choose.ts:157-162 | there is no empty-drag guard: a zero-size drag still reports when a callback is set |
| ChooseManual.Init | src/functional/choose/chooseManual.ts:24-35 | the tool starts idle with the constructor's callback |
| ChooseManual.Start | src/functional/choose/chooseManual.ts:123-132 | `start` sets `isChoose`, shows the overlay, listens for keys and replaces the callback only if one is passed |
| ChooseManual.Cancel | src/functional/choose/chooseManual.ts:114-121 | `cancel` always leaves `isChoose` false, hides everything and stops listening, keeping the callback |
| ChooseManual.MouseDown | src/functional/choose/chooseManual.ts:68-85 | a press is ignored unless `isChoose`; otherwise it records the start and shows a zero box |
| ChooseManual.MouseMove | src/functional/choose/chooseManual.ts:87-100 | the box spans the start and the cursor, with width/height |Δ| and left/top the minima |
| ChooseManual.MouseUp | src/functional/choose/chooseManual.ts:102-112 | the callback, if any, receives non-lazy `judge`; the tool then always cancels |
| ChooseManual.IdleRunsSilent | src/functional/choose/chooseManual.ts:68-69 | without `start`, no event sequence reports anything |
| ChooseManual.AtMostOneReportPerStart | src/functional/choose/chooseManual.ts:102-121 | one selection per `start` |
| ChooseManual.CancelledDragStillReports | src/functional/choose/chooseManual.ts:81-121 | a key press cancelling mid-drag leaves the armed mouseup, which still reports the selection |
| ChooseAuto.Install | src/functional/choose/chooseAuto.ts:19-27 | installing sets the callback to `complete` and listens for presses |
| ChooseAuto.MouseDown | src/functional/choose/chooseAuto.ts:29-40 | a press off the viewport or during node dragging is ignored; otherwise start and end are the press point |
| ChooseAuto.MouseMove | src/functional/choose/chooseAuto.ts:42-54 | the band spans start and cursor (|Δ|, minima) and the cursor becomes the end point |
| ChooseAuto.MouseUp | src/functional/choose/chooseAuto.ts:56-72 | mouseup always clears the band and `isChoose`; it reports iff a callback is set and the end differs from the start, with `judge` of the two corners mapped to the screen |
| ChooseAuto.Presses | src/functional/choose/chooseAuto.ts:29-40 | counts the press events of a run |
| ChooseAuto.ReportsBoundedByPresses | src/functional/choose/chooseAuto.ts:37-39 | a run reports at most once per press, plus one for an already armed mouseup |
| ChooseAuto.ClickSelectsNothing | src/functional/choose/chooseAuto.ts:33-63 | press and release without a move reports nothing, even with a mouseup from an earlier press still armed |
| ChooseAuto.DragReports | src/functional/choose/chooseAuto.ts:61-71 | press, move elsewhere and release reports `judge` of the mapped corners |
| Style.DigitChar | src/utils/style.ts:79-84 | a digit's character reads back as the digit |
| Style.NatToString | src/utils/style.ts:79-84 | array indices become non-empty decimal keys |
| Style.NatToStringRoundTrip | src/utils/style.ts:79-84 | reading an index key as a decimal gives the index back |
| Style.IndexKeysStep | src/utils/style.ts:79-84 | the keys of an n+1 element array are those of n plus the key of n |
| Style.IndexRecordSpec | src/utils/style.ts:79-84 | an array resolves to a record keyed by its indices, holding the elements in place |
| Style.DistinctNames | src/utils/style.ts:79-84 | distinct indices give distinct keys |
| Style.Resolve | src/utils/style.ts:75-89 | a function resolves to its result on the attributes; a record keeps its keys; primitives and null are unchanged |
| Style.ResolveSeq | src/utils/style.ts:80-83 | array elements are resolved one by one, in place |
| Style.ResolveRecordEntries | src/utils/style.ts:79-84 | each record entry resolves recursively |
| Style.ResolveArrayElements | src/utils/style.ts:79-84 | an array comes back as an index-keyed plain record of its resolved elements |
| Style.StaticIndependent | src/utils/style.ts:75-89 | a definition without functions resolves the same for any attributes |
| Style.ArrayOnlyFromFunction | src/utils/style.ts:77-84 | only a function definition can resolve to an array |
| Style.Merge | src/utils/style.ts:93 | merging records keeps the keys of both; later non-record leaves win; untouched keys keep their value; a record or array on the right replaces a non-record on the left |
| Style.MergeAt | src/utils/style.ts:93 | at every path: a right leaf is the merged value, a right record stays a record, a path the right side leaves untouched reads as on the left, and a path is defined iff the right defines it or the left does and the right leaves it untouched |
| Style.MergeSelf | src/utils/style.ts:93 | merging a record with itself changes nothing |
| Style.MergeEmpty | src/utils/style.ts:93 | the empty record is a unit of the merge on both sides |
| Style.MergeAllLayers | src/utils/style.ts:93 | merging all layers keeps every layer's keys, the last layer's top-level leaves win, and at any depth a layer's leaf wins unless a later layer sets something at or above it |
| Style.MergeAllAt | src/utils/style.ts:93 | at every path, the last layer that sets something there decides: its leaf is the merged value, its record stays a record, and the path is defined iff some layer defines it with no later layer overwriting it from above |
| Style.MergeAllWinner | src/utils/style.ts:93 | a layer's leaf or record at a path survives every later layer that leaves the path untouched |
| Style.MergeAllDefined | src/utils/style.ts:93 | a path is defined in the merge iff some layer defines it and no later layer overwrites it from above |
| Style.DefinedByStep | src/utils/style.ts:93 | some layer defines a path with nothing later overwriting it iff the last layer defines it, or an earlier layer does and the last leaves it untouched |
| Style.Truthy | src/utils/style.ts:92 | the filter keeps no falsy definition and never grows the list |
| Style.ResolveEach | src/utils/style.ts:92 | each kept definition is resolved on the same attributes, in order |
| Style.TruthyAppend | src/utils/style.ts:92 | filtering distributes over concatenation |
| Style.TruthyCons | src/utils/style.ts:92 | the filter keeps or drops the first definition by its truthiness, then filters the rest |
| Style.FalsyLayerIgnored | src/utils/style.ts:92 | a falsy layer resolves exactly as if it were absent |
| Style.HoverLayerWins | src/utils/style.ts:91-95 | in [default, user, hover], at any depth: a hover leaf wins; where hover sets nothing at or above a path, the user's leaf wins; where neither does, the default shows; every layer's top-level keys are kept |
| Style.ThreeRecordLayers | src/utils/style.ts:93 | over three record layers, path by path: the third's leaf wins, then the second's, then the first shows through |
| Style.HoverBorderExample | src/utils/style.ts:91-95 | hovering `{border: {color: red}}` over `{border: {width: 2, color: black}}` gives colour red and keeps width 2 |
| Style.ThreeLayers | src/utils/style.ts:92 | three truthy layers are all resolved, in order |
| Style.ThreeLayerKeys | src/utils/style.ts:93 | three layers contribute the union of their keys |
| NodeRenderer.Cached | src/renderers/node.ts:54-82 | the texture cache returns the stored texture for a known key and stores the new one otherwise, keeping other entries |
| NodeRenderer.UpdateNodeStyle | src/renderers/node.ts:50-134 | under either key scheme, body, border and icon each show the texture already cached under their key, or their fresh drawing when the key is new; the cache gains exactly those three keys and keeps every old entry; the hit-area radius is size + border width, tints follow the style, visibility is untouched |
| NodeRenderer.CompleteKeysDescribe | src/renderers/node.ts:53-100 | keys that include shape and weight determine the drawing they name |
| NodeRenderer.CompleteKeysShowStyle | src/renderers/node.ts:53-100 | with such keys a coherent cache always shows the style's own body, border and icon |
| NodeRenderer.CachedCoherent | src/renderers/node.ts:54-82 | caching a drawing under a key that describes it keeps the cache coherent |
| NodeRenderer.AsWrittenShapeCollision | src/renderers/node.ts:53-66 | with keys as written, a rect node drawn after a circle node of the same size reuses the disc texture |
| NodeRenderer.AsWrittenWeightCollision | src/renderers/node.ts:80 | with the icon key as written, a bold icon drawn after a normal one of the same family, size and content reuses the normal texture |
| NodeRenderer.ImageIconFitsBody | src/renderers/node.ts:108-117 | under either key scheme, image icons are 2·size for a circle and size for a rect; text icons are not resized |
| NodeRenderer.HitAreaIsBorderDisc | src/renderers/node.ts:66-123 | for a circle the hit area is the border disc |
| NodeRenderer.UpdateNodeVisibility | src/renderers/node.ts:136-144 | border visible = old ∧ step ≥ 1, icon visible = old ∧ step ≥ 2, nothing else changes |
| NodeRenderer.VisibilityIdempotent | src/renderers/node.ts:136-144 | repeating the update with the same step changes nothing |
| NodeRenderer.VisibilityComposes | src/renderers/node.ts:136-144 | two updates act as one with the smaller step, so nothing hidden is ever shown again |
| NodeAttach.NumberOfChar | src/renderers/node-attach.ts:38 | `Number` of a digit character is that digit |
| NodeAttach.SliceEntry | src/renderers/node-attach.ts:35-39 | `slice(0, -2)` and `slice(-1)` on UTF-16 code units: only names that are `NODE_ATTACH` plus two code units count (two plane characters, or one character beyond U+FFFF); the last unit is read as a number, so a trailing astral character reads as NaN |
| NodeAttach.OldEntryIsSliceEntry | src/renderers/node-attach.ts:35-39 | the character-level reading the old group uses gives, for every child, the entry the source's unit slices give |
| NodeAttach.NumberOfUnit | src/renderers/node-attach.ts:37-38 | `Number` of a one-unit string: a plane character as `Number` reads it, a lone surrogate NaN |
| NodeAttach.Utf16Injective | src/renderers/node-attach.ts:35-36 | different names have different code units, so comparing units is comparing names |
| NodeAttach.BadgeUnits | src/renderers/node-attach.ts:35-38 | `slice(0, -2) === NODE_ATTACH` holds exactly for badge-shaped names, and `slice(-1)` is the last plane character or a low surrogate |
| NodeAttach.OldGroup | src/renderers/node-attach.ts:34-40 | the old group holds only single-digit numbers or NaN |
| NodeAttach.NewNotInOld | src/utils/tools.ts:39 | the first half of the complement is the new entries not strictly equal to any old one |
| NodeAttach.OldNotInNew | src/utils/tools.ts:39 | the second half is the old entries not strictly equal to any new one |
| NodeAttach.DiffEmptyIff | src/renderers/node-attach.ts:41-43 | the diff is empty iff each side's entries all occur in the other |
| NodeAttach.SingleRowSymmetric | src/renderers/node-attach.ts:98-112 | for n ≤ 5 badge positions are symmetric about 0 |
| NodeAttach.RowSpacing | src/renderers/node-attach.ts:106-110 | consecutive badges in a row are size + colGap apart |
| NodeAttach.SecondRowAligned | src/renderers/node-attach.ts:106-108 | badge i ≥ 5 sits under badge i − 5 |
| NodeAttach.RowHeights | src/renderers/node-attach.ts:114-122 | with more than five badges the first five sit size + rowGap higher; the lower row is at −(outer + size/2 + crevice) |
| NodeAttach.SpritesAt | src/renderers/node-attach.ts:50-93 | each group entry yields a badge and a text sprite, named after it, at its grid position |
| NodeAttach.UpdateNodeAttachGroup | src/renderers/node-attach.ts:24-95 | a non-array group fails and leaves the children; an empty diff leaves them; otherwise they become a placeholder plus two named sprites per entry |
| NodeAttach.AstralBadgeLeftInPlace | src/renderers/node-attach.ts:34-43 | an emoji item's badge is three code units past the prefix, never read back, so a later empty group leaves it on screen |
| NodeAttach.BadgeEntry | src/renderers/node-attach.ts:35-76 | a rebuilt badge of a single-digit entry reads back as that digit |
| NodeAttach.TextEntry | src/renderers/node-attach.ts:36-86 | a rebuilt text sprite never enters the old group |
| NodeAttach.OldGroupSnoc | src/renderers/node-attach.ts:34-40 | the old group is read child by child, in order |
| NodeAttach.OldGroupOfSprites | src/renderers/node-attach.ts:34-92 | reading back k rebuilt pairs gives the first k single-digit entries |
| NodeAttach.OldGroupOfRebuild | src/renderers/node-attach.ts:34-94 | reading back a rebuilt group gives the group |
| NodeAttach.OldGroupPrefix | src/renderers/node-attach.ts:34-40 | an unnamed placeholder contributes nothing |
| NodeAttach.DigitGroupsAreStable | src/renderers/node-attach.ts:34-94 | after a rebuild of a single-digit group, the same group leaves the children unchanged |
| NodeAttach.OtherGroupsAlwaysRebuild | src/renderers/node-attach.ts:34-43 | a group with a multi-character or non-numeric entry is rebuilt on every update |
| NodeAttach.UpdateAttachVisibility | src/renderers/node-attach.ts:125-130 | each child's visibility becomes old ∧ step ≥ 2, nothing else changes |
| NodeAttach.AttachVisibilityIdempotent | src/renderers/node-attach.ts:125-130 | repeating the update changes nothing and never shows a hidden child |
| PixiNode.Create | src/node.ts:29 | a new node is not hovered |
| PixiNode.UpdatePosition | src/node.ts:105-108 | node and label move to the same point; nothing else changes |
| PixiNode.UpdateAlpha | src/node.ts:115-118 | node and label alpha become the style's alpha |
| PixiNode.UpdateStyle | src/node.ts:110-113 | the node renderer and the label renderer both get the style; the node's sprites show the textures the cache holds under the chosen scheme's keys, or fresh drawings |
| PixiNode.SharedCacheShapes | src/node.ts:110-113 | with the source's keys, a rect node styled after a same-size circle node shows the disc; with the corrected keys it shows its square |
| PixiNode.UpdateVisibility | src/node.ts:120-123 | node and label are gated by the same step |
| PixiNode.SetVisibility | src/node.ts:125-128 | both flags become v |
| PixiNode.CheckReadsBack | src/node.ts:125-132 | after setting v the check returns v |
| PixiNode.CheckIgnoresLabel | src/node.ts:130-132 | the check reads only the node flag |
| PixiNode.PositionsAgree | src/node.ts:105-108 | node and label always share a position and the last update wins |
| PixiEdge.Create | src/edge.ts:29-42 | the self-loop and bilateral flags are those given; a new edge is not hovered |
| PixiEdge.UpdatePosition | src/edge.ts:83-128 | the flags never change; a self-loop sits at (tx, ty − outer − radius + cross) with its label half its height above and everything else untouched; a line's label shares its position |
| PixiEdge.DirectionsAreUnit | src/edge.ts:94-120 | the rotation and arrow directions are unit vectors, perpendicular to each other, and walking back by the distance from the target reaches the source |
| PixiEdge.LineRunsBorderToArrowBase | src/edge.ts:95-104 | the line runs from the source border to the arrow base: centre ∓ length/2 = target radius + (√3/2)·arrow size and dist − source radius |
| PixiEdge.LinePosition | src/edge.ts:98-104 | the line centre lies `center_target` back from the target toward the source |
| PixiEdge.ArrowOnLine | src/edge.ts:119-127 | the arrow sits at target radius + (√3/4)·arrow size back toward the source, halfway along the arrow's length, rotated along the edge |
| PixiEdge.BilateralOffsets | src/edge.ts:105-125 | a bilateral edge's line and arrow are the plain edge's moved by one and the same shift; the label follows the line; rotation, length and arrow rotation are unchanged |
| PixiEdge.BilateralShiftPerpendicular | src/edge.ts:106-124 | the bilateral shift is perpendicular to source→target and has length gap/2 + width |
| PixiEdge.OppositeEdgesShiftApart | src/edge.ts:105-108 | A→B and B→A are shifted by opposite vectors |
| PixiEdge.PlacementIdempotent | src/edge.ts:83-128 | placing twice with the same inputs gives the same edge |
| PixiEdge.SelfLoopIgnoresSource | src/edge.ts:84-92 | a self-loop's placement does not depend on the source position |
| PixiEdge.SelfLoopExample | src/edge.ts:85-90 | size 20, border 0, loop radius 30 and cross 10 put the loop 40 above the node |
| PixiEdge.BilateralExample | src/edge.ts:106-107 | gap 15 and width 1 shift a horizontal edge by 8.5, the reverse edge by −8.5 |
| Registry.Attribute | src/graph.ts:645 | a missing attribute reads as undefined |
| Registry.Layers | src/graph.ts:733-758 | the layers are [default, user, hover] with the hover layer present iff the entity is hovered |
| Registry.UnhoveredIgnoresHoverStyle | src/graph.ts:733 | unhovered entities and new ones resolve exactly as [default, user] |
| Registry.HoveredTakesHoverStyle | src/graph.ts:733-752 | a hovered entity takes the hover style's leaves at any depth, and keeps the user's leaves where hover sets nothing at or above them |
| Registry.EdgesBetweenSymmetric | src/graph.ts:646 | `graph.edges(a, b)` and `graph.edges(b, a)` name the same edges: those joining the two nodes either way round |
| Registry.Bilateral | src/graph.ts:645-647 | a new edge is bilateral iff its bilateral attribute is exactly `true` or `graph.edges(target, source)` holds more than one edge, counting edges between the two nodes in both directions |
| Registry.BilateralIff | src/graph.ts:646 | without the attribute, bilateral iff two distinct edges join the source and target, in either direction and of either orientation, in a directed, undirected or mixed graph |
| Registry.LoneEdgeIsNotBilateral | src/graph.ts:646 | without the attribute, the only edge between its ends is not bilateral |
| Registry.OppositePairIsBilateral | src/graph.ts:646 | in a directed graph, A→B alone is not bilateral, and a following B→A is |
| Registry.UndirectedPairIsBilateral | src/graph.ts:646 | in an undirected graph, two parallel a–b edges make a new a–b edge bilateral whichever way round it is added |
| Registry.SelfLoopAloneIsNotBilateral | src/graph.ts:646 | a self-loop is counted once, so a lone self-loop is not bilateral |
| Registry.CreateNode | src/graph.ts:584-639 | the key is registered unhovered and visible, other handles unchanged, and the node is styled |
| Registry.CreateEdge | src/graph.ts:641-698 | the key is registered with the self-loop flag iff source = target and the bilateral decision, other handles unchanged |
| Registry.DropNode | src/graph.ts:700-708 | the key is removed and nothing else changes; an unknown key fails |
| Registry.DropEdge | src/graph.ts:710-720 | the key is removed and nothing else changes; an unknown key fails |
| Registry.DropEdges | src/graph.ts:401-406 | dropping a list of edges succeeds only if all were present, and removes exactly them |
| Registry.DropNodes | src/graph.ts:402 | dropping a list of nodes succeeds only if all were present, and removes exactly them |
| Registry.DropEdgesSucceeds | src/graph.ts:401-406 | dropping distinct registered edges always succeeds |
| Registry.DropNodesSucceeds | src/graph.ts:402 | dropping distinct registered nodes always succeeds |
| Registry.OnCleared | src/graph.ts:400-403 | clearing drops the snapshot's edges, then its nodes |
| Registry.OnEdgesCleared | src/graph.ts:405-407 | clearing edges leaves the nodes |
| Registry.ClearedEmptiesBoth | src/graph.ts:400-403 | with complete snapshots, the edges go first with the nodes untouched, and both maps end empty |
| Registry.EdgesClearedKeepsNodes | src/graph.ts:405-407 | clearing edges empties only the edge map |
| Registry.HoverNode | src/graph.ts:428-436 | nothing happens if already hovered; otherwise the flag is set and the node restyled |
| Registry.UnhoverNode | src/graph.ts:455-463 | nothing happens if not hovered; otherwise the flag is cleared and the node restyled |
| Registry.HoverEdge | src/graph.ts:477-485 | as `HoverNode`, for edges |
| Registry.UnhoverEdge | src/graph.ts:509-517 | as `UnhoverNode`, for edges |
| Registry.HoverNodeIdempotent | src/graph.ts:428-475 | for any registered node, hovering or unhovering twice is the same as once, and hover then unhover restores the node map |
| Registry.HoverEdgeIdempotent | src/graph.ts:477-525 | for any registered edge, hovering or unhovering twice is the same as once, and hover then unhover restores the edge map |
| Registry.NodeMouseOver | src/graph.ts:592-597 | node hover happens only when no node is pressed |
| Registry.NodeMouseOut | src/graph.ts:598-603 | node unhover happens only when no node is pressed |
| Registry.NodeMouseDown | src/graph.ts:604-610 | pressing a node records it |
| Registry.DocumentMouseUp | src/graph.ts:562-569 | releasing clears the pressed node |
| Registry.EdgeMouseOver | src/graph.ts:653-656 | edge hover is never guarded |
| Registry.EdgeMouseOut | src/graph.ts:657-660 | edge unhover is never guarded |
| Registry.DragFreezesNodeHover | src/graph.ts:592-610 | for any registered node: while a node is pressed its mouseover and mouseout change nothing; after release its mouseover hovers it again |
| Registry.DragKeepsEdgeHover | src/graph.ts:653-660 | for any registered edge: while a node is pressed, its mouseover still hovers it and its mouseout still unhovers it |
| Registry.StepFrom | src/graph.ts:772-773 | the search returns the first threshold at or after i that the zoom does not exceed |
| Registry.ZoomStep | src/graph.ts:771-773 | the step lies in 0..5 and is the first index whose threshold the zoom does not exceed |
| Registry.ZoomStepCounts | src/graph.ts:772-773 | the step counts the thresholds strictly below the zoom |
| Registry.ZoomStepMonotone | src/graph.ts:772-773 | the step is non-decreasing in the zoom |
| Registry.ZoomStepExamples | src/graph.ts:772-773 | zoom 0.25 gives step 2; 0.1 and 0.05 give 0; 0.5 gives 4; 1.5 gives 5 |
| Registry.Least | src/graph.ts:354-356 | `Math.min` of the coordinates is one of them and below all of them |
| Registry.Greatest | src/graph.ts:355-357 | `Math.max` of the coordinates is one of them and above all of them |
| Registry.ResetView | src/graph.ts:347-372 | with no nodes the view centres on half the container; otherwise the centre is the box midpoint and the world is the box plus 2·100 on each axis |
| Registry.ResetViewContainsNodes | src/graph.ts:352-364 | every node lies in the world with at least 100 of padding on each side |
| Registry.SetNodeVisibility | src/graph.ts:791-798 | a known node gets the flag; an unknown key only logs an error |
| Registry.CheckNodeVisibility | src/graph.ts:800-807 | a known node returns its flag; an unknown key logs an error and returns undefined |
| Registry.SetEdgeVisibility | src/graph.ts:809-816 | a known edge gets the flag; an unknown key only logs an error |
| Registry.CheckEdgeVisibility | src/graph.ts:818-825 | a known edge returns its flag; an unknown key logs an error and returns undefined |
| Registry.VisibilityReadsBack | src/graph.ts:791-825 | a set flag reads back; on an unknown key both calls only log |
| Registry.Handle | src/graph.ts:641-647 | an added edge's handle is bilateral as `Bilateral` says, with the `bilateralKey` resolved for that edge's own attributes |
| Registry.Replay | src/graph.ts:374-407 | replay stops only at an event that is illegal for the graph at that point |
| Registry.FoldCons | src/graph.ts:374-407 | the graph after a run is the graph after its first event followed by the rest |
| Registry.HandleKeepsSync | src/graph.ts:374-407 | each handler keeps the handle maps equal to the graph's keys and never fails on a legal event |
| Registry.RegistryFollowsGraph | src/graph.ts:374-407 | along any legal run of graph events no drop fails and the maps track the graph's node and edge keys |
| Throttle.Fresh | src/utils/tools.ts:16-17 | the wrapper starts with no last call and nothing pending |
| Throttle.Expire | src/utils/tools.ts:28-32 | a due timer runs with its own arguments at its due time and stamps the last-call time |
| Throttle.Invoke | src/utils/tools.ts:22-33 | the first call or one ≥ delay after the last runs now and records now; otherwise it cancels the pending timer and schedules one due at last + delay |
| Throttle.Settle | src/utils/tools.ts:28-32 | once the calls stop, a pending timer runs with its arguments |
| Throttle.DeferredWaitBounds | src/utils/tools.ts:26-32 | the wait lies in (0, delay] and ends exactly delay after the last run |
| Throttle.StepKeepsInv | src/utils/tools.ts:19-33 | with run-time stamping, one call keeps the runs spaced by at least delay |
| Throttle.RunKeepsInv | src/utils/tools.ts:19-33 | with run-time stamping, any run of calls keeps the runs spaced |
| Throttle.RunTimeStampSpacesRuns | src/utils/tools.ts:19-33 | stamping the firing time spaces all runs at least delay apart |
| Throttle.ScheduledTimeStampRunsTooSoon | src/utils/tools.ts:31 | stamping the scheduling call's time lets runs come closer than delay |
| Throttle.StepKeepsPendingDue | src/utils/tools.ts:22-33 | a pending timer is due at last + delay, and a call that runs at once leaves nothing pending |
| Throttle.LastCallRuns | src/utils/tools.ts:22-33 | the last call's arguments always run eventually |
| Debounce.Fresh | src/utils/debounce.ts:23 | the delay defaults to 300 and nothing is pending |
| Debounce.Expire | src/utils/debounce.ts:27 | a due timer runs with its own arguments at its due time |
| Debounce.Invoke | src/utils/debounce.ts:25-28 | a call cancels the pending timer, schedules its own ms later and runs nothing |
| Debounce.Settle | src/utils/debounce.ts:27 | once the calls stop, the pending call runs |
| Debounce.Quiet | src/utils/debounce.ts:25-28 | the reference: a call runs ms after it iff the next call comes ms or more later |
| Debounce.RunFromPending | src/utils/debounce.ts:25-28 | from a pending timer, the runs are those the reference predicts and the last call stays pending |
| Debounce.DebounceRunsQuietCalls | src/utils/debounce.ts:23-29 | exactly the calls followed by ms of silence run, and then the last call, ms after it, with its arguments |
| Debounce.BurstRunsOnce | src/utils/debounce.ts:23-29 | calls at 0, 100 and 250 run once, at 550, with the last arguments |
| Watermark.ResolvedStyle | src/watermark.ts:58-64 | each given text style field overrides its default (Arial, 26, normal, black) |
| Watermark.Single | src/watermark.ts:47-77 | the single sprite is centre-anchored, rotated, and at the option's position unless in cover mode |
| Watermark.CoverScreen | src/watermark.ts:81-106 | nine top-left anchored sprites, each centred on its grid cell |
| Watermark.MakeWatermark | src/watermark.ts:20-42 | IMAGE and TEXT give 9 sprites in cover mode and 1 otherwise, with the right content; other types give none |
| Watermark.UncoveredAtPosition | src/watermark.ts:29-77 | outside cover mode the one sprite sits at the option's position |
| Watermark.CoverIgnoresPosition | src/watermark.ts:94-101 | in cover mode the option's position never matters |
| Watermark.CellsTile | src/watermark.ts:87-91 | each cell centre lies inside its own cell, and the nine centres are distinct |
| Watermark.GridExample | src/watermark.ts:90-91 | a 300 × 300 container puts centres at 50, 150 and 250 |

## Findings

| source | as written | input that shows it | evidently intended | confidence | as-written member | corrected member |
|---|---|---|---|---|---|---|
| src/renderers/node.ts:53, 66 | body and border texture keys leave out the node's shape, and the cached texture was drawn for whichever shape came first | a circle node of size 10, then a rect node of size 10: the rect gets the circle's disc texture | the keys include the shape | not executed | NodeRenderer.AsWrittenShapeCollision | NodeRenderer.CompleteKeysShowStyle |
| src/renderers/node.ts:80 | the icon key leaves out the font weight, though the texture is drawn with it | a normal-weight text icon, then the same icon in bold: the bold icon shows the normal texture | the key includes the weight | not executed | NodeRenderer.AsWrittenWeightCollision | NodeRenderer.CompleteKeysShowStyle |
| src/utils/tools.ts:31 | the deferred run stamps `lastCalledTime` with the time of the call that scheduled it, not the time it runs | delay 100, calls at 1000, 1050 and 1150: runs at 1000, 1100 and 1150, only 50 apart | the deferred run stamps the time it runs | not executed | Throttle.ScheduledTimeStampRunsTooSoon | Throttle.RunTimeStampSpacesRuns |

## Left out

- Pixi display objects (Sprite, Graphics, Container, child order, textures, tints) are not modelled. The model keeps only the fields the code reads back: positions, visibility, names, hit radius, texture keys and which drawing a key stands for.
- DOM and event plumbing are not modelled. That covers overlay styling, `addEventListener`/`removeEventListener`, the `TypedEmitter` events `PixiGraph` emits, `ResizeObserver` and the resource loader. Listener attachment is kept as boolean flags in the mode machines.
- pixi-viewport internals are left out. `toScreen` is a function parameter, and `resize`, `setZoom`, `fit` and the rest are the `ViewChange` value that `resetView` requests.
- Trigonometry is abstracted. `atan2`, `sin`, `cos`, `hypot` and `Math.sqrt(3)` become a distance with `d·d = dx² + dy²` and a constant with `s·s = 3`. `PixiEdge` properties whose proof divides by the distance assume that distance is positive (source and target apart).
- IEEE-754 floating point is not modelled beyond the slope clauses of `judge`. Rounding, signed zero, and overflow to Infinity of large finite values are outside the model.
- Registry.ZoomStep: a NaN zoom, for which `findIndex` returns −1, is not modelled. The zoom is a real.
- Style.Merge: deepmerge's array concatenation is not modelled. Arrays and other leaves are merged right-wins like primitives.
- Style.Merge: a top-level layer that resolves to a primitive is treated like a number or boolean: a record on the left is kept as it is. In deepmerge a `null` or `undefined` layer makes `Object.keys` throw, and a string layer adds its characters under index keys. Neither case is modelled. Nested primitives are not affected, because they replace the left value without reaching this case.
- NodeRenderer.UpdateNodeStyle: texture keys are lists of parts, so two different lists are two different keys. The source joins the parts with `::` into one string. Family `a::10`, size 5 and content `x` then give the same icon key as family `a`, size 10 and content `5::x`, and the second style would show the first one's texture. The model cannot show this collision.
- NodeAttach.NewNotInOld: `arrayComplement` is commented out in `src/utils/tools.ts` (lines 38-41), yet `src/renderers/node-attach.ts` imports it (line 9) and calls it (line 41). As shipped, that module does not type-check. The model gives the behaviour of the commented-out definition.
- NodeAttach.OldNotInNew: the other half of the same commented-out `arrayComplement`. It is modelled from that definition for the same reason.
- PixiNode.Create: `src/node.ts` line 92 calls `createNode(nodeGfx)` without the style argument that `src/renderers/node.ts` (lines 19 and 42) requires. The class also declares no `nodeAttachGfx`, yet `src/graph.ts` uses `node.nodeAttachGfx` (lines 452, 631 and 703). As shipped, these files do not type-check together. The model follows the call sites in `src/graph.ts`: a node has its graphics and label, and its badge container is modelled separately by `NodeAttach`.
- `src/utils/color.ts` (colour parsing) is not part of this model. Neither are `isUrl` and `isInteger` in `src/utils/tools.ts` nor `src/utils/text.ts`. Colours are opaque strings.
- The edge label renderer, the edge renderers and `PixiEdge.updateStyle`/`updateVisibility` are not modelled. Edge visibility by key is modelled on the handle's flag (`Registry.SetEdgeVisibility`), because `src/edge.ts` is not shown defining `edgeVisibility`/`checkEdgeVisibility`.
- Node labels are type parameters. Their style and visibility updates are function parameters of `PixiNode`.
- The texture cache is a map from key to the drawing the key was first made for. Destroying textures and `getOnly`/`set` for image icons are the same lookup-or-insert.
- Attach badge texture keys and badge colours (`node-attach.ts` 51-72, 81, 91) are not modelled. The badge layout, names and rebuild decision are.
- Culling (`@pixi-essentials/cull`), node dragging (`moveNode`, `enableNodeDragging`) and click detection by equal coordinates are left out. So is the per-node loop of `updateGraphVisibility`: the step is modelled and the per-node gate is `PixiNode.UpdateVisibility`.
- The bulk `createGraph` path is not modelled, and neither are `onGraphNodeAttributesUpdated` and its variants. They restyle without changing the maps.
- Registry.OnCleared: the order `Array.from(map.keys())` yields (insertion order) is an input snapshot. The drop order within each phase does not change the result.
- Watermark.ResolvedStyle: `Object.assign` also copies properties that are present but `undefined`, and it mutates `option.style`. The model treats a present-but-undefined field as absent and keeps the option immutable.
- Watermark.MakeWatermark: the rendered sprite size that `coverScreen` reads is a function parameter (`measure`). Image loading is not modelled.
- Real timers are not modelled. `throttle` and `Debounced` take the time of each call as input, and a pending timer runs exactly at its due time, before any later call. `this` binding is not modelled.
- Throttle.Invoke: `Date.now()` of 0 as a first call time is treated as "no last call", as the source's `!lastCalledTime` does. The invariants assume positive call times.

=== FILE: choose.dfy ===
/**
 * The `Choose` box-selection tool (src/functional/choose/choose.ts): an
 * overlay that, once shown by `start`, turns a press-drag-release into one
 * selection reported to the callback. Its `mouseup` inlines the non-lazy
 * predicate of `judge`, text for text, so the model reuses `Judge`.
 */
module Choose {
  import opened Wrappers
  import opened Geometry
  import opened JudgeSelected

  /** Callbacks are compared by identity only. */
  type CallbackId = nat

  /** One call of the selection callback. */
  datatype Report = Report(callback: CallbackId, selection: Selection)

  /**
   * The tool's fields. `area` is the selected-area div's geometry,
   * `moveListening` says whether the overlay's mousemove listener is
   * attached and `upArmed` whether the once-only document mouseup listener is.
   */
  datatype State = State(
    startX: real, startY: real,
    overlayShown: bool, areaShown: bool, area: Box,
    callback: Option<CallbackId>,
    isDragging: bool, moveListening: bool, upArmed: bool)

  /** The state after the constructor and `init`. */
  function Init(): (s: State)
    ensures !s.overlayShown && !s.isDragging && !s.upArmed && s.callback == None
  {
    State(0.0, 0.0, false, false, Box(0.0, 0.0, 10.0, 10.0), None, false, false, false)
  }

  /** `start(cb)`: show the overlay; a truthy callback replaces the stored one. */
  function Start(s: State, cb: Option<CallbackId>): (s': State)
    ensures s'.overlayShown
    ensures s'.callback == (if cb.Some? then cb else s.callback)
    ensures s' == s.(overlayShown := true, callback := s'.callback)
  {
    s.(overlayShown := true, callback := if cb.Some? then cb else s.callback)
  }

  /** `mousedown`: record the start corner, show a zero-size area there and begin dragging. */
  function MouseDown(s: State, x: real, y: real): (s': State)
    ensures s'.area == DragBox(Point(x, y), Point(x, y))
    ensures s' == s.(startX := x, startY := y, areaShown := true, area := DragBox(Point(x, y), Point(x, y)),
                     isDragging := true, moveListening := true, upArmed := true)
  {
    s.(startX := x, startY := y, areaShown := true, area := Box(x, y, 0.0, 0.0),
       isDragging := true, moveListening := true, upArmed := true)
  }

  /** `mousemove`: while dragging, the area is the box spanned by the start corner and the cursor. */
  function MouseMove(s: State, x: real, y: real): (s': State)
    ensures s.isDragging ==> s' == s.(area := DragBox(Point(s.startX, s.startY), Point(x, y)))
    ensures !s.isDragging ==> s' == s
  {
    if s.isDragging then
      var w := Abs(x - s.startX);
      var h := Abs(y - s.startY);
      s.(area := Box(Min(s.startX, x), Min(s.startY, y), w, h))
    else s
  }

  /**
   * `mouseup`: select with the non-lazy `judge` predicate between the start
   * corner and the release point, report it when a callback is set (even
   * for a zero-size drag), then hide everything and stop dragging.
   */
  function MouseUp(s: State, g: Graph, view: View, x: real, y: real): (res: (State, Option<Report>))
    requires ValidGraph(g)
    ensures res.1.Some? <==> s.callback.Some?
    ensures res.1.Some? ==>
              res.1.value == Report(s.callback.value, Judge(g, view, Point(s.startX, s.startY), Point(x, y), false))
    ensures !res.0.isDragging && !res.0.overlayShown && !res.0.areaShown && !res.0.moveListening
    ensures res.0.callback == s.callback
  {
    var sel := Judge(g, view, Point(s.startX, s.startY), Point(x, y), false);
    var report := if s.callback.Some? then Some(Report(s.callback.value, sel)) else None;
    (s.(overlayShown := false, areaShown := false, isDragging := false, moveListening := false), report)
  }

  // ---------------------------------------------------------------------
  // Event delivery: the overlay only receives presses while it is shown,
  // mousemove reaches the tool while its listener is attached, and the
  // document mouseup listener fires once per arming.

  datatype Event = StartEv(cb: Option<CallbackId>) | DownEv(x: real, y: real) | MoveEv(x: real, y: real) | UpEv(x: real, y: real)

  function Dispatch(s: State, g: Graph, view: View, e: Event): (State, Option<Report>)
    requires ValidGraph(g)
  {
    match e
    case StartEv(cb) => (Start(s, cb), None)
    case DownEv(x, y) => if s.overlayShown then (MouseDown(s, x, y), None) else (s, None)
    case MoveEv(x, y) => if s.moveListening then (MouseMove(s, x, y), None) else (s, None)
    case UpEv(x, y) =>
      if s.upArmed then
        var (s', r) := MouseUp(s, g, view, x, y);
        (s'.(upArmed := false), r)
      else (s, None)
  }

  /** The reports produced by a sequence of events. */
  function Run(s: State, g: Graph, view: View, evs: seq<Event>): seq<Report>
    requires ValidGraph(g)
    decreases |evs|
  {
    if evs == [] then []
    else
      var (s', r) := Dispatch(s, g, view, evs[0]);
      (if r.Some? then [r.value] else []) + Run(s', g, view, evs[1..])
  }

  predicate NoStart(evs: seq<Event>) {
    forall i :: 0 <= i < |evs| ==> !evs[i].StartEv?
  }

  /** Neither a press nor a release can reach the tool. */
  predicate Idle(s: State) {
    !s.overlayShown && !s.upArmed
  }

  lemma {:induction false} IdleRunsSilent(s: State, g: Graph, view: View, evs: seq<Event>)
    requires ValidGraph(g) && Idle(s) && NoStart(evs)
    ensures Run(s, g, view, evs) == []
    decreases |evs|
  {
    if evs != [] {
      var (s', r) := Dispatch(s, g, view, evs[0]);
      assert Idle(s') && r.None?;
      IdleRunsSilent(s', g, view, evs[1..]);
    }
  }

  /**
   * Between two calls of `start` the callback is called at most once:
   * the release that reports also hides the overlay, so no further press
   * reaches the tool.
   */
  lemma {:induction false} AtMostOneReportPerStart(s: State, g: Graph, view: View, evs: seq<Event>)
    requires ValidGraph(g) && NoStart(evs)
    ensures |Run(s, g, view, evs)| <= 1
    ensures Idle(s) ==> Run(s, g, view, evs) == []
    decreases |evs|
  {
    if Idle(s) {
      IdleRunsSilent(s, g, view, evs);
    } else if evs != [] {
      var (s', r) := Dispatch(s, g, view, evs[0]);
      if r.Some? {
        assert Idle(s');
        IdleRunsSilent(s', g, view, evs[1..]);
      } else {
        AtMostOneReportPerStart(s', g, view, evs[1..]);
      }
    }
  }

  /** The reported selection does not depend on the drag direction. */
  lemma DragDirectionIrrelevant(s: State, g: Graph, view: View, p: Point, q: Point)
    requires ValidGraph(g)
    ensures MouseUp(MouseDown(s, p.x, p.y), g, view, q.x, q.y).1 ==
            MouseUp(MouseDown(s, q.x, q.y), g, view, p.x, p.y).1
  {
    JudgeSwapInvariant(g, view, p, q, false);
  }

  /** There is no empty-drag guard: a press and release at one point still reports when a callback is set. */
  lemma ZeroSizeDragReports(s: State, g: Graph, view: View, x: real, y: real)
    requires ValidGraph(g) && s.callback.Some?
    ensures MouseUp(MouseDown(s, x, y), g, view, x, y).1 ==
      Some(Report(s.callback.value, Judge(g, view, Point(x, y), Point(x, y), false)))
  {
  }
}

=== FILE: choose_auto.dfy ===
/**
 * The `chooseAuto` mode (src/functional/choose/chooseAuto.ts): once
 * installed, every drag that starts on the bare viewport and is not a
 * node drag draws a rubber band in world coordinates and, on release,
 * selects through the non-lazy `judge` applied to the band's corners
 * mapped to the screen.
 */
module ChooseAuto {
  import opened Wrappers
  import opened Geometry
  import opened JudgeSelected
  import Choose

  type CallbackId = Choose.CallbackId

  datatype Report = Report(callback: CallbackId, selection: Selection)

  /**
   * The module-level variables; `band` is the drawn rectangle (`None`
   * once the graphics are cleared), `downListening` whether the viewport
   * mousedown listener is installed.
   */
  datatype State = State(
    isChoose: bool, startPoint: Point, endPointer: Point,
    callback: Option<CallbackId>, band: Option<Box>,
    downListening: bool, moveListening: bool, upArmed: bool)

  /** The module's state before `chooseAuto` is called. */
  const Initial: State := State(false, Point(0.0, 0.0), Point(0.0, 0.0), None, None, false, false, false)

  /** `chooseAuto(..., complete)`: install the press listener; the callback is overwritten, even by an absent one. */
  function Install(s: State, complete: Option<CallbackId>): (s': State)
    ensures s'.downListening && s'.callback == complete
    ensures s'.isChoose == s.isChoose && s'.upArmed == s.upArmed
  {
    s.(callback := complete, downListening := true)
  }

  /**
   * `mousedown`: ignored unless it hits the viewport itself while no node
   * is being dragged; otherwise start and end coincide at the press point.
   */
  function MouseDown(s: State, onViewport: bool, nodeDragging: bool, p: Point): (s': State)
    ensures !onViewport || nodeDragging ==> s' == s
    ensures onViewport && !nodeDragging ==>
              s'.isChoose && s'.startPoint == p && s'.endPointer == p && s'.moveListening && s'.upArmed
    ensures s'.callback == s.callback && s'.band == s.band
  {
    if !onViewport || nodeDragging then s
    else s.(isChoose := true, startPoint := p, endPointer := p, moveListening := true, upArmed := true)
  }

  /** `mousemove`: redraw the band spanned by the start and the cursor; the cursor becomes the end. */
  function MouseMove(s: State, p: Point): (s': State)
    ensures s'.band == Some(DragBox(s.startPoint, p)) && s'.endPointer == p
    ensures s'.startPoint == s.startPoint && s'.upArmed == s.upArmed && s'.callback == s.callback
  {
    s.(band := Some(Box(Min(s.startPoint.x, p.x), Min(s.startPoint.y, p.y),
                        Abs(p.x - s.startPoint.x), Abs(p.y - s.startPoint.y))),
       endPointer := p)
  }

  /**
   * `mouseup`: always clear the band, the flag and the move listener; a
   * band of no extent selects nothing, otherwise `judge` runs on the
   * corners mapped to the screen by `toScreen` and the result is reported
   * when a callback is stored.
   */
  function MouseUp(s: State, g: Graph, toScreen: View): (res: (State, Option<Report>))
    requires ValidGraph(g)
    ensures !res.0.isChoose && !res.0.moveListening && res.0.band.None?
    ensures res.0.startPoint == s.startPoint && res.0.endPointer == s.endPointer
    ensures res.0.callback == s.callback && res.0.upArmed == s.upArmed
    ensures res.1.Some? <==> s.callback.Some? && s.startPoint != s.endPointer
    ensures res.1.Some? ==>
              res.1.value == Report(s.callback.value,
                                    Judge(g, toScreen, toScreen(s.startPoint), toScreen(s.endPointer), false))
  {
    var s' := s.(band := None, isChoose := false, moveListening := false);
    if s.startPoint.x == s.endPointer.x && s.startPoint.y == s.endPointer.y then (s', None)
    else
      var data := Judge(g, toScreen, toScreen(s.startPoint), toScreen(s.endPointer), false);
      (s', if s.callback.Some? then Some(Report(s.callback.value, data)) else None)
  }

  // ---------------------------------------------------------------------
  // Event delivery.

  datatype Event =
    | InstallEv(complete: Option<CallbackId>)
    | DownEv(onViewport: bool, nodeDragging: bool, p: Point)
    | MoveEv(p: Point)
    | UpEv

  function Dispatch(s: State, g: Graph, toScreen: View, e: Event): (State, Option<Report>)
    requires ValidGraph(g)
  {
    match e
    case InstallEv(cb) => (Install(s, cb), None)
    case DownEv(v, d, p) => if s.downListening then (MouseDown(s, v, d, p), None) else (s, None)
    case MoveEv(p) => if s.moveListening then (MouseMove(s, p), None) else (s, None)
    case UpEv =>
      if s.upArmed then
        var (s', r) := MouseUp(s, g, toScreen);
        (s'.(upArmed := false), r)
      else (s, None)
  }

  function Run(s: State, g: Graph, toScreen: View, evs: seq<Event>): seq<Report>
    requires ValidGraph(g)
    decreases |evs|
  {
    if evs == [] then []
    else
      var (s', r) := Dispatch(s, g, toScreen, evs[0]);
      (if r.Some? then [r.value] else []) + Run(s', g, toScreen, evs[1..])
  }

  /** The number of presses in an event sequence. */
  function Presses(evs: seq<Event>): (n: nat)
    ensures n <= |evs|
    decreases |evs|
  {
    if evs == [] then 0 else (if evs[0].DownEv? then 1 else 0) + Presses(evs[1..])
  }

  /**
   * Each report is produced by the release of a distinct armed press: the
   * reports never outnumber the presses (plus one for a press already
   * armed).
   */
  lemma {:induction false} ReportsBoundedByPresses(s: State, g: Graph, toScreen: View, evs: seq<Event>)
    requires ValidGraph(g)
    ensures |Run(s, g, toScreen, evs)| <= Presses(evs) + (if s.upArmed then 1 else 0)
    decreases |evs|
  {
    if evs != [] {
      var (s', r) := Dispatch(s, g, toScreen, evs[0]);
      ReportsBoundedByPresses(s', g, toScreen, evs[1..]);
      assert r.Some? ==> evs[0].UpEv? && s.upArmed && !s'.upArmed;
      assert s'.upArmed && !s.upArmed ==> evs[0].DownEv?;
    }
  }

  /**
   * A click that does not move the cursor selects nothing, whatever the
   * graph, even when a mouseup listener from an earlier press is still armed.
   */
  lemma ClickSelectsNothing(s: State, g: Graph, toScreen: View, p: Point)
    requires ValidGraph(g) && s.downListening
    ensures Run(s, g, toScreen, [DownEv(true, false, p), UpEv]) == []
  {
    var s1 := MouseDown(s, true, false, p);
    assert [DownEv(true, false, p), UpEv][1..] == [UpEv];
    assert Run(s1, g, toScreen, [UpEv]) == [];
  }

  /** A drag on the viewport reports the `judge` of the screen images of its press and release points. */
  lemma DragReports(s: State, g: Graph, toScreen: View, cb: CallbackId, p: Point, q: Point)
    requires ValidGraph(g) && s.downListening && s.callback == Some(cb) && p != q
    ensures Run(s, g, toScreen, [DownEv(true, false, p), MoveEv(q), UpEv]) ==
            [Report(cb, Judge(g, toScreen, toScreen(p), toScreen(q), false))]
  {
    var evs := [DownEv(true, false, p), MoveEv(q), UpEv];
    var s1 := MouseDown(s, true, false, p);
    var s2 := MouseMove(s1, q);
    assert evs[1..] == [MoveEv(q), UpEv];
    assert evs[1..][1..] == [UpEv];
    assert Run(s2, g, toScreen, [UpEv]) == [Report(cb, Judge(g, toScreen, toScreen(p), toScreen(q), false))];
  }
}

=== FILE: choose_manual.dfy ===
/**
 * The `ChooseManual` tool (src/functional/choose/chooseManual.ts): a
 * selection mode entered by `start` and left by `cancel` (any key press)
 * or by completing one drag, whose release runs the non-lazy `judge`.
 */
module ChooseManual {
  import opened Wrappers
  import opened Geometry
  import opened JudgeSelected
  import Choose

  type CallbackId = Choose.CallbackId

  datatype Report = Report(callback: CallbackId, selection: Selection)

  /**
   * The tool's fields; `moveListening`, `upArmed` and `keyListening` say
   * which of its mousemove, once-only mouseup and keydown listeners are
   * attached.
   */
  datatype State = State(
    startX: real, startY: real,
    overlayShown: bool, areaShown: bool, area: Box,
    isChoose: bool, callback: Option<CallbackId>,
    moveListening: bool, upArmed: bool, keyListening: bool)

  /** The constructor: the completion callback, if given, is stored; the mode is off. */
  function Init(complete: Option<CallbackId>): (s: State)
    ensures !s.isChoose && !s.overlayShown && !s.upArmed && s.callback == complete
  {
    State(0.0, 0.0, false, false, Box(0.0, 0.0, 10.0, 10.0), false, complete, false, false, false)
  }

  /** `start(complete)`: enter the mode; a given callback replaces the stored one. */
  function Start(s: State, complete: Option<CallbackId>): (s': State)
    ensures s'.isChoose && s'.overlayShown && s'.keyListening
    ensures s'.callback == (if complete.Some? then complete else s.callback)
    ensures s'.upArmed == s.upArmed && s'.moveListening == s.moveListening
  {
    s.(isChoose := true, overlayShown := true, keyListening := true,
       callback := if complete.Some? then complete else s.callback)
  }

  /** `cancel`: leave the mode and detach the move and key listeners. */
  function Cancel(s: State): (s': State)
    ensures !s'.isChoose && !s'.overlayShown && !s'.areaShown
    ensures !s'.moveListening && !s'.keyListening
    ensures s'.callback == s.callback && s'.upArmed == s.upArmed
  {
    s.(overlayShown := false, areaShown := false, isChoose := false,
       moveListening := false, keyListening := false)
  }

  /** `mousedown`: ignored outside the mode; otherwise records the start corner and arms the drag. */
  function MouseDown(s: State, x: real, y: real): (s': State)
    ensures !s.isChoose ==> s' == s
    ensures s.isChoose ==> s'.startX == x && s'.startY == y && s'.upArmed && s'.moveListening
    ensures s.isChoose ==> s'.areaShown && s'.area == DragBox(Point(x, y), Point(x, y))
  {
    if !s.isChoose then s
    else s.(startX := x, startY := y, areaShown := true, area := Box(x, y, 0.0, 0.0),
            moveListening := true, upArmed := true)
  }

  /** `mousemove`: the area becomes the box spanned by the start corner and the cursor. */
  function MouseMove(s: State, x: real, y: real): (s': State)
    ensures s' == s.(area := DragBox(Point(s.startX, s.startY), Point(x, y)))
  {
    var w := Abs(x - s.startX);
    var h := Abs(y - s.startY);
    s.(area := Box(Min(s.startX, x), Min(s.startY, y), w, h))
  }

  /**
   * `mouseup`: run the non-lazy `judge` from the start corner to the
   * release point, report it when a callback is stored, then cancel.
   */
  function MouseUp(s: State, g: Graph, view: View, x: real, y: real): (res: (State, Option<Report>))
    requires ValidGraph(g)
    ensures res.1.Some? <==> s.callback.Some?
    ensures res.1.Some? ==>
              res.1.value == Report(s.callback.value, Judge(g, view, Point(s.startX, s.startY), Point(x, y), false))
    ensures res.0 == Cancel(s)
  {
    var sel := Judge(g, view, Point(s.startX, s.startY), Point(x, y), false);
    (Cancel(s), if s.callback.Some? then Some(Report(s.callback.value, sel)) else None)
  }

  // ---------------------------------------------------------------------
  // Event delivery: presses reach the overlay only while it is shown,
  // mousemove and keydown reach the tool while their listeners are
  // attached, and the document mouseup listener fires once per arming.

  datatype Event =
    | StartEv(complete: Option<CallbackId>)
    | DownEv(x: real, y: real)
    | MoveEv(x: real, y: real)
    | UpEv(x: real, y: real)
    | KeyEv

  function Dispatch(s: State, g: Graph, view: View, e: Event): (State, Option<Report>)
    requires ValidGraph(g)
  {
    match e
    case StartEv(cb) => (Start(s, cb), None)
    case DownEv(x, y) => if s.overlayShown then (MouseDown(s, x, y), None) else (s, None)
    case MoveEv(x, y) => if s.moveListening then (MouseMove(s, x, y), None) else (s, None)
    case UpEv(x, y) =>
      if s.upArmed then
        var (s', r) := MouseUp(s, g, view, x, y);
        (s'.(upArmed := false), r)
      else (s, None)
    case KeyEv => if s.keyListening then (Cancel(s), None) else (s, None)
  }

  function Run(s: State, g: Graph, view: View, evs: seq<Event>): seq<Report>
    requires ValidGraph(g)
    decreases |evs|
  {
    if evs == [] then []
    else
      var (s', r) := Dispatch(s, g, view, evs[0]);
      (if r.Some? then [r.value] else []) + Run(s', g, view, evs[1..])
  }

  predicate NoStart(evs: seq<Event>) {
    forall i :: 0 <= i < |evs| ==> !evs[i].StartEv?
  }

  /** Neither a press nor a release can reach the tool. */
  predicate Idle(s: State) {
    !s.overlayShown && !s.upArmed
  }

  lemma {:induction false} IdleRunsSilent(s: State, g: Graph, view: View, evs: seq<Event>)
    requires ValidGraph(g) && Idle(s) && NoStart(evs)
    ensures Run(s, g, view, evs) == []
    decreases |evs|
  {
    if evs != [] {
      var (s', r) := Dispatch(s, g, view, evs[0]);
      assert Idle(s') && r.None?;
      IdleRunsSilent(s', g, view, evs[1..]);
    }
  }

  /**
   * One selection per `start`: without a new `start`, the callback is
   * called at most once, because the reporting release also cancels the
   * mode. A key press cancels the mode but a drag already armed still
   * reports once on release.
   */
  lemma {:induction false} AtMostOneReportPerStart(s: State, g: Graph, view: View, evs: seq<Event>)
    requires ValidGraph(g) && NoStart(evs)
    ensures |Run(s, g, view, evs)| <= 1
    ensures Idle(s) ==> Run(s, g, view, evs) == []
    decreases |evs|
  {
    if Idle(s) {
      IdleRunsSilent(s, g, view, evs);
    } else if evs != [] {
      var (s', r) := Dispatch(s, g, view, evs[0]);
      if r.Some? {
        assert Idle(s');
        IdleRunsSilent(s', g, view, evs[1..]);
      } else {
        AtMostOneReportPerStart(s', g, view, evs[1..]);
      }
    }
  }

  /** A key press during an armed drag cancels the mode, yet the release still reports. */
  lemma CancelledDragStillReports(g: Graph, view: View, cb: CallbackId, p: Point, q: Point)
    requires ValidGraph(g)
    ensures Run(Init(Some(cb)), g, view, [StartEv(None), DownEv(p.x, p.y), KeyEv, UpEv(q.x, q.y)]) ==
            [Report(cb, Judge(g, view, p, q, false))]
  {
    var evs := [StartEv(None), DownEv(p.x, p.y), KeyEv, UpEv(q.x, q.y)];
    var s0 := Init(Some(cb));
    var s1 := Start(s0, None);
    var s2 := MouseDown(s1, p.x, p.y);
    var s3 := Cancel(s2);
    assert evs[1..] == [DownEv(p.x, p.y), KeyEv, UpEv(q.x, q.y)];
    assert evs[2..] == [KeyEv, UpEv(q.x, q.y)];
    assert Run(s3, g, view, [UpEv(q.x, q.y)]) == [Report(cb, Judge(g, view, p, q, false))];
    assert Run(s2, g, view, evs[2..]) == Run(s3, g, view, [UpEv(q.x, q.y)]);
  }
}

=== FILE: debounce.dfy ===
/**
 * `Debounced(fn, ms = 300)` (src/utils/debounce.ts) as a clock-driven state
 * machine: each call cancels the pending timeout and schedules a new one
 * `ms` later with its own arguments. A timer runs on time, before the call
 * that follows it; `Settle` lets the last one run once the calls stop.
 */
module Debounce {
  import opened Wrappers

  datatype Timer<A> = Timer(due: int, args: A)
  datatype Invocation<A> = Invocation(at: int, args: A)
  datatype Call<A> = Call(now: int, args: A)

  /** The wrapper's delay and its one pending timeout. */
  datatype State<A> = State(ms: int, pending: Option<Timer<A>>)

  const DefaultMs: int := 300

  /** `Debounced(fn)` / `Debounced(fn, ms)`: nothing pending yet. */
  function Fresh<A>(ms: int := DefaultMs): (s: State<A>)
    ensures s.pending.None? && s.ms == ms
  {
    State(ms, None)
  }

  /** Run the pending timer if it is due by `now`. */
  function Expire<A>(s: State<A>, now: int): (r: (State<A>, seq<Invocation<A>>))
    ensures s.pending.None? || now < s.pending.value.due ==> r == (s, [])
    ensures s.pending.Some? && s.pending.value.due <= now ==>
              r == (s.(pending := None), [Invocation(s.pending.value.due, s.pending.value.args)])
  {
    match s.pending
    case None => (s, [])
    case Some(t) => if t.due <= now then (s.(pending := None), [Invocation(t.due, t.args)]) else (s, [])
  }

  /**
   * The wrapper body: whatever was pending is cancelled and these arguments
   * are scheduled `ms` from now; nothing runs during the call.
   */
  function Invoke<A>(s: State<A>, c: Call<A>): (r: State<A>)
    ensures r.ms == s.ms && r.pending == Some(Timer(c.now + s.ms, c.args))
  {
    s.(pending := Some(Timer(c.now + s.ms, c.args)))
  }

  /** One call: a timer that has come due runs first, then the wrapper body. */
  function Step<A>(s: State<A>, c: Call<A>): (State<A>, seq<Invocation<A>>) {
    var (s1, out) := Expire(s, c.now);
    (Invoke(s1, c), out)
  }

  function Run<A>(s: State<A>, calls: seq<Call<A>>): (State<A>, seq<Invocation<A>>)
    decreases |calls|
  {
    if calls == [] then (s, [])
    else
      var (s1, out1) := Step(s, calls[0]);
      var (s2, out2) := Run(s1, calls[1..]);
      (s2, out1 + out2)
  }

  /** Let the pending timer run once the calls stop. */
  function Settle<A>(s: State<A>): (r: (State<A>, seq<Invocation<A>>))
    ensures r.0.pending.None?
    ensures s.pending.None? ==> r.1 == []
    ensures s.pending.Some? ==> r.1 == [Invocation(s.pending.value.due, s.pending.value.args)]
  {
    match s.pending
    case None => (s, [])
    case Some(t) => Expire(s, t.due)
  }

  /**
   * The reference behaviour: call i runs, `ms` after it and with its own
   * arguments, exactly when the next call comes `ms` or more later.
   */
  function Quiet<A>(calls: seq<Call<A>>, ms: int): (out: seq<Invocation<A>>)
    ensures |out| < |calls| || calls == []
    decreases |calls|
  {
    if |calls| <= 1 then []
    else
      (if calls[0].now + ms <= calls[1].now then [Invocation(calls[0].now + ms, calls[0].args)] else [])
      + Quiet(calls[1..], ms)
  }

  /** The state a call leaves behind: its own timer pending. */
  function PendingFor<A>(ms: int, c: Call<A>): State<A> {
    State(ms, Some(Timer(c.now + ms, c.args)))
  }

  /**
   * From the state the first call left, the later calls produce the runs the
   * reference predicts for all of them, and the last call's timer is left
   * pending.
   */
  lemma {:induction false} RunFromPending<A>(ms: int, calls: seq<Call<A>>)
    requires calls != []
    ensures var r := Run(PendingFor(ms, calls[0]), calls[1..]);
            r.1 == Quiet(calls, ms) && r.0 == PendingFor(ms, calls[|calls| - 1])
    decreases |calls|
  {
    var c, rest := calls[0], calls[1..];
    if rest == [] {
      assert Quiet(calls, ms) == [];
    } else {
      var out1 := if c.now + ms <= rest[0].now then [Invocation(c.now + ms, c.args)] else [];
      assert Step(PendingFor(ms, c), rest[0]) == (PendingFor(ms, rest[0]), out1);
      RunFromPending(ms, rest);
      var r1 := Run(PendingFor(ms, rest[0]), rest[1..]);
      assert Run(PendingFor(ms, c), rest) == (r1.0, out1 + r1.1);
      assert Quiet(calls, ms) == out1 + Quiet(rest, ms);
      assert rest[|rest| - 1] == calls[|calls| - 1];
    }
  }

  /**
   * Debouncing, stated over any run of calls: nothing runs at the time of a
   * call, only calls followed by `ms` of silence run, each `ms` after it
   * with its own arguments, and once the calls stop the last call runs too.
   */
  lemma DebounceRunsQuietCalls<A>(ms: int, calls: seq<Call<A>>)
    requires calls != []
    ensures var r := Run(Fresh(ms), calls);
            var last := calls[|calls| - 1];
            r.1 == Quiet(calls, ms) &&
            Settle(r.0).1 == [Invocation(last.now + ms, last.args)]
  {
    FreshRunPends(ms, calls);
    RunFromPending(ms, calls);
  }

  /** The first call on a fresh wrapper runs nothing and leaves its own timer pending. */
  lemma FreshRunPends<A>(ms: int, calls: seq<Call<A>>)
    requires calls != []
    ensures Run(Fresh(ms), calls) == Run(PendingFor(ms, calls[0]), calls[1..])
  {
    assert Step(Fresh<A>(ms), calls[0]) == (PendingFor(ms, calls[0]), []);
    var r1 := Run(PendingFor(ms, calls[0]), calls[1..]);
    assert [] + r1.1 == r1.1;
  }

  /** Calls closer together than `ms` collapse: a burst runs once, with its last arguments. */
  lemma BurstRunsOnce()
    ensures var calls := [Call(0, "a"), Call(100, "b"), Call(250, "c")];
            var r := Run(Fresh(), calls);
            r.1 == [] && Settle(r.0).1 == [Invocation(550, "c")]
  {
    var calls := [Call(0, "a"), Call(100, "b"), Call(250, "c")];
    DebounceRunsQuietCalls(DefaultMs, calls);
    assert calls[1..][1..] == [Call(250, "c")];
  }
}

=== FILE: ext_real.dfy ===
/**
 * The reals extended with the IEEE-754 special values that JavaScript
 * arithmetic can produce: +Infinity, -Infinity and NaN. Rounding and the
 * sign of zero are not modelled; every finite result is exact.
 */
module ExtReal {

  datatype Num = Fin(v: real) | PosInf | NegInf | NaN

  function Neg(a: Num): Num {
    match a
    case Fin(u) => Fin(-u)
    case PosInf => NegInf
    case NegInf => PosInf
    case NaN => NaN
  }

  /** Sign of a non-NaN value as -1, 0 or 1. */
  function Sign(a: Num): int
    requires !a.NaN?
  {
    match a
    case Fin(u) => if u < 0.0 then -1 else if u == 0.0 then 0 else 1
    case PosInf => 1
    case NegInf => -1
  }

  function InfOfSign(sg: int): Num
    requires sg == 1 || sg == -1
  {
    if sg == 1 then PosInf else NegInf
  }

  function Add(a: Num, b: Num): (c: Num)
    ensures a.Fin? && b.Fin? ==> c == Fin(a.v + b.v)
  {
    match (a, b)
    case (NaN, _) => NaN
    case (_, NaN) => NaN
    case (Fin(u), Fin(w)) => Fin(u + w)
    case (PosInf, NegInf) => NaN
    case (NegInf, PosInf) => NaN
    case (PosInf, _) => PosInf
    case (NegInf, _) => NegInf
    case (_, PosInf) => PosInf
    case (_, NegInf) => NegInf
  }

  function Sub(a: Num, b: Num): (c: Num)
    ensures a.Fin? && b.Fin? ==> c == Fin(a.v - b.v)
  {
    Add(a, Neg(b))
  }

  function Mul(a: Num, b: Num): (c: Num)
    ensures a.Fin? && b.Fin? ==> c == Fin(a.v * b.v)
  {
    if a.NaN? || b.NaN? then NaN
    else if a.Fin? && b.Fin? then Fin(a.v * b.v)
    else if Sign(a) == 0 || Sign(b) == 0 then NaN   // Infinity * 0
    else InfOfSign(Sign(a) * Sign(b))
  }

  function Div(a: Num, b: Num): (c: Num)
    ensures a.Fin? && b.Fin? && b.v != 0.0 ==> c == Fin(a.v / b.v)
  {
    if a.NaN? || b.NaN? then NaN
    else if a.Fin? && b.Fin? then
      if b.v != 0.0 then Fin(a.v / b.v)
      else if a.v == 0.0 then NaN                      // 0 / 0
      else InfOfSign(Sign(a))                          // x / 0
    else if a.Fin? then Fin(0.0)                       // x / Infinity
    else if b.Fin? then                                // Infinity / x
      if b.v == 0.0 then a else InfOfSign(Sign(a) * Sign(b))
    else NaN                                           // Infinity / Infinity
  }

  /** `a >= b`: false whenever either side is NaN. */
  predicate Ge(a: Num, b: Num) {
    match (a, b)
    case (NaN, _) => false
    case (_, NaN) => false
    case (Fin(u), Fin(w)) => u >= w
    case (PosInf, _) => true
    case (_, NegInf) => true
    case (_, _) => false
  }

  /** `a <= b`: false whenever either side is NaN. */
  predicate Le(a: Num, b: Num) {
    Ge(b, a)
  }

  /** No special value lies inside a finite closed interval. */
  lemma SpecialNotBetween(a: Num, lo: real, hi: real)
    requires !a.Fin?
    ensures !(Ge(a, Fin(lo)) && Le(a, Fin(hi)))
  {
  }
}

=== FILE: geometry.dfy ===
/**
 * Plane geometry over exact reals: points, axis-aligned rectangles and
 * closed segments, as used by the selection tools.
 */
module Geometry {

  datatype Point = Point(x: real, y: real)

  /** A closed axis-aligned rectangle [minX, maxX] x [minY, maxY]. */
  datatype Rect = Rect(minX: real, minY: real, maxX: real, maxY: real)

  /** The closed segment from `a` to `b`. */
  datatype Segment = Segment(a: Point, b: Point)

  /** `Math.min` on finite numbers. */
  function Min(u: real, v: real): (m: real)
    ensures m <= u && m <= v
    ensures m == u || m == v
  {
    if u <= v then u else v
  }

  /** `Math.max` on finite numbers. */
  function Max(u: real, v: real): (m: real)
    ensures u <= m && v <= m
    ensures m == u || m == v
  {
    if u <= v then v else u
  }

  /** `Math.abs`. */
  function Abs(u: real): (m: real)
    ensures 0.0 <= m
    ensures m == u || m == -u
  {
    if u < 0.0 then -u else u
  }

  predicate WellFormed(r: Rect) {
    r.minX <= r.maxX && r.minY <= r.maxY
  }

  /** The closed-rectangle membership test, boundary included. */
  predicate InRect(p: Point, r: Rect) {
    r.minX <= p.x <= r.maxX && r.minY <= p.y <= r.maxY
  }

  /**
   * The rectangle spanned by two drag corners: its bounds are the
   * coordinate-wise minima and maxima, so it is the smallest rectangle
   * holding both corners.
   */
  function NormRect(p: Point, q: Point): (r: Rect)
    ensures WellFormed(r)
    ensures InRect(p, r) && InRect(q, r)
    ensures forall s: Rect :: InRect(p, s) && InRect(q, s) ==>
              s.minX <= r.minX && r.maxX <= s.maxX && s.minY <= r.minY && r.maxY <= s.maxY
  {
    Rect(Min(p.x, q.x), Min(p.y, q.y), Max(p.x, q.x), Max(p.y, q.y))
  }

  /** Swapping the drag corners gives the same rectangle. */
  lemma NormRectSymmetric(p: Point, q: Point)
    ensures NormRect(p, q) == NormRect(q, p)
  {
  }

  /** The point at parameter `t` along the segment (`t` = 0 at `a`, 1 at `b`). */
  function PointAt(s: Segment, t: real): Point {
    Point(s.a.x + t * (s.b.x - s.a.x), s.a.y + t * (s.b.y - s.a.y))
  }

  /** The closed segment and the closed rectangle share at least one point. */
  ghost predicate Meets(s: Segment, r: Rect) {
    exists t: real :: 0.0 <= t <= 1.0 && InRect(PointAt(s, t), r)
  }

  /** A drawn selection box: top-left corner and size, as CSS or a Graphics rect takes it. */
  datatype Box = Box(left: real, top: real, width: real, height: real)

  /**
   * The box drawn while dragging from `p` to `q`: width and height are the
   * absolute differences and the corner is at the minima, so the box covers
   * exactly the rectangle the drag will select.
   */
  function DragBox(p: Point, q: Point): (b: Box)
    ensures 0.0 <= b.width && 0.0 <= b.height
    ensures b.left == NormRect(p, q).minX && b.left + b.width == NormRect(p, q).maxX
    ensures b.top == NormRect(p, q).minY && b.top + b.height == NormRect(p, q).maxY
  {
    Box(Min(p.x, q.x), Min(p.y, q.y), Abs(q.x - p.x), Abs(q.y - p.y))
  }
}

=== FILE: judge.dfy ===
/**
 * `judge` (src/functional/choose/judgeSelected.ts): given two screen
 * corners, the nodes whose screen position lies in the spanned closed
 * rectangle, and either the edges whose screen segment passes the
 * six-clause test or, in lazy mode, the edges incident to a selected node.
 */
module JudgeSelected {
  import opened Geometry
  import opened SegmentTest

  /** A graph node: its key and its world position (attributes x, y). */
  datatype NodeEntry = NodeEntry(key: string, pos: Point)

  /** A directed graph edge between two node keys. */
  datatype EdgeEntry = EdgeEntry(key: string, source: string, target: string)

  /** The graph as its node and edge iteration orders. */
  datatype Graph = Graph(nodes: seq<NodeEntry>, edges: seq<EdgeEntry>)

  /** The viewport's world-to-screen mapping. */
  type View = Point -> Point

  /** The two key lists `judge` returns. */
  datatype Selection = Selection(nodes: seq<string>, edges: seq<string>)

  predicate NoDup(s: seq<string>) {
    forall i, j :: 0 <= i < j < |s| ==> s[i] != s[j]
  }

  predicate HasNode(g: Graph, k: string) {
    exists i :: 0 <= i < |g.nodes| && g.nodes[i].key == k
  }

  predicate HasEdge(g: Graph, k: string) {
    exists i :: 0 <= i < |g.edges| && g.edges[i].key == k
  }

  /** What the graph library guarantees: unique keys and edges between existing nodes. */
  predicate ValidGraph(g: Graph) {
    && (forall i, j :: 0 <= i < j < |g.nodes| ==> g.nodes[i].key != g.nodes[j].key)
    && (forall i, j :: 0 <= i < j < |g.edges| ==> g.edges[i].key != g.edges[j].key)
    && (forall i :: 0 <= i < |g.edges| ==> HasNode(g, g.edges[i].source) && HasNode(g, g.edges[i].target))
  }

  /** The world position of the node with key `k`. */
  function PosIn(ns: seq<NodeEntry>, k: string): Point
    requires exists i :: 0 <= i < |ns| && ns[i].key == k
  {
    if ns[0].key == k then ns[0].pos else PosIn(ns[1..], k)
  }

  /** `graph.edges(n)`: the keys of the edges leaving or entering `n`, in edge order. */
  function IncidentEdges(es: seq<EdgeEntry>, n: string): (r: seq<string>)
    ensures forall k :: k in r <==> exists i :: 0 <= i < |es| && es[i].key == k && (es[i].source == n || es[i].target == n)
  {
    if es == [] then []
    else
      var rest := IncidentEdges(es[1..], n);
      assert forall i :: 1 <= i < |es| ==> es[i] == es[1..][i - 1];
      if es[0].source == n || es[0].target == n then [es[0].key] + rest else rest
  }

  /** `Set.add`: append the key unless it is already present. */
  function Add(acc: seq<string>, k: string): (r: seq<string>)
    ensures forall x :: x in r <==> x in acc || x == k
    ensures NoDup(acc) ==> NoDup(r)
  {
    if k in acc then acc else acc + [k]
  }

  /** Adding every key of `ks` in order. */
  function AddAll(acc: seq<string>, ks: seq<string>): (r: seq<string>)
    ensures forall x :: x in r <==> x in acc || x in ks
    ensures NoDup(acc) ==> NoDup(r)
    decreases |ks|
  {
    if ks == [] then acc else AddAll(Add(acc, ks[0]), ks[1..])
  }

  /** The node pass: keys of the nodes whose screen point lies in `r`. */
  function SelectNodes(ns: seq<NodeEntry>, view: View, r: Rect, acc: seq<string>): (res: seq<string>)
    ensures forall k :: k in res <==>
      k in acc || exists i :: 0 <= i < |ns| && ns[i].key == k && InRect(view(ns[i].pos), r)
    ensures NoDup(acc) ==> NoDup(res)
  {
    if ns == [] then acc
    else
      var acc' := if InRect(view(ns[0].pos), r) then Add(acc, ns[0].key) else acc;
      assert forall i :: 1 <= i < |ns| ==> ns[i] == ns[1..][i - 1];
      SelectNodes(ns[1..], view, r, acc')
  }

  /** The lazy edge pass: every edge incident to one of the selected nodes. */
  function LazyEdges(es: seq<EdgeEntry>, sel: seq<string>, acc: seq<string>): (res: seq<string>)
    ensures forall k :: k in res <==> k in acc || exists n :: n in sel && k in IncidentEdges(es, n)
    ensures NoDup(acc) ==> NoDup(res)
  {
    if sel == [] then acc
    else
      var acc' := AddAll(acc, IncidentEdges(es, sel[0]));
      assert forall n :: n in sel <==> n == sel[0] || n in sel[1..];
      assert forall k :: (exists n :: n in sel && k in IncidentEdges(es, n)) <==>
        k in IncidentEdges(es, sel[0]) || exists n :: n in sel[1..] && k in IncidentEdges(es, n);
      LazyEdges(es, sel[1..], acc')
  }

  /** The screen segment of an edge. */
  function ScreenSegment(g: Graph, view: View, e: EdgeEntry): Segment
    requires HasNode(g, e.source) && HasNode(g, e.target)
  {
    Segment(view(PosIn(g.nodes, e.source)), view(PosIn(g.nodes, e.target)))
  }

  predicate EndpointsExist(g: Graph, es: seq<EdgeEntry>) {
    forall i :: 0 <= i < |es| ==> HasNode(g, es[i].source) && HasNode(g, es[i].target)
  }

  /** The geometric edge pass: edges whose screen segment passes the six-clause test. */
  function SelectEdges(g: Graph, es: seq<EdgeEntry>, view: View, r: Rect, acc: seq<string>): (res: seq<string>)
    requires EndpointsExist(g, es)
    ensures forall k :: k in res <==>
      k in acc || exists i :: 0 <= i < |es| && es[i].key == k && Hits(ScreenSegment(g, view, es[i]), r)
    ensures NoDup(acc) ==> NoDup(res)
  {
    if es == [] then acc
    else
      var acc' := if Hits(ScreenSegment(g, view, es[0]), r) then Add(acc, es[0].key) else acc;
      assert forall i :: 1 <= i < |es| ==> es[i] == es[1..][i - 1];
      SelectEdges(g, es[1..], view, r, acc')
  }

  /**
   * `judge(graph, viewport, startPoint, endPoint, lazy)`. Both key lists
   * are duplicate-free and hold only keys of the graph.
   */
  function Judge(g: Graph, view: View, startPoint: Point, endPoint: Point, lazy: bool): (sel: Selection)
    requires ValidGraph(g)
    ensures NoDup(sel.nodes) && NoDup(sel.edges)
    ensures forall k :: k in sel.nodes ==> HasNode(g, k)
    ensures forall k :: k in sel.edges ==> HasEdge(g, k)
  {
    var r := NormRect(startPoint, endPoint);
    var nodes := SelectNodes(g.nodes, view, r, []);
    var edges := if lazy then LazyEdges(g.edges, nodes, []) else SelectEdges(g, g.edges, view, r, []);
    Selection(nodes, edges)
  }

  // ---------------------------------------------------------------------
  // What the result means.

  /** Swapping the two drag corners changes neither key list. */
  lemma JudgeSwapInvariant(g: Graph, view: View, p: Point, q: Point, lazy: bool)
    requires ValidGraph(g)
    ensures Judge(g, view, p, q, lazy) == Judge(g, view, q, p, lazy)
  {
    NormRectSymmetric(p, q);
  }

  /** A node is selected exactly when its screen point lies in the closed rectangle, boundary included. */
  lemma JudgeNodesExact(g: Graph, view: View, p: Point, q: Point, lazy: bool, k: string)
    requires ValidGraph(g)
    ensures k in Judge(g, view, p, q, lazy).nodes <==>
      exists i :: 0 <= i < |g.nodes| && g.nodes[i].key == k && InRect(view(g.nodes[i].pos), NormRect(p, q))
  {
  }

  /** In lazy mode the edges are exactly those incident to some selected node. */
  lemma JudgeLazyEdgesExact(g: Graph, view: View, p: Point, q: Point, k: string)
    requires ValidGraph(g)
    ensures var sel := Judge(g, view, p, q, true);
      k in sel.edges <==> exists n :: n in sel.nodes && k in IncidentEdges(g.edges, n)
  {
  }

  /**
   * In non-lazy mode an edge is selected exactly when its closed screen
   * segment meets the closed rectangle.
   */
  lemma JudgeEdgesGeometric(g: Graph, view: View, p: Point, q: Point, k: string)
    requires ValidGraph(g)
    ensures k in Judge(g, view, p, q, false).edges <==>
      exists i :: 0 <= i < |g.edges| && g.edges[i].key == k && Meets(ScreenSegment(g, view, g.edges[i]), NormRect(p, q))
  {
    var r := NormRect(p, q);
    forall i | 0 <= i < |g.edges|
      ensures Hits(ScreenSegment(g, view, g.edges[i]), r) <==> Meets(ScreenSegment(g, view, g.edges[i]), r)
    {
      HitsIffMeets(ScreenSegment(g, view, g.edges[i]), r);
    }
  }

  /** In non-lazy mode an edge whose two screen endpoints are inside the rectangle is selected. */
  lemma JudgeEdgeInside(g: Graph, view: View, p: Point, q: Point, i: nat)
    requires ValidGraph(g) && i < |g.edges|
    requires InsideClause(ScreenSegment(g, view, g.edges[i]), NormRect(p, q))
    ensures g.edges[i].key in Judge(g, view, p, q, false).edges
  {
  }
}

=== FILE: node_attach.dfy ===
/**
 * The badge group drawn above a node (src/renderers/node-attach.ts):
 * the decision whether the badge sprites must be rebuilt, the rebuilt
 * children, the two-row badge layout and the zoom gating of the badges.
 */
module NodeAttach {
  import opened Wrappers
  import opened Styles
  import Style

  /** A child sprite of the attach container; the placeholder has no name. */
  datatype Child = Child(name: Option<string>, visible: bool, x: real, y: real)

  /** The result of `Number(...)` on a one-character string. */
  datatype JsNum = Num(n: int) | NaN

  /** The characters JavaScript's `Number` reads as surrounding white space. */
  predicate JsWhiteSpace(c: char) {
    c == '\t' || c == '\n' || c == '\U{000B}' || c == '\U{000C}' || c == '\r' || c == ' ' ||
    c == '\U{00A0}' || c == '\U{1680}' || ('\U{2000}' <= c <= '\U{200A}') || c == '\U{2028}' ||
    c == '\U{2029}' || c == '\U{202F}' || c == '\U{205F}' || c == '\U{3000}' || c == '\U{FEFF}'
  }

  /** `Number(c)`: a digit is its value, white space alone is 0, anything else NaN. */
  function NumberOfChar(c: char): (v: JsNum)
    ensures v.Num? ==> 0 <= v.n <= 9
    ensures '0' <= c <= '9' ==> v == Num(c as int - '0' as int)
  {
    if '0' <= c <= '9' then Num(c as int - '0' as int)
    else if JsWhiteSpace(c) then Num(0)
    else NaN
  }

  // ---------------------------------------------------------------------
  // JavaScript strings are sequences of UTF-16 code units: `slice` counts
  // units, so a character beyond U+FFFF counts as two.

  /** A character outside the Basic Multilingual Plane, stored as a surrogate pair. */
  predicate Astral(c: char) { c as int >= 0x1_0000 }

  /** The UTF-16 code units of one character. */
  function CharUnits(c: char): (u: seq<int>)
    ensures |u| == (if Astral(c) then 2 else 1)
    ensures !Astral(c) ==> u[0] == c as int
    ensures Astral(c) ==> 0xD800 <= u[0] < 0xDC00 && 0xDC00 <= u[1] < 0xE000
  {
    if !Astral(c) then [c as int]
    else [0xD800 + (c as int - 0x1_0000) / 0x400, 0xDC00 + (c as int - 0x1_0000) % 0x400]
  }

  /** The UTF-16 code units of a string, as JavaScript stores it. */
  function Utf16(s: string): (u: seq<int>)
    ensures |u| >= |s|
    decreases |s|
  {
    if s == [] then [] else Utf16(s[..|s| - 1]) + CharUnits(s[|s| - 1])
  }

  /** `s.slice(0, -2)`, on code units. */
  function DropLastTwo(u: seq<int>): seq<int> {
    if |u| >= 2 then u[..|u| - 2] else []
  }

  /** `Number` of a one-unit string: a lone surrogate is not a number. */
  function NumberOfUnit(u: int): (v: JsNum)
    ensures 0 <= u < 0xD800 || 0xE000 <= u < 0x1_0000 ==> v == NumberOfChar(u as char)
    ensures 0xD800 <= u < 0xE000 ==> v == NaN
  {
    if 0 <= u < 0xD800 || 0xE000 <= u < 0x1_0000 then NumberOfChar(u as char) else NaN
  }

  const BadgePrefix: string := "NODE_ATTACH"

  /** The code units of `NODE_ATTACH`. */
  const PrefixUnits: seq<int> := [0x4E, 0x4F, 0x44, 0x45, 0x5F, 0x41, 0x54, 0x54, 0x41, 0x43, 0x48]

  /**
   * The names whose `slice(0, -2)` is `NODE_ATTACH`: the prefix, then
   * exactly two code units, which are either two characters of the Basic
   * Multilingual Plane or one character beyond it.
   */
  predicate BadgeShaped(name: string) {
    |name| >= 12 && name[..11] == BadgePrefix &&
    ((|name| == 13 && !Astral(name[11]) && !Astral(name[12])) || (|name| == 12 && Astral(name[11])))
  }

  /**
   * The entry a child contributes to the old group, as the source reads it
   * on UTF-16 code units: a name whose `slice(0, -2)` is `NODE_ATTACH`
   * counts, and its `slice(-1)` is read as a number. Only a badge-shaped
   * name passes, and one ending in a character beyond U+FFFF reads as NaN,
   * because its last unit is a lone surrogate.
   */
  function SliceEntry(c: Child): (e: Option<JsNum>)
    ensures e.Some? <==> c.name.Some? && BadgeShaped(c.name.value)
    ensures e.Some? && |c.name.value| == 13 ==> e.value == NumberOfChar(c.name.value[12])
    ensures e.Some? && |c.name.value| == 12 ==> e.value == NaN
  {
    if c.name.Some? && c.name.value != "" then
      var u := Utf16(c.name.value);
      BadgeUnits(c.name.value);
      if DropLastTwo(u) == PrefixUnits then Some(NumberOfUnit(u[|u| - 1])) else None
    else None
  }

  /** The entry of a child, read off its characters. */
  function OldEntry(c: Child): Option<JsNum> {
    if c.name.Some? && BadgeShaped(c.name.value) then
      Some(if |c.name.value| == 13 then NumberOfChar(c.name.value[12]) else NaN)
    else None
  }

  /** Reading a child's characters gives the entry the source's unit slices give. */
  lemma OldEntryIsSliceEntry(c: Child)
    ensures OldEntry(c) == SliceEntry(c)
  {
  }

  lemma CharUnitsInjective(a: char, b: char)
    requires CharUnits(a) == CharUnits(b)
    ensures a == b
  {
    if Astral(a) {
      assert Astral(b);
      var x, y := a as int - 0x1_0000, b as int - 0x1_0000;
      assert x == 0x400 * (x / 0x400) + x % 0x400;
      assert y == 0x400 * (y / 0x400) + y % 0x400;
    }
  }

  /** The last unit of a character is a low surrogate exactly when it is astral. */
  lemma LastUnit(c: char)
    ensures var u := CharUnits(c); Astral(c) <==> 0xDC00 <= u[|u| - 1] < 0xE000
  {
  }

  lemma AppendCancel(p: seq<int>, a: seq<int>, q: seq<int>, b: seq<int>)
    requires p + a == q + b && |a| == |b|
    ensures p == q && a == b
  {
    assert p == (p + a)[..|p|];
    assert q == (q + b)[..|q|];
    assert a == (p + a)[|p|..];
    assert b == (q + b)[|q|..];
  }

  lemma SnocEq(x: string, y: string)
    requires x != [] && y != [] && x[..|x| - 1] == y[..|y| - 1] && x[|x| - 1] == y[|y| - 1]
    ensures x == y
  {
    assert x == x[..|x| - 1] + [x[|x| - 1]];
    assert y == y[..|y| - 1] + [y[|y| - 1]];
  }

  /** Different strings have different code units. */
  lemma {:induction false} Utf16Injective(x: string, y: string)
    requires Utf16(x) == Utf16(y)
    ensures x == y
    decreases |x|
  {
    if x == [] {
      assert y == [];
    } else {
      assert y != [];
      var cx, cy := x[|x| - 1], y[|y| - 1];
      var ix, iy := x[..|x| - 1], y[..|y| - 1];
      var ax, ay := CharUnits(cx), CharUnits(cy);
      var u := Utf16(x);
      assert u == Utf16(ix) + ax;
      assert u == Utf16(iy) + ay;
      assert u[|u| - 1] == ax[|ax| - 1] == ay[|ay| - 1];
      LastUnit(cx);
      LastUnit(cy);
      AppendCancel(Utf16(ix), ax, Utf16(iy), ay);
      CharUnitsInjective(cx, cy);
      Utf16Injective(ix, iy);
      SnocEq(x, y);
    }
  }

  lemma {:induction false} PlaneUnits(s: string)
    requires forall i :: 0 <= i < |s| ==> !Astral(s[i])
    ensures |Utf16(s)| == |s|
    ensures forall i :: 0 <= i < |s| ==> Utf16(s)[i] == s[i] as int
    decreases |s|
  {
    if s != [] {
      PlaneUnits(s[..|s| - 1]);
    }
  }

  /** `NODE_ATTACH` is stored as its code units. */
  lemma PrefixIsUnits()
    ensures Utf16(BadgePrefix) == PrefixUnits
  {
    var p := BadgePrefix;
    assert forall i :: 0 <= i < |p| ==> !Astral(p[i]);
    assert forall i :: 0 <= i < |p| ==> p[i] as int == PrefixUnits[i];
    PlaneUnits(p);
  }

  /** `slice(0, -2)` of a name's units, by the kind of its last two characters. */
  lemma DropTwoUnits(name: string)
    requires name != []
    ensures var i1 := name[..|name| - 1];
            Astral(name[|name| - 1]) ==> DropLastTwo(Utf16(name)) == Utf16(i1)
    ensures |name| == 1 && !Astral(name[0]) ==> DropLastTwo(Utf16(name)) == []
    ensures |name| >= 2 && !Astral(name[|name| - 1]) && !Astral(name[|name| - 2]) ==>
              DropLastTwo(Utf16(name)) == Utf16(name[..|name| - 2])
    ensures |name| >= 2 && !Astral(name[|name| - 1]) && Astral(name[|name| - 2]) ==>
              var d := DropLastTwo(Utf16(name)); d != [] && 0xD800 <= d[|d| - 1] < 0xDC00
    ensures var u, a := Utf16(name), CharUnits(name[|name| - 1]); |u| >= 2 || |a| == 1 ==> u[|u| - 1] == a[|a| - 1]
  {
    var c1, i1 := name[|name| - 1], name[..|name| - 1];
    assert Utf16(name) == Utf16(i1) + CharUnits(c1);
    if |name| >= 2 {
      var c2, i2 := name[|name| - 2], name[..|name| - 2];
      assert i1[..|i1| - 1] == i2 && i1[|i1| - 1] == c2;
      assert Utf16(i1) == Utf16(i2) + CharUnits(c2);
    }
  }

  /** A prefix of a name whose units are those of `NODE_ATTACH` is `NODE_ATTACH`. */
  lemma PrefixFromUnits(name: string, k: nat)
    requires k <= |name| && Utf16(name[..k]) == PrefixUnits
    ensures k == 11 && name[..11] == BadgePrefix
  {
    PrefixIsUnits();
    Utf16Injective(name[..k], BadgePrefix);
  }

  /** Units that drop to those of `NODE_ATTACH` come from a badge-shaped name. */
  lemma ShapedOfUnits(name: string)
    requires DropLastTwo(Utf16(name)) == PrefixUnits
    ensures BadgeShaped(name)
  {
    assert name != [];
    DropTwoUnits(name);
    var n := |name|;
    if Astral(name[n - 1]) {
      PrefixFromUnits(name, n - 1);
    } else if Astral(name[n - 2]) {
      assert false;
    } else {
      PrefixFromUnits(name, n - 2);
    }
  }

  /** The code units of a badge-shaped name: the prefix's, then two more. */
  lemma UnitsOfShaped(name: string)
    requires BadgeShaped(name)
    ensures DropLastTwo(Utf16(name)) == PrefixUnits
    ensures |name| == 13 ==> Utf16(name)[12] == name[12] as int
    ensures |name| == 12 ==> 0xDC00 <= Utf16(name)[12] < 0xE000
  {
    PrefixIsUnits();
    DropTwoUnits(name);
    var n := |name|;
    if n == 12 {
      assert name[..n - 1] == BadgePrefix;
    } else {
      assert name[..n - 2] == BadgePrefix;
    }
    assert |Utf16(name)| == 13;
  }

  /** What `slice(0, -2) === NODE_ATTACH` and `slice(-1)` see of a name. */
  lemma BadgeUnits(name: string)
    ensures DropLastTwo(Utf16(name)) == PrefixUnits <==> BadgeShaped(name)
    ensures BadgeShaped(name) && |name| == 13 ==> Utf16(name)[12] == name[12] as int
    ensures BadgeShaped(name) && |name| == 12 ==> 0xDC00 <= Utf16(name)[12] < 0xE000
  {
    if DropLastTwo(Utf16(name)) == PrefixUnits {
      ShapedOfUnits(name);
    }
    if BadgeShaped(name) {
      UnitsOfShaped(name);
    }
  }

  function OldGroup(cs: seq<Child>): (g: seq<JsNum>)
    ensures forall i :: 0 <= i < |g| ==> g[i].Num? ==> 0 <= g[i].n <= 9
    decreases |cs|
  {
    if cs == [] then []
    else
      var e := OldEntry(cs[|cs| - 1]);
      OldGroup(cs[..|cs| - 1]) + (if e.Some? then [e.value] else [])
  }

  // ---------------------------------------------------------------------
  // arrayComplement, as its commented definition in src/utils/tools.ts
  // gives it: the entries of each array that `indexOf` does not find in
  // the other (strict equality, so NaN and strings never match a number).

  predicate StrictEq(x: GroupItem, v: JsNum) {
    x.NumItem? && v.Num? && x.n == v.n
  }

  predicate FoundInOld(x: GroupItem, prev: seq<JsNum>) {
    exists v :: v in prev && StrictEq(x, v)
  }

  predicate FoundInNew(v: JsNum, xs: seq<GroupItem>) {
    exists x :: x in xs && StrictEq(x, v)
  }

  function NewNotInOld(xs: seq<GroupItem>, prev: seq<JsNum>): (r: seq<GroupItem>)
    ensures forall x :: x in r <==> x in xs && !FoundInOld(x, prev)
    decreases |xs|
  {
    if xs == [] then []
    else (if FoundInOld(xs[0], prev) then [] else [xs[0]]) + NewNotInOld(xs[1..], prev)
  }

  function OldNotInNew(prev: seq<JsNum>, xs: seq<GroupItem>): (r: seq<JsNum>)
    ensures forall v :: v in r <==> v in prev && !FoundInNew(v, xs)
    decreases |prev|
  {
    if prev == [] then []
    else (if FoundInNew(prev[0], xs) then [] else [prev[0]]) + OldNotInNew(prev[1..], xs)
  }

  /** The length of `arrayComplement(newGroup, oldGroup)`. */
  function DiffLength(xs: seq<GroupItem>, prev: seq<JsNum>): nat {
    |NewNotInOld(xs, prev)| + |OldNotInNew(prev, xs)|
  }

  /** The diff is empty exactly when each entry of either array is strictly equal to one of the other. */
  lemma DiffEmptyIff(xs: seq<GroupItem>, prev: seq<JsNum>)
    ensures DiffLength(xs, prev) == 0 <==>
              (forall x :: x in xs ==> FoundInOld(x, prev)) && (forall v :: v in prev ==> FoundInNew(v, xs))
  {
    var a := NewNotInOld(xs, prev);
    var b := OldNotInNew(prev, xs);
    if |a| > 0 { assert a[0] in a; }
    if |b| > 0 { assert b[0] in b; }
  }

  // ---------------------------------------------------------------------
  // Badge layout.

  /** `setAttachItemX`: at most five badges per row, each row centred on the node. */
  function AttachX(n: nat, i: nat, size: real, colGap: real): real {
    var len := if n > 5 then (size + colGap) * 5.0 - colGap else (size + colGap) * (n as real) - colGap;
    if i >= 5 then (size + colGap) * ((i - 5) as real) - len / 2.0 + size / 2.0
    else (size + colGap) * (i as real) - len / 2.0 + size / 2.0
  }

  /** `setAttachItemY`: with more than five badges the first five form an upper row. */
  function AttachY(outer: real, n: nat, i: nat, size: real, crevice: real, rowGap: real): real {
    if n > 5 && i < 5 then -outer - size / 2.0 - crevice - size - rowGap
    else -outer - size / 2.0 - crevice
  }

  /** A single row is symmetric about the node's centre. */
  lemma SingleRowSymmetric(n: nat, i: nat, size: real, colGap: real)
    requires i < n <= 5
    ensures AttachX(n, i, size, colGap) + AttachX(n, n - 1 - i, size, colGap) == 0.0
  {
    var k := size + colGap;
    assert k * (i as real) + k * ((n - 1 - i) as real) == k * (n as real) - k;
  }

  /** Neighbours in a row are one badge plus one column gap apart. */
  lemma RowSpacing(n: nat, i: nat, size: real, colGap: real)
    requires i + 1 != 5
    ensures AttachX(n, i + 1, size, colGap) - AttachX(n, i, size, colGap) == size + colGap
  {
    var k := size + colGap;
    if i >= 5 {
      assert k * ((i + 1 - 5) as real) == k * ((i - 5) as real) + k;
    } else {
      assert k * ((i + 1) as real) == k * (i as real) + k;
    }
  }

  /** Badges 5 to 9 sit below badges 0 to 4, column by column. */
  lemma SecondRowAligned(n: nat, i: nat, size: real, colGap: real)
    requires 5 <= i < 10
    ensures AttachX(n, i, size, colGap) == AttachX(n, i - 5, size, colGap)
  {
  }

  /**
   * The rows: every badge is above the node's outer circle by half a badge
   * plus the crevice, and with more than five badges the first five are a
   * badge plus the row gap higher.
   */
  lemma RowHeights(outer: real, n: nat, i: nat, size: real, crevice: real, rowGap: real)
    ensures n > 5 && i < 5 ==>
              AttachY(outer, n, i, size, crevice, rowGap) ==
              AttachY(outer, n, 5, size, crevice, rowGap) - size - rowGap
    ensures !(n > 5 && i < 5) ==> AttachY(outer, n, i, size, crevice, rowGap) == -(outer + size / 2.0 + crevice)
  {
  }

  // ---------------------------------------------------------------------
  // The rebuild.

  /** The decimal text of an integer, as a template literal writes it. */
  function IntToString(n: int): string {
    if n >= 0 then Style.NatToString(n) else "-" + Style.NatToString(-n)
  }

  function ItemText(g: GroupItem): string {
    match g
    case NumItem(n) => IntToString(n)
    case StrItem(s) => s
  }

  function BadgeName(g: GroupItem): string { BadgePrefix + "_" + ItemText(g) }

  function TextName(g: GroupItem): string { "NODE_ATTACH_TEXT_" + ItemText(g) }

  /** The badge and text sprites of the first `k` entries of the group. */
  function Sprites(items: seq<GroupItem>, k: nat, a: AttachStyle, outer: real): (cs: seq<Child>)
    requires k <= |items|
    ensures |cs| == 2 * k
    decreases k
  {
    if k == 0 then []
    else
      var i := k - 1;
      var x := AttachX(|items|, i, a.size, a.colGap);
      var y := AttachY(outer, |items|, i, a.size, a.crevice, a.rowGap);
      Sprites(items, i, a, outer) +
      [Child(Some(BadgeName(items[i])), true, x, y), Child(Some(TextName(items[i])), true, x, y)]
  }

  /** Entry `i` yields its badge and then its text sprite, both named after it and at its grid position. */
  lemma {:induction false} SpritesAt(items: seq<GroupItem>, k: nat, a: AttachStyle, outer: real)
    requires k <= |items|
    ensures var cs := Sprites(items, k, a, outer);
            forall i :: 0 <= i < k ==>
              var x := AttachX(|items|, i, a.size, a.colGap);
              var y := AttachY(outer, |items|, i, a.size, a.crevice, a.rowGap);
              cs[2 * i] == Child(Some(BadgeName(items[i])), true, x, y) &&
              cs[2 * i + 1] == Child(Some(TextName(items[i])), true, x, y)
    decreases k
  {
    if k > 0 {
      SpritesAt(items, k - 1, a, outer);
    }
  }

  /** The children after a rebuild: an unnamed placeholder, then a badge and a text per entry. */
  function Rebuild(items: seq<GroupItem>, a: AttachStyle, outer: real): seq<Child> {
    [Child(None, true, 0.0, 0.0)] + Sprites(items, |items|, a, outer)
  }

  datatype Outcome = NotAnArray | Unchanged | Rebuilt(children: seq<Child>)

  /**
   * `updateNodeAttachGroup`: a group that is not an array is refused and
   * the children are left alone; otherwise the children are rebuilt exactly
   * when the diff between the new group and the prev one read off the
   * badge names is non-empty.
   */
  function UpdateNodeAttachGroup(children: seq<Child>, s: NodeStyle): (r: Outcome)
    ensures r.NotAnArray? <==> s.attach.group.NotArray?
    ensures r.Unchanged? <==> s.attach.group.Items? && DiffLength(s.attach.group.items, OldGroup(children)) == 0
    ensures r.Rebuilt? ==>
              var items := s.attach.group.items;
              |r.children| == 1 + 2 * |items| && r.children[0].name.None? &&
              forall i :: 0 <= i < |items| ==>
                r.children[1 + 2 * i].name == Some(BadgeName(items[i])) &&
                r.children[2 + 2 * i].name == Some(TextName(items[i])) &&
                r.children[1 + 2 * i].x == r.children[2 + 2 * i].x == AttachX(|items|, i, s.attach.size, s.attach.colGap)
  {
    match s.attach.group
    case NotArray => NotAnArray
    case Items(items) =>
      if DiffLength(items, OldGroup(children)) > 0 then
        var cs := Rebuild(items, s.attach, OuterSize(s));
        SpritesAt(items, |items|, s.attach, OuterSize(s));
        assert forall i :: 0 <= i < |items| ==> cs[1 + 2 * i] == Sprites(items, |items|, s.attach, OuterSize(s))[2 * i];
        assert forall i :: 0 <= i < |items| ==> cs[2 + 2 * i] == Sprites(items, |items|, s.attach, OuterSize(s))[2 * i + 1];
        Rebuilt(cs)
      else Unchanged
  }

  predicate SingleDigits(items: seq<GroupItem>) {
    forall i :: 0 <= i < |items| ==> items[i].NumItem? && 0 <= items[i].n <= 9
  }

  lemma DigitName(d: int)
    requires 0 <= d <= 9
    ensures IntToString(d) == [Style.DigitChar(d)]
  {
  }

  /** The badge sprite of a digit reads back as that digit. */
  lemma BadgeEntry(g: GroupItem, x: real, y: real)
    requires g.NumItem? && 0 <= g.n <= 9
    ensures OldEntry(Child(Some(BadgeName(g)), true, x, y)) == Some(Num(g.n))
  {
    DigitName(g.n);
    var name := BadgeName(g);
    assert name == BadgePrefix + "_" + [Style.DigitChar(g.n)];
    assert |name| == 13 && name[..11] == BadgePrefix && name[11] == '_' && name[12] == Style.DigitChar(g.n);
  }

  /** Text sprites never enter the old group. */
  lemma TextEntry(g: GroupItem, x: real, y: real)
    ensures OldEntry(Child(Some(TextName(g)), true, x, y)).None?
  {
    assert |TextName(g)| >= 17;
  }

  lemma OldGroupSnoc(cs: seq<Child>, c: Child)
    ensures OldGroup(cs + [c]) == OldGroup(cs) + (if OldEntry(c).Some? then [OldEntry(c).value] else [])
  {
    assert (cs + [c])[..|cs|] == cs;
  }

  /** The first `k` entries of a group as the numbers they stand for. */
  function Digits(items: seq<GroupItem>, k: nat): (d: seq<JsNum>)
    requires k <= |items| && SingleDigits(items)
    decreases k
  {
    if k == 0 then [] else Digits(items, k - 1) + [Num(items[k - 1].n)]
  }

  lemma {:induction false} DigitsAt(items: seq<GroupItem>, k: nat)
    requires k <= |items| && SingleDigits(items)
    ensures |Digits(items, k)| == k
    ensures forall i :: 0 <= i < k ==> Digits(items, k)[i] == Num(items[i].n)
    decreases k
  {
    if k > 0 {
      DigitsAt(items, k - 1);
    }
  }

  /** Reading back the sprites of a group of single digits gives the digits, in order. */
  lemma {:induction false} OldGroupOfSprites(items: seq<GroupItem>, k: nat, a: AttachStyle, outer: real)
    requires k <= |items| && SingleDigits(items)
    ensures OldGroup(Sprites(items, k, a, outer)) == Digits(items, k)
    decreases k
  {
    if k > 0 {
      SpritesStep(items, k, a, outer);
      OldGroupOfSprites(items, k - 1, a, outer);
    }
  }

  /** One more badge-and-text pair adds its digit to the old group. */
  lemma SpritesStep(items: seq<GroupItem>, k: nat, a: AttachStyle, outer: real)
    requires 0 < k <= |items| && SingleDigits(items)
    ensures OldGroup(Sprites(items, k, a, outer)) == OldGroup(Sprites(items, k - 1, a, outer)) + [Num(items[k - 1].n)]
  {
    var i := k - 1;
    var prev := Sprites(items, i, a, outer);
    var x := AttachX(|items|, i, a.size, a.colGap);
    var y := AttachY(outer, |items|, i, a.size, a.crevice, a.rowGap);
    var badge := Child(Some(BadgeName(items[i])), true, x, y);
    var text := Child(Some(TextName(items[i])), true, x, y);
    assert Sprites(items, k, a, outer) == prev + [badge, text];
    BadgeEntry(items[i], x, y);
    TextEntry(items[i], x, y);
    OldGroupPair(prev, badge, text);
  }

  /** A badge followed by its text adds the badge's entry alone. */
  lemma OldGroupPair(cs: seq<Child>, badge: Child, text: Child)
    requires OldEntry(badge).Some? && OldEntry(text).None?
    ensures OldGroup(cs + [badge, text]) == OldGroup(cs) + [OldEntry(badge).value]
  {
    assert cs + [badge, text] == (cs + [badge]) + [text];
    OldGroupSnoc(cs, badge);
    OldGroupSnoc(cs + [badge], text);
  }

  lemma OldGroupOfRebuild(items: seq<GroupItem>, a: AttachStyle, outer: real)
    requires SingleDigits(items)
    ensures var prev := OldGroup(Rebuild(items, a, outer));
            |prev| == |items| && forall i :: 0 <= i < |items| ==> prev[i] == Num(items[i].n)
  {
    var sp := Sprites(items, |items|, a, outer);
    OldGroupOfSprites(items, |items|, a, outer);
    DigitsAt(items, |items|);
    OldGroupPrefix(Child(None, true, 0.0, 0.0), sp);
  }

  /** A leading child that contributes no entry does not change the prev group. */
  lemma {:induction false} OldGroupPrefix(c: Child, cs: seq<Child>)
    requires OldEntry(c).None?
    ensures OldGroup([c] + cs) == OldGroup(cs)
    decreases |cs|
  {
    if cs != [] {
      assert ([c] + cs)[..|cs|] == [c] + cs[..|cs| - 1];
      assert ([c] + cs)[|cs|] == cs[|cs| - 1];
      OldGroupPrefix(c, cs[..|cs| - 1]);
    } else {
      assert OldGroup([c]) == OldGroup([]) + [];
    }
  }

  /** A group of distinct-or-repeated single digits is not rebuilt a second time. */
  lemma DigitGroupsAreStable(children: seq<Child>, s: NodeStyle)
    requires s.attach.group.Items? && SingleDigits(s.attach.group.items)
    requires UpdateNodeAttachGroup(children, s).Rebuilt?
    ensures UpdateNodeAttachGroup(UpdateNodeAttachGroup(children, s).children, s) == Unchanged
  {
    var items := s.attach.group.items;
    var cs := Rebuild(items, s.attach, OuterSize(s));
    OldGroupOfRebuild(items, s.attach, OuterSize(s));
    var prev := OldGroup(cs);
    forall x | x in items ensures FoundInOld(x, prev) {
      var i :| 0 <= i < |items| && items[i] == x;
      assert prev[i] in prev;
    }
    forall v | v in prev ensures FoundInNew(v, items) {
      var i :| 0 <= i < |prev| && prev[i] == v;
      assert items[i] in items;
    }
    DiffEmptyIff(items, prev);
  }

  /**
   * An entry that is not a single digit (a string, a negative number or
   * one of two or more digits) never matches a badge name, so such a group
   * is rebuilt on every update.
   */
  lemma OtherGroupsAlwaysRebuild(children: seq<Child>, s: NodeStyle, j: nat)
    requires s.attach.group.Items? && j < |s.attach.group.items|
    requires var g := s.attach.group.items[j]; !(g.NumItem? && 0 <= g.n <= 9)
    ensures UpdateNodeAttachGroup(children, s).Rebuilt?
  {
    var items := s.attach.group.items;
    var prev := OldGroup(children);
    assert !FoundInOld(items[j], prev);
    assert items[j] in items;
    DiffEmptyIff(items, prev);
  }

  /**
   * An item beyond U+FFFF, such as an emoji, makes a badge name three code
   * units past `NODE_ATTACH`, so it is never read back: a later empty group
   * finds nothing to remove and the stale badge stays.
   */
  lemma AstralBadgeLeftInPlace(a: AttachStyle, outer: real, s: NodeStyle)
    requires s.attach.group == Items([])
    ensures var cs := Rebuild([StrItem("\U{1F600}")], a, outer);
            OldGroup(cs) == [] && UpdateNodeAttachGroup(cs, s) == Unchanged
  {
    var items := [StrItem("\U{1F600}")];
    var cs := Rebuild(items, a, outer);
    var x := AttachX(1, 0, a.size, a.colGap);
    var y := AttachY(outer, 1, 0, a.size, a.crevice, a.rowGap);
    var badge := Child(Some(BadgeName(items[0])), true, x, y);
    var text := Child(Some(TextName(items[0])), true, x, y);
    assert cs == [Child(None, true, 0.0, 0.0), badge, text];
    assert |BadgeName(items[0])| == 13 && Astral(BadgeName(items[0])[12]);
    assert OldEntry(badge).None?;
    TextEntry(items[0], x, y);
    assert OldGroup(cs) == OldGroup(cs[..2]) == OldGroup(cs[..1]) == [];
    DiffEmptyIff([], []);
  }

  // ---------------------------------------------------------------------
  // Level of detail.

  /** `updateNodeAttachVisibility`: every child needs step 2. */
  function UpdateAttachVisibility(cs: seq<Child>, zoomStep: int): (r: seq<Child>)
    ensures |r| == |cs|
    ensures forall i :: 0 <= i < |cs| ==>
              r[i].visible == (cs[i].visible && zoomStep >= 2) && r[i].(visible := cs[i].visible) == cs[i]
    decreases |cs|
  {
    if cs == [] then []
    else [cs[0].(visible := cs[0].visible && zoomStep >= 2)] + UpdateAttachVisibility(cs[1..], zoomStep)
  }

  /** The gating never shows a hidden badge and repeating it changes nothing. */
  lemma AttachVisibilityIdempotent(cs: seq<Child>, zoomStep: int)
    ensures UpdateAttachVisibility(UpdateAttachVisibility(cs, zoomStep), zoomStep) == UpdateAttachVisibility(cs, zoomStep)
    ensures forall i :: 0 <= i < |cs| ==> UpdateAttachVisibility(cs, zoomStep)[i].visible ==> cs[i].visible
  {
    var once := UpdateAttachVisibility(cs, zoomStep);
    assert UpdateAttachVisibility(once, zoomStep) == once;
  }
}

=== FILE: node_renderer.dfy ===
/**
 * The node renderer (src/renderers/node.ts): which textures a node's
 * sprites get from the texture cache, how the image icon and the hit area
 * are sized, and how the zoom step gates the border and icon sprites.
 */
module NodeRenderer {
  import opened Styles
  import opened Wrappers

  /** What a cached texture shows. `Blank` is the empty drawing of an unknown shape. */
  datatype Drawing =
    | Disc(radius: real)
    | Square(side: real)
    | Blank
    | Glyphs(kind: string, family: string, fontSize: real, fontWeight: string, content: string)
    | Picture(url: string)

  /** One component of a texture key; the key is the `::`-joined list of its parts. */
  datatype KeyPart = S(s: string) | N(n: real)

  type Key = seq<KeyPart>

  /** The texture cache: a memo from keys to drawings. */
  type Cache = map<Key, Drawing>

  /** The texture the cache holds for `key`, made by `make` and stored when it is absent. */
  function Cached(cache: Cache, key: Key, make: Drawing): (res: (Cache, Drawing))
    ensures key in res.0 && res.0[key] == res.1
    ensures res.1 == (if key in cache then cache[key] else make)
    ensures forall k :: k in cache ==> k in res.0 && res.0[k] == cache[k]
    ensures res.0.Keys == cache.Keys + {key}
  {
    if key in cache then (cache, cache[key]) else (cache[key := make], make)
  }

  /** What `cache` hands out for `key` when `make` would draw it. */
  function Lookup(cache: Cache, key: Key, make: Drawing): Drawing {
    if key in cache then cache[key] else make
  }

  /** The white fill drawn for a shape: a disc for `circle`, a square for `rect`, nothing otherwise. */
  function ShapeDrawing(shape: string, extent: real): Drawing {
    if shape == "circle" then Disc(extent) else if shape == "rect" then Square(extent) else Blank
  }

  /** What each sprite of the node should show for a style. */
  function BodyDrawing(s: NodeStyle): Drawing { ShapeDrawing(s.shape, s.size) }

  function BorderDrawing(s: NodeStyle): Drawing { ShapeDrawing(s.shape, OuterSize(s)) }

  function IconDrawing(s: NodeStyle): Drawing {
    if s.icon.kind.Image? then Picture(s.icon.content)
    else Glyphs(s.icon.kind.name, s.icon.fontFamily, s.icon.fontSize, s.icon.fontWeight, s.icon.content)
  }

  /** Which texture keys are used: the ones the renderer builds, or keys naming every drawn parameter. */
  datatype KeyScheme = AsWritten | Complete

  function BodyKey(scheme: KeyScheme, s: NodeStyle): Key {
    match scheme
    case AsWritten => [S("NODE_CIRCLE"), N(s.size)]
    case Complete => [S("NODE_CIRCLE"), S(s.shape), N(s.size)]
  }

  function BorderKey(scheme: KeyScheme, s: NodeStyle): Key {
    match scheme
    case AsWritten => [S("NODE_CIRCLE_BORDER"), N(s.size), N(s.border.width)]
    case Complete => [S("NODE_CIRCLE_BORDER"), S(s.shape), N(s.size), N(s.border.width)]
  }

  function TypeName(t: TextType): string {
    match t
    case Image => "IMAGE"
    case TextKind(n) => n
  }

  function IconKey(scheme: KeyScheme, s: NodeStyle): Key {
    match scheme
    case AsWritten => [S("NODE_ICON"), S(s.icon.fontFamily), N(s.icon.fontSize), S(s.icon.content)]
    case Complete =>
      [S("NODE_ICON"), S(TypeName(s.icon.kind)), S(s.icon.fontFamily), N(s.icon.fontSize),
       S(s.icon.fontWeight), S(s.icon.content)]
  }

  /** The node container: hit-area radius, sprite textures, tints and visibility. */
  datatype NodeGfx = NodeGfx(
    hitRadius: real,
    body: Drawing, bodyColor: string,
    border: Drawing, borderColor: string, borderVisible: bool,
    icon: Drawing, iconColor: string, iconWidth: real, iconHeight: real, iconVisible: bool)

  /**
   * `updateNodeStyle`: fetch the body, border and icon textures through
   * the cache under the scheme's keys, set the tints, size an image icon to
   * the node and set the hit-area radius to the outer size.
   */
  function UpdateNodeStyle(scheme: KeyScheme, gfx: NodeGfx, s: NodeStyle, cache: Cache): (res: (NodeGfx, Cache))
    ensures res.0.hitRadius == OuterSize(s)
    ensures res.0.bodyColor == s.color && res.0.borderColor == s.border.color && res.0.iconColor == s.icon.color
    ensures res.0.borderVisible == gfx.borderVisible && res.0.iconVisible == gfx.iconVisible
    // Each sprite shows the texture cached under its key, or the fresh drawing when the key is new.
    ensures res.0.body == Lookup(cache, BodyKey(scheme, s), BodyDrawing(s))
    ensures res.0.border == Lookup(cache, BorderKey(scheme, s), BorderDrawing(s))
    ensures res.0.icon == Lookup(cache, IconKey(scheme, s), IconDrawing(s))
    // The cache gains exactly the three keys, each holding what its sprite shows; old entries stay.
    ensures res.1.Keys == cache.Keys + {BodyKey(scheme, s), BorderKey(scheme, s), IconKey(scheme, s)}
    ensures forall k :: k in cache ==> res.1[k] == cache[k]
    ensures res.1[BodyKey(scheme, s)] == res.0.body && res.1[BorderKey(scheme, s)] == res.0.border &&
            res.1[IconKey(scheme, s)] == res.0.icon
  {
    var (c1, body) := Cached(cache, BodyKey(scheme, s), BodyDrawing(s));
    var (c2, border) := Cached(c1, BorderKey(scheme, s), BorderDrawing(s));
    var (c3, icon) := Cached(c2, IconKey(scheme, s), IconDrawing(s));
    var (w, h) :=
      if s.icon.kind.Image? && s.shape == "circle" then (s.size * 2.0, s.size * 2.0)
      else if s.icon.kind.Image? && s.shape == "rect" then (s.size, s.size)
      else (gfx.iconWidth, gfx.iconHeight);
    (NodeGfx(OuterSize(s), body, s.color, border, s.border.color, gfx.borderVisible,
             icon, s.icon.color, w, h, gfx.iconVisible), c3)
  }

  // ---------------------------------------------------------------------
  // Cache coherence: with complete keys every cached texture is the one
  // its key describes, so the node always shows what its style asks for.

  /** The drawing a complete key describes. */
  function Describes(k: Key): Option<Drawing> {
    if |k| == 3 && k[0] == S("NODE_CIRCLE") && k[1].S? && k[2].N? then
      Some(ShapeDrawing(k[1].s, k[2].n))
    else if |k| == 4 && k[0] == S("NODE_CIRCLE_BORDER") && k[1].S? && k[2].N? && k[3].N? then
      Some(ShapeDrawing(k[1].s, k[2].n + k[3].n))
    else if |k| == 6 && k[0] == S("NODE_ICON") && k[1].S? && k[2].S? && k[3].N? && k[4].S? && k[5].S? then
      Some(if k[1].s == "IMAGE" then Picture(k[5].s) else Glyphs(k[1].s, k[2].s, k[3].n, k[4].s, k[5].s))
    else None
  }

  predicate Coherent(cache: Cache) {
    forall k :: k in cache ==> Describes(k) == Some(cache[k])
  }

  lemma CompleteKeysDescribe(s: NodeStyle)
    requires s.icon.kind.TextKind? ==> s.icon.kind.name != "IMAGE"
    ensures Describes(BodyKey(Complete, s)) == Some(BodyDrawing(s))
    ensures Describes(BorderKey(Complete, s)) == Some(BorderDrawing(s))
    ensures Describes(IconKey(Complete, s)) == Some(IconDrawing(s))
  {
  }

  /**
   * With complete keys, a coherent cache stays coherent and the node's
   * sprites show exactly the drawings its style asks for, whatever other
   * styles filled the cache before.
   */
  lemma CompleteKeysShowStyle(gfx: NodeGfx, s: NodeStyle, cache: Cache)
    requires Coherent(cache)
    requires s.icon.kind.TextKind? ==> s.icon.kind.name != "IMAGE"
    ensures var (g, c) := UpdateNodeStyle(Complete, gfx, s, cache);
            Coherent(c) && g.body == BodyDrawing(s) && g.border == BorderDrawing(s) && g.icon == IconDrawing(s)
  {
    CompleteKeysDescribe(s);
    var c1 := CachedCoherent(cache, BodyKey(Complete, s), BodyDrawing(s));
    var c2 := CachedCoherent(c1, BorderKey(Complete, s), BorderDrawing(s));
    var c3 := CachedCoherent(c2, IconKey(Complete, s), IconDrawing(s));
  }

  /** A coherent cache hands out the drawing a key describes, and stays coherent. */
  lemma CachedCoherent(cache: Cache, key: Key, make: Drawing) returns (c: Cache)
    requires Coherent(cache) && Describes(key) == Some(make)
    ensures Cached(cache, key, make) == (c, make) && Coherent(c)
  {
    c := Cached(cache, key, make).0;
  }

  /**
   * With the keys as written, the cache is shared between shapes: a
   * rectangle node drawn after a circle node of the same size shows the
   * circle's disc and border.
   */
  lemma AsWrittenShapeCollision(gfx: NodeGfx, circle: NodeStyle)
    requires circle.shape == "circle"
    ensures var rect := circle.(shape := "rect");
            var (_, c) := UpdateNodeStyle(AsWritten, gfx, circle, map[]);
            var (g, _) := UpdateNodeStyle(AsWritten, gfx, rect, c);
            g.body == Disc(circle.size) != BodyDrawing(rect) && g.border != BorderDrawing(rect)
  {
  }

  /**
   * With the keys as written, text icons that differ only in weight share
   * a texture: the bold icon shows the first weight's glyphs.
   */
  lemma AsWrittenWeightCollision(gfx: NodeGfx, regular: NodeStyle)
    requires regular.icon.kind.TextKind? && regular.icon.fontWeight == "normal"
    ensures var bold := regular.(icon := regular.icon.(fontWeight := "bold"));
            var (_, c) := UpdateNodeStyle(AsWritten, gfx, regular, map[]);
            var (g, _) := UpdateNodeStyle(AsWritten, gfx, bold, c);
            g.icon == IconDrawing(regular) != IconDrawing(bold)
  {
  }

  /**
   * An image icon is sized to the node's body: the diameter of the disc
   * for a circle, the side of the square for a rect. Text icons keep their
   * size. The sizing is the same under either key scheme.
   */
  lemma ImageIconFitsBody(scheme: KeyScheme, gfx: NodeGfx, s: NodeStyle, cache: Cache)
    ensures var (g, _) := UpdateNodeStyle(scheme, gfx, s, cache);
            (s.icon.kind.Image? && BodyDrawing(s).Disc? ==>
               g.iconWidth == g.iconHeight == 2.0 * BodyDrawing(s).radius) &&
            (s.icon.kind.Image? && BodyDrawing(s).Square? ==>
               g.iconWidth == g.iconHeight == BodyDrawing(s).side) &&
            (!s.icon.kind.Image? ==> g.iconWidth == gfx.iconWidth && g.iconHeight == gfx.iconHeight)
  {
  }

  /** For a circle node the hit area is exactly the border disc. */
  lemma HitAreaIsBorderDisc(gfx: NodeGfx, s: NodeStyle, cache: Cache)
    requires Coherent(cache) && s.shape == "circle"
    requires s.icon.kind.TextKind? ==> s.icon.kind.name != "IMAGE"
    ensures var (g, _) := UpdateNodeStyle(Complete, gfx, s, cache);
            g.border == Disc(g.hitRadius)
  {
    CompleteKeysShowStyle(gfx, s, cache);
  }

  // ---------------------------------------------------------------------
  // Level of detail.

  /** `updateNodeVisibility`: the border needs step 1, the icon step 2. */
  function UpdateNodeVisibility(gfx: NodeGfx, zoomStep: int): (g: NodeGfx)
    ensures g.borderVisible ==> gfx.borderVisible
    ensures g.iconVisible ==> gfx.iconVisible
    ensures g.borderVisible <==> gfx.borderVisible && zoomStep >= 1
    ensures g.iconVisible <==> gfx.iconVisible && zoomStep >= 2
    ensures g.(borderVisible := gfx.borderVisible, iconVisible := gfx.iconVisible) == gfx
  {
    gfx.(borderVisible := gfx.borderVisible && zoomStep >= 1,
         iconVisible := gfx.iconVisible && zoomStep >= 2)
  }

  /** Repeating the update with the same step changes nothing. */
  lemma VisibilityIdempotent(gfx: NodeGfx, zoomStep: int)
    ensures UpdateNodeVisibility(UpdateNodeVisibility(gfx, zoomStep), zoomStep) == UpdateNodeVisibility(gfx, zoomStep)
  {
  }

  /** Two updates act like one with the smaller step: a zoom step can only hide sprites. */
  lemma VisibilityComposes(gfx: NodeGfx, a: int, b: int)
    ensures UpdateNodeVisibility(UpdateNodeVisibility(gfx, a), b) ==
            UpdateNodeVisibility(gfx, if a <= b then a else b)
  {
  }
}

=== FILE: node_style.dfy ===
/**
 * The resolved style records the renderers and the scene read
 * (the `NodeStyle` and `EdgeStyle` of src/utils/style.ts, with the
 * `alpha` and `attach` fields the node renderers use). Numbers are reals;
 * colours and font names stay strings.
 */
module Styles {

  /** How text content is turned into a texture; only `Image` is distinguished by the renderers. */
  datatype TextType = Image | TextKind(name: string)

  datatype TextStyle = TextStyle(
    content: string, kind: TextType, fontFamily: string,
    fontSize: real, fontWeight: string, color: string)

  datatype Border = Border(width: real, color: string)

  /** One entry of a badge group, as it is written into sprite names. */
  datatype GroupItem = NumItem(n: int) | StrItem(s: string)

  /** `attach.group`: anything that is not an array is `NotArray`. */
  datatype Group = NotArray | Items(items: seq<GroupItem>)

  datatype AttachStyle = AttachStyle(
    group: Group, size: real, shape: string,
    colGap: real, rowGap: real, crevice: real, text: TextStyle)

  datatype NodeStyle = NodeStyle(
    size: real, color: string, alpha: real, shape: string,
    border: Border, icon: TextStyle, labelStyle: TextStyle, attach: AttachStyle)

  datatype SelfLoop = SelfLoop(radius: real, cross: real)

  datatype Arrow = Arrow(show: bool, size: real)

  datatype EdgeStyle = EdgeStyle(
    width: real, color: string, selfLoop: SelfLoop, gap: real,
    bilateralKey: string, arrow: Arrow, labelStyle: TextStyle)

  /** The radius of a node's outer (border) circle. */
  function OuterSize(s: NodeStyle): real {
    s.size + s.border.width
  }
}

=== FILE: pixi_edge.dfy ===
/**
 * `PixiEdge` (src/edge.ts): the placement of an edge's line, label and
 * arrow. Angles are represented by their cosine and sine; the distance
 * between the endpoints and the square root of 3 are inputs that satisfy
 * their defining equations (`Trig`), so the formulas are rational.
 */
module PixiEdge {
  import opened Geometry
  import opened Styles

  /** An angle, by its cosine `c` and sine `s`. */
  datatype Dir = Dir(c: real, s: real)

  /** The irrational quantities of one placement: the endpoint distance and the square root of 3. */
  datatype Trig = Trig(dist: real, sqrt3: real)

  predicate ValidTrig(src: Point, tgt: Point, tr: Trig) {
    var dx := tgt.x - src.x;
    var dy := tgt.y - src.y;
    tr.dist >= 0.0 && tr.dist * tr.dist == dx * dx + dy * dy &&
    tr.sqrt3 > 0.0 && tr.sqrt3 * tr.sqrt3 == 3.0
  }

  /**
   * The edge's containers: line position, rotation and length, label
   * position, arrow position and rotation, and the two flags fixed at
   * construction.
   */
  datatype Edge = Edge(
    isSelfLoop: bool, isBilateral: bool, hovered: bool,
    pos: Point, rot: Dir, height: real,
    labelPos: Point, arrowPos: Point, arrowRot: Dir)

  /** The constructor: the flags are taken from the options and the edge is not hovered. */
  function Create(selfLoop: bool, bilateral: bool): (e: Edge)
    ensures e.isSelfLoop == selfLoop && e.isBilateral == bilateral && !e.hovered
  {
    Edge(selfLoop, bilateral, false, Point(0.0, 0.0), Dir(1.0, 0.0), 0.0,
         Point(0.0, 0.0), Point(0.0, 0.0), Dir(1.0, 0.0))
  }

  /** `-atan2(dx, dy)`, with `atan2(0, 0) = 0` for coincident endpoints. */
  function Rotation(src: Point, tgt: Point, d: real): Dir {
    if d == 0.0 then Dir(1.0, 0.0)
    else Dir((tgt.y - src.y) / d, -(tgt.x - src.x) / d)
  }

  /** `atan2(dy, dx)`, the direction from source to target, with the same convention. */
  function Phi(src: Point, tgt: Point, d: real): Dir {
    if d == 0.0 then Dir(1.0, 0.0)
    else Dir((tgt.x - src.x) / d, (tgt.y - src.y) / d)
  }

  /** The point at distance `t` from `p` against the direction `u`. */
  function Back(p: Point, u: Dir, t: real): Point {
    Point(p.x - u.c * t, p.y - u.s * t)
  }

  /** The visible length of the line: the distance less the arrow height and both outer radii. */
  function LineLength(es: EdgeStyle, ss: NodeStyle, ts: NodeStyle, tr: Trig): real {
    tr.dist - tr.sqrt3 / 2.0 * es.arrow.size - ts.size - ss.size - ts.border.width - ss.border.width
  }

  /** The distance from the target to the centre of the line. */
  function CenterTarget(es: EdgeStyle, ss: NodeStyle, ts: NodeStyle, tr: Trig): real {
    LineLength(es, ss, ts, tr) / 2.0 + ts.size + tr.sqrt3 / 2.0 * es.arrow.size + ts.border.width
  }

  /** The distance from the target to the centre of the arrow. */
  function ArrowRadius(es: EdgeStyle, ts: NodeStyle, tr: Trig): real {
    ts.size + ts.border.width + tr.sqrt3 / 4.0 * es.arrow.size
  }

  /** The offset a bilateral edge's line and arrow receive: `gap / 2 + width` against the rotation. */
  function BilateralShift(es: EdgeStyle, r: Dir): Point {
    var k := es.gap / 2.0 + es.width;
    Point(-r.c * k, -r.s * k)
  }

  /**
   * `updatePosition`: a self-loop sits above the target, tangent to its
   * outer circle; any other edge is rotated along source to target,
   * centred between the source border and the arrow base, and shifted
   * sideways when it is bilateral; the label takes the line's position.
   * `labelHeight` is the label container's height.
   */
  function UpdatePosition(e: Edge, src: Point, tgt: Point, es: EdgeStyle, ss: NodeStyle, ts: NodeStyle,
                          tr: Trig, labelHeight: real): (e': Edge)
    ensures e'.isSelfLoop == e.isSelfLoop && e'.isBilateral == e.isBilateral && e'.hovered == e.hovered
    ensures e.isSelfLoop ==>
              e'.pos == Point(tgt.x, tgt.y - OuterSize(ts) - es.selfLoop.radius + es.selfLoop.cross) &&
              e'.labelPos == Point(e'.pos.x, e'.pos.y - labelHeight / 2.0) &&
              e'.rot == e.rot && e'.height == e.height && e'.arrowPos == e.arrowPos && e'.arrowRot == e.arrowRot
    ensures !e.isSelfLoop ==> e'.labelPos == e'.pos && e'.height == LineLength(es, ss, ts, tr)
  {
    if e.isSelfLoop then
      var radius := ts.size + ts.border.width;
      var tangent := Point(tgt.x, tgt.y - radius - es.selfLoop.radius);
      e.(pos := Point(tangent.x, tangent.y + es.selfLoop.cross),
         labelPos := Point(tangent.x, tangent.y + es.selfLoop.cross - labelHeight / 2.0))
    else
      var r := Rotation(src, tgt, tr.dist);
      var center := CenterTarget(es, ss, ts, tr);
      var p0 := Point(tgt.x + r.s * center, tgt.y - r.c * center);
      var shift := BilateralShift(es, r);
      var p := if e.isBilateral then Point(p0.x + shift.x, p0.y + shift.y) else p0;
      var phi := Phi(src, tgt, tr.dist);
      var a0 := Back(tgt, phi, ArrowRadius(es, ts, tr));
      var a := if e.isBilateral then Point(a0.x + shift.x, a0.y + shift.y) else a0;
      e.(pos := p, rot := r, height := LineLength(es, ss, ts, tr), labelPos := p,
         arrowPos := a, arrowRot := Dir(-phi.s, phi.c))
  }

  // ---------------------------------------------------------------------
  // Arithmetic helpers.

  lemma DivMul(a: real, d: real)
    requires d != 0.0
    ensures (a / d) * d == a
  {
  }

  lemma ZeroProduct(a: real, m: real)
    requires m > 0.0 && a * m == 0.0
    ensures a == 0.0
  {
    MulSign(a, m);
  }

  lemma MulSign(a: real, m: real)
    requires m > 0.0
    ensures a > 0.0 ==> a * m > 0.0
    ensures a < 0.0 ==> a * m < 0.0
  {
  }

  lemma UnitFromProducts(p: real, q: real, dx: real, dy: real, d: real)
    requires d > 0.0 && p * d == dx && q * d == dy && d * d == dx * dx + dy * dy
    ensures p * p + q * q == 1.0
  {
    var x := p * p + q * q - 1.0;
    assert dx * dx == (p * p) * (d * d);
    assert dy * dy == (q * q) * (d * d);
    assert (x * d) * d == 0.0;
    ZeroProduct(x * d, d);
    ZeroProduct(x, d);
  }

  lemma UnitDirection(dx: real, dy: real, d: real)
    requires d > 0.0 && d * d == dx * dx + dy * dy
    ensures (dx / d) * (dx / d) + (dy / d) * (dy / d) == 1.0
  {
    DivMul(dx, d);
    DivMul(dy, d);
    UnitFromProducts(dx / d, dy / d, dx, dy, d);
  }

  lemma NegDiv(a: real, d: real)
    requires d != 0.0
    ensures (-a) / d == -(a / d)
  {
    DivMul(a, d);
    DivMul(-a, d);
    assert ((-a) / d + a / d) * d == 0.0;
  }

  /** Moving back along `u` by the full distance from the target reaches the source. */
  lemma BackByDistance(src: Point, tgt: Point, tr: Trig, t: real)
    requires ValidTrig(src, tgt, tr) && tr.dist > 0.0
    ensures var u := Phi(src, tgt, tr.dist);
            Back(tgt, u, tr.dist - t) == Point(src.x + u.c * t, src.y + u.s * t)
  {
    var d := tr.dist;
    var u := Phi(src, tgt, d);
    assert u == Dir((tgt.x - src.x) / d, (tgt.y - src.y) / d);
    DivMul(tgt.x - src.x, d);
    DivMul(tgt.y - src.y, d);
    BackStep(tgt.x, src.x, u.c, d, t);
    BackStep(tgt.y, src.y, u.s, d, t);
    assert Back(tgt, u, d - t) == Point(tgt.x - u.c * (d - t), tgt.y - u.s * (d - t));
  }

  /** One coordinate of `BackByDistance`: `c · d` is the whole way from `q` to `p`. */
  lemma BackStep(p: real, q: real, c: real, d: real, t: real)
    requires c * d == p - q
    ensures p - c * (d - t) == q + c * t
  {
    assert c * (d - t) == c * d - c * t;
  }

  // ---------------------------------------------------------------------
  // Properties of the placement.

  /**
   * For distinct endpoints the rotation's cosine and sine are a unit vector
   * perpendicular to source-to-target, and the line direction (`Phi`) is the
   * unit vector from source to target.
   */
  lemma DirectionsAreUnit(src: Point, tgt: Point, tr: Trig)
    requires ValidTrig(src, tgt, tr) && tr.dist > 0.0
    ensures var u := Phi(src, tgt, tr.dist);
            var r := Rotation(src, tgt, tr.dist);
            u.c * u.c + u.s * u.s == 1.0 && r.c * r.c + r.s * r.s == 1.0 &&
            r.s == -u.c && r.c == u.s &&
            Back(tgt, u, tr.dist) == src
  {
    var d := tr.dist;
    UnitDirection(tgt.x - src.x, tgt.y - src.y, d);
    DivMul(tgt.x - src.x, d);
    DivMul(tgt.y - src.y, d);
  }

  /**
   * The line of a non-bilateral edge lies on the segment from target to
   * source, centred so that it runs exactly from the source's border to
   * the base of the arrow: its end nearer the target is the target's outer
   * radius plus the arrow height (√3/2 times its size) away, its other end
   * is the source's outer radius short of the source.
   */
  lemma LineRunsBorderToArrowBase(e: Edge, src: Point, tgt: Point, es: EdgeStyle, ss: NodeStyle, ts: NodeStyle,
                                  tr: Trig, labelHeight: real)
    requires ValidTrig(src, tgt, tr) && tr.dist > 0.0 && !e.isSelfLoop && !e.isBilateral
    ensures var e' := UpdatePosition(e, src, tgt, es, ss, ts, tr, labelHeight);
            var u := Phi(src, tgt, tr.dist);
            var c := CenterTarget(es, ss, ts, tr);
            var len := LineLength(es, ss, ts, tr);
            e'.pos == Back(tgt, u, c) &&
            c - len / 2.0 == OuterSize(ts) + tr.sqrt3 / 2.0 * es.arrow.size &&
            c + len / 2.0 == tr.dist - OuterSize(ss) &&
            Back(tgt, u, tr.dist - OuterSize(ss)) == Point(src.x + u.c * OuterSize(ss), src.y + u.s * OuterSize(ss))
  {
    LinePosition(e, src, tgt, es, ss, ts, tr, labelHeight);
    BackByDistance(src, tgt, tr, OuterSize(ss));
  }

  lemma LinePosition(e: Edge, src: Point, tgt: Point, es: EdgeStyle, ss: NodeStyle, ts: NodeStyle,
                     tr: Trig, labelHeight: real)
    requires tr.dist > 0.0 && !e.isSelfLoop && !e.isBilateral
    ensures UpdatePosition(e, src, tgt, es, ss, ts, tr, labelHeight).pos ==
            Back(tgt, Phi(src, tgt, tr.dist), CenterTarget(es, ss, ts, tr))
  {
    var u := Phi(src, tgt, tr.dist);
    var r := Rotation(src, tgt, tr.dist);
    var c := CenterTarget(es, ss, ts, tr);
    NegDiv(tgt.x - src.x, tr.dist);
    assert r.s == -u.c && r.c == u.s;
    assert UpdatePosition(e, src, tgt, es, ss, ts, tr, labelHeight).pos == Point(tgt.x + r.s * c, tgt.y - r.c * c);
  }

  /**
   * The arrow sits on the same line, its centre halfway between its tip on
   * the target's outer circle and its base, whether or not arrows are
   * shown.
   */
  lemma ArrowOnLine(e: Edge, src: Point, tgt: Point, es: EdgeStyle, ss: NodeStyle, ts: NodeStyle,
                    tr: Trig, labelHeight: real)
    requires ValidTrig(src, tgt, tr) && tr.dist > 0.0 && !e.isSelfLoop && !e.isBilateral
    ensures var e' := UpdatePosition(e, src, tgt, es, ss, ts, tr, labelHeight);
            var u := Phi(src, tgt, tr.dist);
            var ra := ArrowRadius(es, ts, tr);
            e'.arrowPos == Back(tgt, u, ra) &&
            2.0 * ra == OuterSize(ts) + (OuterSize(ts) + tr.sqrt3 / 2.0 * es.arrow.size) &&
            e'.arrowRot == Dir(-u.s, u.c)
  {
    var u := Phi(src, tgt, tr.dist);
    var ra := ArrowRadius(es, ts, tr);
    var e' := UpdatePosition(e, src, tgt, es, ss, ts, tr, labelHeight);
    assert e'.arrowPos == Back(tgt, u, ra) && e'.arrowRot == Dir(-u.s, u.c);
    ArrowHalfway(ts.size, ts.border.width, tr.sqrt3, es.arrow.size);
  }

  /** The arrow's centre distance is the mean of its tip's and its base's. */
  lemma ArrowHalfway(size: real, width: real, sqrt3: real, arrow: real)
    ensures 2.0 * (size + width + sqrt3 / 4.0 * arrow) == (size + width) + ((size + width) + sqrt3 / 2.0 * arrow)
  {
  }

  /**
   * The bilateral shift is perpendicular to source-to-target and has
   * length `gap / 2 + width`.
   */
  lemma BilateralShiftPerpendicular(es: EdgeStyle, src: Point, tgt: Point, tr: Trig)
    requires ValidTrig(src, tgt, tr) && tr.dist > 0.0
    ensures var off := BilateralShift(es, Rotation(src, tgt, tr.dist));
            var k := es.gap / 2.0 + es.width;
            off.x * (tgt.x - src.x) + off.y * (tgt.y - src.y) == 0.0 &&
            off.x * off.x + off.y * off.y == k * k
  {
    var dx, dy, d := tgt.x - src.x, tgt.y - src.y, tr.dist;
    var k := es.gap / 2.0 + es.width;
    assert BilateralShift(es, Rotation(src, tgt, d)) == Point(-(dy / d) * k, -(-dx / d) * k);
    ShiftGeometry(dx, dy, d, k);
  }

  /** A bilateral edge's line and arrow are the plain edge's, moved by the same bilateral shift. */
  lemma BilateralOffsets(e: Edge, src: Point, tgt: Point, es: EdgeStyle, ss: NodeStyle, ts: NodeStyle,
                         tr: Trig, labelHeight: real)
    requires !e.isSelfLoop
    ensures var b := UpdatePosition(e.(isBilateral := true), src, tgt, es, ss, ts, tr, labelHeight);
            var p := UpdatePosition(e.(isBilateral := false), src, tgt, es, ss, ts, tr, labelHeight);
            var shift := BilateralShift(es, Rotation(src, tgt, tr.dist));
            b.pos == Point(p.pos.x + shift.x, p.pos.y + shift.y) &&
            b.arrowPos == Point(p.arrowPos.x + shift.x, p.arrowPos.y + shift.y) &&
            b.labelPos == b.pos && b.rot == p.rot && b.height == p.height && b.arrowRot == p.arrowRot
  {
  }

  /** The shift against a rotation `(dy/d, -dx/d)` is perpendicular to `(dx, dy)` and has length `k`. */
  lemma ShiftGeometry(dx: real, dy: real, d: real, k: real)
    requires d > 0.0 && d * d == dx * dx + dy * dy
    ensures var c := dy / d;
            var s := -dx / d;
            (-c * k) * dx + (-s * k) * dy == 0.0 &&
            (-c * k) * (-c * k) + (-s * k) * (-s * k) == k * k
  {
    var p, q := dx / d, dy / d;
    DivMul(dx, d);
    DivMul(dy, d);
    NegDiv(dx, d);
    UnitFromProducts(p, q, dx, dy, d);
    assert (-q * k) * dx + (p * k) * dy == k * (p * dy - q * dx);
    assert p * dy == p * (q * d) == q * (p * d) == q * dx;
    assert (-q * k) * (-q * k) + (p * k) * (p * k) == (p * p + q * q) * (k * k);
  }

  /** The edges A to B and B to A, both bilateral, are shifted by opposite offsets. */
  lemma OppositeEdgesShiftApart(e: Edge, a: Point, b: Point, es: EdgeStyle, tr: Trig)
    requires ValidTrig(a, b, tr) && tr.dist > 0.0
    ensures ValidTrig(b, a, tr)
    ensures BilateralShift(es, Rotation(b, a, tr.dist)) ==
            Point(-BilateralShift(es, Rotation(a, b, tr.dist)).x, -BilateralShift(es, Rotation(a, b, tr.dist)).y)
  {
    assert (a.x - b.x) * (a.x - b.x) == (b.x - a.x) * (b.x - a.x);
    assert (a.y - b.y) * (a.y - b.y) == (b.y - a.y) * (b.y - a.y);
    NegDiv(b.y - a.y, tr.dist);
    NegDiv(b.x - a.x, tr.dist);
    assert a.y - b.y == -(b.y - a.y) && a.x - b.x == -(b.x - a.x);
  }

  /** Recomputing the placement from the same inputs changes nothing. */
  lemma PlacementIdempotent(e: Edge, src: Point, tgt: Point, es: EdgeStyle, ss: NodeStyle, ts: NodeStyle,
                            tr: Trig, labelHeight: real)
    ensures var once := UpdatePosition(e, src, tgt, es, ss, ts, tr, labelHeight);
            UpdatePosition(once, src, tgt, es, ss, ts, tr, labelHeight) == once
  {
  }

  /** A self-loop's placement does not depend on the source or on the distance. */
  lemma SelfLoopIgnoresSource(e: Edge, src: Point, src2: Point, tgt: Point, es: EdgeStyle, ss: NodeStyle,
                              ts: NodeStyle, tr: Trig, tr2: Trig, labelHeight: real)
    requires e.isSelfLoop
    ensures UpdatePosition(e, src, tgt, es, ss, ts, tr, labelHeight) ==
            UpdatePosition(e, src2, tgt, es, ss, ts, tr2, labelHeight)
  {
  }

  /** A node of outer radius 20 at the origin, loop radius 30 and cross 10: the loop sits at (0, -40). */
  lemma SelfLoopExample(e: Edge, es: EdgeStyle, ts: NodeStyle, tr: Trig)
    requires e.isSelfLoop && ts.size == 20.0 && ts.border.width == 0.0
    requires es.selfLoop == SelfLoop(30.0, 10.0)
    ensures UpdatePosition(e, Point(0.0, 0.0), Point(0.0, 0.0), es, ts, ts, tr, 0.0).pos == Point(0.0, -40.0)
  {
  }

  /** Nodes at (0, 0) and (100, 0), gap 15, width 1: the two directions are shifted by +8.5 and -8.5. */
  lemma BilateralExample(es: EdgeStyle)
    requires es.gap == 15.0 && es.width == 1.0
    ensures BilateralShift(es, Rotation(Point(0.0, 0.0), Point(100.0, 0.0), 100.0)) == Point(0.0, 8.5)
    ensures BilateralShift(es, Rotation(Point(100.0, 0.0), Point(0.0, 0.0), 100.0)) == Point(0.0, -8.5)
  {
    HorizontalRotations();
    ShiftBy(es, Dir(0.0, -1.0), 8.5);
    ShiftBy(es, Dir(0.0, 1.0), 8.5);
  }

  /** The rotations of a horizontal edge of length 100, one way and the other. */
  lemma HorizontalRotations()
    ensures Rotation(Point(0.0, 0.0), Point(100.0, 0.0), 100.0) == Dir(0.0, -1.0)
    ensures Rotation(Point(100.0, 0.0), Point(0.0, 0.0), 100.0) == Dir(0.0, 1.0)
  {
    assert (0.0 - 0.0) / 100.0 == 0.0;
    assert -(100.0 - 0.0) / 100.0 == -1.0;
    assert -(0.0 - 100.0) / 100.0 == 1.0;
  }

  lemma ShiftBy(es: EdgeStyle, r: Dir, k: real)
    requires es.gap / 2.0 + es.width == k
    ensures BilateralShift(es, r) == Point(-r.c * k, -r.s * k)
  {
  }
}

=== FILE: pixi_node.dfy ===
/**
 * `PixiNode` (src/node.ts): a node's two containers, the node graphics
 * and its label, kept at one position and one alpha, with one visibility
 * switch read from the node graphics only. The label renderer
 * (src/renderers/node-label.ts) is not part of this model; its state is
 * the type parameter `L` and its updates are function parameters.
 */
module PixiNode {
  import opened Geometry
  import opened Styles
  import NodeRenderer

  datatype Node<L> = Node(
    hovered: bool,
    nodePos: Point, labelPos: Point,
    nodeAlpha: real, labelAlpha: real,
    nodeVisible: bool, labelVisible: bool,
    gfx: NodeRenderer.NodeGfx, labelGfx: L)

  /** The constructor: a fresh node is not hovered. */
  function Create<L>(gfx: NodeRenderer.NodeGfx, labelGfx: L): (n: Node<L>)
    ensures !n.hovered && n.gfx == gfx && n.labelGfx == labelGfx
  {
    Node(false, Point(0.0, 0.0), Point(0.0, 0.0), 1.0, 1.0, true, true, gfx, labelGfx)
  }

  /** `updatePosition`: node and label move to the same point. */
  function UpdatePosition<L>(n: Node<L>, p: Point): (n': Node<L>)
    ensures n'.nodePos == p && n'.labelPos == p
    ensures n'.(nodePos := n.nodePos, labelPos := n.labelPos) == n
  {
    n.(nodePos := p, labelPos := p)
  }

  /** `updateAlpha`: node and label take the style's alpha. */
  function UpdateAlpha<L>(n: Node<L>, s: NodeStyle): (n': Node<L>)
    ensures n'.nodeAlpha == s.alpha && n'.labelAlpha == s.alpha
    ensures n'.(nodeAlpha := n.nodeAlpha, labelAlpha := n.labelAlpha) == n
  {
    n.(nodeAlpha := s.alpha, labelAlpha := s.alpha)
  }

  /**
   * `updateStyle`: the node renderer restyles the graphics through the
   * texture cache and the label renderer restyles the label. `scheme` says
   * which texture keys the renderer builds: `AsWritten` is the source's,
   * `Complete` the corrected keys that also name the shape and font weight.
   */
  function UpdateStyle<L>(scheme: NodeRenderer.KeyScheme, n: Node<L>, s: NodeStyle, cache: NodeRenderer.Cache,
                          labelStyle: (L, NodeStyle) -> L): (res: (Node<L>, NodeRenderer.Cache))
    ensures res.0.gfx.hitRadius == OuterSize(s) && res.0.labelGfx == labelStyle(n.labelGfx, s)
    ensures res.0.gfx.body == NodeRenderer.Lookup(cache, NodeRenderer.BodyKey(scheme, s), NodeRenderer.BodyDrawing(s))
    ensures res.0.gfx.border == NodeRenderer.Lookup(cache, NodeRenderer.BorderKey(scheme, s), NodeRenderer.BorderDrawing(s))
    ensures res.0.gfx.icon == NodeRenderer.Lookup(cache, NodeRenderer.IconKey(scheme, s), NodeRenderer.IconDrawing(s))
    ensures res.0.(gfx := n.gfx, labelGfx := n.labelGfx) == n
  {
    var (g, c) := NodeRenderer.UpdateNodeStyle(scheme, n.gfx, s, cache);
    (n.(gfx := g, labelGfx := labelStyle(n.labelGfx, s)), c)
  }

  /**
   * The node the source builds shares its texture cache across shapes: a
   * rect node styled after a circle node of the same size shows the disc.
   * With the corrected keys it shows its square.
   */
  lemma SharedCacheShapes<L>(circleNode: Node<L>, rectNode: Node<L>, circle: NodeStyle,
                             labelStyle: (L, NodeStyle) -> L)
    requires circle.shape == "circle"
    ensures var rect := circle.(shape := "rect");
            var (_, c) := UpdateStyle(NodeRenderer.AsWritten, circleNode, circle, map[], labelStyle);
            var (r, _) := UpdateStyle(NodeRenderer.AsWritten, rectNode, rect, c, labelStyle);
            r.gfx.body == NodeRenderer.Disc(circle.size)
    ensures var rect := circle.(shape := "rect");
            var (_, c) := UpdateStyle(NodeRenderer.Complete, circleNode, circle, map[], labelStyle);
            var (r, _) := UpdateStyle(NodeRenderer.Complete, rectNode, rect, c, labelStyle);
            r.gfx.body == NodeRenderer.Square(circle.size)
  {
    var rect := circle.(shape := "rect");
    var (_, c) := UpdateStyle(NodeRenderer.AsWritten, circleNode, circle, map[], labelStyle);
    assert NodeRenderer.BodyKey(NodeRenderer.AsWritten, rect) == NodeRenderer.BodyKey(NodeRenderer.AsWritten, circle);
    assert c[NodeRenderer.BodyKey(NodeRenderer.AsWritten, circle)] == NodeRenderer.Disc(circle.size);
    var (_, c') := UpdateStyle(NodeRenderer.Complete, circleNode, circle, map[], labelStyle);
    assert NodeRenderer.BodyKey(NodeRenderer.Complete, rect) !in c';
  }

  /** `updateVisibility`: the same zoom step gates the node's sprites and the label's. */
  function UpdateVisibility<L>(n: Node<L>, zoomStep: int, labelGate: (L, int) -> L): (n': Node<L>)
    ensures n'.gfx.borderVisible <==> n.gfx.borderVisible && zoomStep >= 1
    ensures n'.gfx.iconVisible <==> n.gfx.iconVisible && zoomStep >= 2
    ensures n'.labelGfx == labelGate(n.labelGfx, zoomStep)
    ensures n'.(gfx := n.gfx, labelGfx := n.labelGfx) == n
  {
    n.(gfx := NodeRenderer.UpdateNodeVisibility(n.gfx, zoomStep), labelGfx := labelGate(n.labelGfx, zoomStep))
  }

  /** `nodeVisibility(v)`: show or hide node and label together. */
  function SetVisibility<L>(n: Node<L>, v: bool): (n': Node<L>)
    ensures n'.nodeVisible == v && n'.labelVisible == v
    ensures n'.(nodeVisible := n.nodeVisible, labelVisible := n.labelVisible) == n
  {
    n.(nodeVisible := v, labelVisible := v)
  }

  /** `checkNodeVisibility`: the node container's flag; the label's is not consulted. */
  function CheckVisibility<L>(n: Node<L>): bool {
    n.nodeVisible
  }

  /** Setting the visibility and reading it back gives the value set. */
  lemma CheckReadsBack<L>(n: Node<L>, v: bool)
    ensures CheckVisibility(SetVisibility(n, v)) == v
  {
  }

  /** The check sees only the node container: nodes differing in the label's flag alone agree. */
  lemma CheckIgnoresLabel<L>(n: Node<L>, w: bool)
    ensures CheckVisibility(n.(labelVisible := w)) == CheckVisibility(n)
  {
  }

  /** Node and label stay together under any sequence of position updates. */
  lemma PositionsAgree<L>(n: Node<L>, p: Point, q: Point)
    ensures UpdatePosition(UpdatePosition(n, p), q) == UpdatePosition(n, q)
    ensures UpdatePosition(n, p).nodePos == UpdatePosition(n, p).labelPos
  {
  }
}

=== FILE: registry.dfy ===
/**
 * The scene registry of `PixiGraph` (src/graph.ts): the key -> handle maps
 * kept in step with the graph's add / drop / clear events, the hover flag of
 * every handle, the style layers a handle is resolved with, the bilateral
 * decision taken when an edge is created, the level-of-detail step, the
 * `resetView` bounding-box arithmetic and the visibility queries by key.
 *
 * A handle keeps only the flags the registry reads or writes; the rendering
 * objects behind it are modelled in PixiNode / PixiEdge.
 */
module Registry {
  import opened Wrappers
  import opened Geometry
  import opened Style

  type Key = string

  datatype NodeHandle = NodeHandle(hovered: bool, visible: bool)
  datatype EdgeHandle = EdgeHandle(hovered: bool, selfLoop: bool, bilateral: bool, visible: bool)

  /** A request to re-resolve a handle's style (`updateNodeStyle` / `updateEdgeStyle`). */
  datatype Restyle = NodeStyled(node: Key) | EdgeStyled(edge: Key)

  /** Dereferencing a missing handle (`map.get(key)!`) throws. */
  datatype Failure = UnknownKey(key: Key)

  /**
   * The registry: both maps, the key of the node under a pressed mouse
   * button, the restyle requests issued so far and the keys reported
   * through `console.error`.
   */
  datatype Scene = Scene(
    nodes: map<Key, NodeHandle>,
    edges: map<Key, EdgeHandle>,
    mousedownNode: Option<Key>,
    restyled: seq<Restyle>,
    errors: seq<Key>)

  const Empty := Scene(map[], map[], None, [], [])

  // ---------------------------------------------------------------------
  // The graph the scene follows

  /** graphology's graph types: which orientations an edge may have. */
  datatype GraphType = Directed | Undirected | Mixed

  /** The endpoints of an edge, and whether it is undirected. */
  datatype Ends = Ends(source: Key, target: Key, undirected: bool)

  /** A graphology graph reduced to its type, its keys and the endpoints of its edges. */
  datatype Graph = Graph(kind: GraphType, nodes: set<Key>, edges: map<Key, Ends>)

  /** Whether the graph type admits an edge of this orientation. */
  predicate Admits(kind: GraphType, undirected: bool) {
    match kind
    case Directed => !undirected
    case Undirected => undirected
    case Mixed => true
  }

  /**
   * An edge joins `a` and `b`: its endpoints are the two nodes, either way
   * round, whatever its orientation.
   */
  predicate Joins(en: Ends, a: Key, b: Key) {
    (en.source == a && en.target == b) || (en.source == b && en.target == a)
  }

  /**
   * `graph.edges(a, b)` with no direction: graphology collects the edges
   * `b -> a` (from `a`'s in-edges), the edges `a -> b` (from its out-edges)
   * and the undirected edges between the two, taking a self-loop once.
   */
  function EdgesBetween(g: Graph, a: Key, b: Key): (es: set<Key>)
    ensures forall e :: e in es <==> e in g.edges && Joins(g.edges[e], a, b)
  {
    set e | e in g.edges && Joins(g.edges[e], a, b)
  }

  /** The edges between two nodes do not depend on the order they are named in. */
  lemma EdgesBetweenSymmetric(g: Graph, a: Key, b: Key)
    ensures EdgesBetween(g, a, b) == EdgesBetween(g, b, a)
  {
  }

  // ---------------------------------------------------------------------
  // Style layers

  /** The value JavaScript gives a missing attribute. */
  function Attribute(attrs: Attrs, k: string): (v: Value)
    ensures k !in attrs ==> v == P(Undef)
    ensures k in attrs ==> v == attrs[k]
  {
    if k in attrs then attrs[k] else P(Undef)
  }

  /**
   * `[DEFAULT_STYLE, style, hovered ? hoverStyle : undefined]`: the layers a
   * node or edge is resolved with.
   */
  function Layers(default: StyleDef, user: StyleDef, hover: StyleDef, hovered: bool): (ls: seq<StyleDef>)
    ensures |ls| == 3 && ls[0] == default && ls[1] == user
    ensures hovered ==> ls[2] == hover
    ensures !hovered ==> Falsy(ls[2])
  {
    [default, user, if hovered then hover else Lit(Undef)]
  }

  /** The layers a handle is created with: the hover slot is `undefined`. */
  function CreationLayers(default: StyleDef, user: StyleDef): seq<StyleDef> {
    [default, user, Lit(Undef)]
  }

  /** A handle that is not hovered resolves exactly as default + user. */
  lemma UnhoveredIgnoresHoverStyle(default: StyleDef, user: StyleDef, hover: StyleDef, attrs: Attrs)
    ensures ResolveAll(Layers(default, user, hover, false), attrs) == ResolveAll([default, user], attrs)
    ensures ResolveAll(CreationLayers(default, user), attrs) == ResolveAll([default, user], attrs)
  {
    FalsyLayerIgnored([default, user], Lit(Undef), [], attrs);
    assert [default, user] + [Lit(Undef)] + [] == Layers(default, user, hover, false);
    assert [default, user] + [] == [default, user];
  }

  /**
   * A hovered handle takes every leaf of the hover style, at any depth,
   * over the lower layers; paths the hover style leaves alone keep the
   * user's leaves.
   */
  lemma HoveredTakesHoverStyle(default: StyleDef, user: StyleDef, hover: StyleDef, attrs: Attrs, p: seq<string>)
    requires default.Rec? && user.Rec? && hover.Rec?
    ensures var r := ResolveAll(Layers(default, user, hover, true), attrs);
            var (u, h) := (Resolve(user, attrs), Resolve(hover, attrs));
            (LeafAt(h, p) ==> Get(r, p) == Get(h, p)) &&
            (Absent(h, p) && LeafAt(u, p) ==> Get(r, p) == Get(u, p))
  {
    HoverLayerWins(default, user, hover, attrs, p);
  }

  // ---------------------------------------------------------------------
  // Creation and the bilateral decision

  /**
   * The bilateral flag of a new edge from `src` to `tgt`: its `bilateralKey`
   * attribute is exactly `true`, or the graph (which already holds the new
   * edge) has more than one edge between `tgt` and `src`, in either
   * direction: the new edge itself and at least one other.
   */
  function Bilateral(attrs: Attrs, bilateralKey: string, g: Graph, src: Key, tgt: Key): (b: bool)
    ensures Attribute(attrs, bilateralKey) == P(Bool(true)) ==> b
    ensures Attribute(attrs, bilateralKey) != P(Bool(true)) ==> (b <==> |EdgesBetween(g, tgt, src)| > 1)
  {
    var byKey := Attribute(attrs, bilateralKey);
    (if byKey == P(Bool(true)) then true else false) || |EdgesBetween(g, tgt, src)| > 1
  }

  lemma MoreThanOne(s: set<Key>)
    ensures |s| > 1 <==> exists x, y :: x in s && y in s && x != y
  {
    if |s| > 1 {
      var x :| x in s;
      assert |s - {x}| == |s| - 1;
      var y :| y in s - {x};
      assert x in s && y in s && x != y;
    }
    if exists x, y :: x in s && y in s && x != y {
      var x, y :| x in s && y in s && x != y;
      assert {x, y} <= s;
      assert |{x, y}| == 2;
      CardSubset({x, y}, s);
    }
  }

  lemma CardSubset(a: set<Key>, b: set<Key>)
    requires a <= b
    ensures |a| <= |b|
  {
    assert b == a + (b - a);
  }

  /**
   * Without the attribute, a new edge is bilateral exactly when two distinct
   * edges join its ends, in either direction and of either orientation;
   * any attribute value other than the boolean `true` (a string, a number)
   * is ignored.
   */
  lemma BilateralIff(attrs: Attrs, bilateralKey: string, g: Graph, src: Key, tgt: Key)
    requires Attribute(attrs, bilateralKey) != P(Bool(true))
    ensures Bilateral(attrs, bilateralKey, g, src, tgt) <==>
            exists e1, e2 :: e1 in g.edges && e2 in g.edges && e1 != e2 &&
                             Joins(g.edges[e1], src, tgt) && Joins(g.edges[e2], src, tgt)
  {
    var between := EdgesBetween(g, tgt, src);
    MoreThanOne(between);
    if exists e1, e2 :: e1 in g.edges && e2 in g.edges && e1 != e2 &&
                        Joins(g.edges[e1], src, tgt) && Joins(g.edges[e2], src, tgt) {
      var e1, e2 :| e1 in g.edges && e2 in g.edges && e1 != e2 &&
                    Joins(g.edges[e1], src, tgt) && Joins(g.edges[e2], src, tgt);
      assert e1 in between && e2 in between;
    }
  }

  /** Without the attribute, an edge that is the only one between its ends is not bilateral. */
  lemma LoneEdgeIsNotBilateral(attrs: Attrs, bilateralKey: string, g: Graph, k: Key, src: Key, tgt: Key)
    requires Attribute(attrs, bilateralKey) != P(Bool(true))
    requires k in g.edges && Joins(g.edges[k], src, tgt)
    requires forall e :: e in g.edges && e != k ==> !Joins(g.edges[e], src, tgt)
    ensures !Bilateral(attrs, bilateralKey, g, src, tgt)
  {
    assert EdgesBetween(g, tgt, src) == {k};
  }

  /**
   * In a directed graph, `a -> b` added alone is not bilateral, and a
   * following `b -> a` is: the graph then holds two edges between the two.
   */
  lemma OppositePairIsBilateral()
    ensures var g1 := Graph(Directed, {"a", "b"}, map["ab" := Ends("a", "b", false)]);
            !Bilateral(map[], "bilateral", g1, "a", "b")
    ensures var g2 := Graph(Directed, {"a", "b"}, map["ab" := Ends("a", "b", false), "ba" := Ends("b", "a", false)]);
            Bilateral(map[], "bilateral", g2, "b", "a")
  {
    var g1 := Graph(Directed, {"a", "b"}, map["ab" := Ends("a", "b", false)]);
    assert EdgesBetween(g1, "b", "a") == {"ab"};
    var g2 := Graph(Directed, {"a", "b"}, map["ab" := Ends("a", "b", false), "ba" := Ends("b", "a", false)]);
    assert "ab" in EdgesBetween(g2, "a", "b") && "ba" in EdgesBetween(g2, "a", "b");
    MoreThanOne(EdgesBetween(g2, "a", "b"));
  }

  /**
   * In an undirected graph, two parallel edges a - b make a new a - b edge
   * bilateral whichever way round it was added.
   */
  lemma UndirectedPairIsBilateral()
    ensures var g := Graph(Undirected, {"a", "b"}, map["e1" := Ends("a", "b", true), "e2" := Ends("a", "b", true)]);
            Bilateral(map[], "bilateral", g, "a", "b") && Bilateral(map[], "bilateral", g, "b", "a")
  {
    var g := Graph(Undirected, {"a", "b"}, map["e1" := Ends("a", "b", true), "e2" := Ends("a", "b", true)]);
    assert "e1" in EdgesBetween(g, "b", "a") && "e2" in EdgesBetween(g, "b", "a");
    assert "e1" in EdgesBetween(g, "a", "b") && "e2" in EdgesBetween(g, "a", "b");
    MoreThanOne(EdgesBetween(g, "b", "a"));
    MoreThanOne(EdgesBetween(g, "a", "b"));
  }

  /** A self-loop is one edge between its node and itself, so it alone is not bilateral. */
  lemma SelfLoopAloneIsNotBilateral()
    ensures var g := Graph(Directed, {"a"}, map["aa" := Ends("a", "a", false)]);
            !Bilateral(map[], "bilateral", g, "a", "a")
  {
    var g := Graph(Directed, {"a"}, map["aa" := Ends("a", "a", false)]);
    assert EdgesBetween(g, "a", "a") == {"aa"};
  }

  /** `createNode`: register a fresh, unhovered, visible handle and style it. */
  function CreateNode(s: Scene, k: Key): (r: Scene)
    ensures r.nodes.Keys == s.nodes.Keys + {k}
    ensures k in r.nodes && !r.nodes[k].hovered && r.nodes[k].visible
    ensures forall j :: j in s.nodes && j != k ==> r.nodes[j] == s.nodes[j]
    ensures r.edges == s.edges && r.mousedownNode == s.mousedownNode && r.errors == s.errors
    ensures r.restyled == s.restyled + [NodeStyled(k)]
  {
    s.(nodes := s.nodes[k := NodeHandle(false, true)], restyled := s.restyled + [NodeStyled(k)])
  }

  /**
   * `createEdge`: register an unhovered, visible handle whose self-loop flag
   * says whether both ends are the same node and whose bilateral flag is
   * decided against the graph `g` that already holds the edge.
   */
  function CreateEdge(s: Scene, g: Graph, k: Key, src: Key, tgt: Key, attrs: Attrs, bilateralKey: string): (r: Scene)
    ensures r.edges.Keys == s.edges.Keys + {k}
    ensures k in r.edges && !r.edges[k].hovered && r.edges[k].visible
    ensures r.edges[k].selfLoop <==> src == tgt
    ensures r.edges[k].bilateral == Bilateral(attrs, bilateralKey, g, src, tgt)
    ensures forall j :: j in s.edges && j != k ==> r.edges[j] == s.edges[j]
    ensures r.nodes == s.nodes && r.mousedownNode == s.mousedownNode && r.errors == s.errors
    ensures r.restyled == s.restyled + [EdgeStyled(k)]
  {
    var h := EdgeHandle(false, src == tgt, Bilateral(attrs, bilateralKey, g, src, tgt), true);
    s.(edges := s.edges[k := h], restyled := s.restyled + [EdgeStyled(k)])
  }

  // ---------------------------------------------------------------------
  // Dropping

  /** `dropNode`: remove the handle; an unknown key throws. */
  function DropNode(s: Scene, k: Key): (r: Result<Scene, Failure>)
    ensures r.Ok? <==> k in s.nodes
    ensures r.Err? ==> r.error == UnknownKey(k)
    ensures r.Ok? ==> r.value.nodes.Keys == s.nodes.Keys - {k} &&
                      (forall j :: j in r.value.nodes ==> r.value.nodes[j] == s.nodes[j]) &&
                      r.value.edges == s.edges && r.value.mousedownNode == s.mousedownNode &&
                      r.value.restyled == s.restyled && r.value.errors == s.errors
  {
    if k in s.nodes then Ok(s.(nodes := s.nodes - {k})) else Err(UnknownKey(k))
  }

  /** `dropEdge`: remove the handle; an unknown key throws. */
  function DropEdge(s: Scene, k: Key): (r: Result<Scene, Failure>)
    ensures r.Ok? <==> k in s.edges
    ensures r.Err? ==> r.error == UnknownKey(k)
    ensures r.Ok? ==> r.value.edges.Keys == s.edges.Keys - {k} &&
                      (forall j :: j in r.value.edges ==> r.value.edges[j] == s.edges[j]) &&
                      r.value.nodes == s.nodes && r.value.mousedownNode == s.mousedownNode &&
                      r.value.restyled == s.restyled && r.value.errors == s.errors
  {
    if k in s.edges then Ok(s.(edges := s.edges - {k})) else Err(UnknownKey(k))
  }

  /** The keys of `ks` are pairwise different. */
  predicate Distinct(ks: seq<Key>) {
    forall i, j :: 0 <= i < j < |ks| ==> ks[i] != ks[j]
  }

  /** `ks` lists every key of `m` once: a snapshot `Array.from(map.keys())`. */
  predicate Enumerates(ks: seq<Key>, m: set<Key>) {
    Distinct(ks) && (forall k :: k in ks ==> k in m) && (forall k :: k in m ==> k in ks)
  }

  /** `keys.forEach(dropEdge)`: drop in order, stopping at the first throw. */
  function DropEdges(s: Scene, ks: seq<Key>): (r: Result<Scene, Failure>)
    ensures r.Ok? ==> (forall k :: k in ks ==> k in s.edges) &&
                      r.value.edges.Keys == s.edges.Keys - (set k | k in ks) &&
                      (forall j :: j in r.value.edges ==> r.value.edges[j] == s.edges[j]) &&
                      r.value.nodes == s.nodes && r.value.mousedownNode == s.mousedownNode &&
                      r.value.restyled == s.restyled && r.value.errors == s.errors
    decreases |ks|
  {
    if ks == [] then Ok(s)
    else
      match DropEdge(s, ks[0])
      case Err(f) => Err(f)
      case Ok(s1) =>
        assert forall k :: k in ks ==> k == ks[0] || k in ks[1..];
        assert (set k | k in ks) == {ks[0]} + (set k | k in ks[1..]);
        DropEdges(s1, ks[1..])
  }

  /** `keys.forEach(dropNode)`: drop in order, stopping at the first throw. */
  function DropNodes(s: Scene, ks: seq<Key>): (r: Result<Scene, Failure>)
    ensures r.Ok? ==> (forall k :: k in ks ==> k in s.nodes) &&
                      r.value.nodes.Keys == s.nodes.Keys - (set k | k in ks) &&
                      (forall j :: j in r.value.nodes ==> r.value.nodes[j] == s.nodes[j]) &&
                      r.value.edges == s.edges && r.value.mousedownNode == s.mousedownNode &&
                      r.value.restyled == s.restyled && r.value.errors == s.errors
    decreases |ks|
  {
    if ks == [] then Ok(s)
    else
      match DropNode(s, ks[0])
      case Err(f) => Err(f)
      case Ok(s1) =>
        assert forall k :: k in ks ==> k == ks[0] || k in ks[1..];
        assert (set k | k in ks) == {ks[0]} + (set k | k in ks[1..]);
        DropNodes(s1, ks[1..])
  }

  /** Dropping distinct keys that are all registered never throws. */
  lemma {:induction false} DropEdgesSucceeds(s: Scene, ks: seq<Key>)
    requires Distinct(ks) && forall k :: k in ks ==> k in s.edges
    ensures DropEdges(s, ks).Ok?
    decreases |ks|
  {
    if ks != [] {
      var s1 := DropEdge(s, ks[0]).value;
      assert forall k :: k in ks[1..] ==> k in s1.edges by {
        forall k | k in ks[1..] ensures k in s1.edges {
          var i :| 0 <= i < |ks[1..]| && ks[1..][i] == k;
          assert ks[i + 1] == k && ks[0] != k;
        }
      }
      DropEdgesSucceeds(s1, ks[1..]);
    }
  }

  lemma {:induction false} DropNodesSucceeds(s: Scene, ks: seq<Key>)
    requires Distinct(ks) && forall k :: k in ks ==> k in s.nodes
    ensures DropNodes(s, ks).Ok?
    decreases |ks|
  {
    if ks != [] {
      var s1 := DropNode(s, ks[0]).value;
      assert forall k :: k in ks[1..] ==> k in s1.nodes by {
        forall k | k in ks[1..] ensures k in s1.nodes {
          var i :| 0 <= i < |ks[1..]| && ks[1..][i] == k;
          assert ks[i + 1] == k && ks[0] != k;
        }
      }
      DropNodesSucceeds(s1, ks[1..]);
    }
  }

  /**
   * `onGraphCleared`: every edge of the snapshot `edgeOrder` is dropped, then
   * every node of the snapshot `nodeOrder`.
   */
  function OnCleared(s: Scene, edgeOrder: seq<Key>, nodeOrder: seq<Key>): (r: Result<Scene, Failure>)
    ensures r.Ok? ==> r.value.edges.Keys == s.edges.Keys - (set k | k in edgeOrder) &&
                      r.value.nodes.Keys == s.nodes.Keys - (set k | k in nodeOrder)
  {
    match DropEdges(s, edgeOrder)
    case Err(f) => Err(f)
    case Ok(s1) => DropNodes(s1, nodeOrder)
  }

  /** `onGraphEdgesCleared`: only the edges of the snapshot are dropped. */
  function OnEdgesCleared(s: Scene, edgeOrder: seq<Key>): (r: Result<Scene, Failure>)
    ensures r.Ok? ==> r.value.edges.Keys == s.edges.Keys - (set k | k in edgeOrder) &&
                      r.value.nodes == s.nodes
  {
    DropEdges(s, edgeOrder)
  }

  /**
   * Clearing with snapshots of both maps never throws and leaves both maps
   * empty; the edge phase runs first and leaves every node in place.
   */
  lemma ClearedEmptiesBoth(s: Scene, edgeOrder: seq<Key>, nodeOrder: seq<Key>)
    requires Enumerates(edgeOrder, s.edges.Keys) && Enumerates(nodeOrder, s.nodes.Keys)
    ensures DropEdges(s, edgeOrder).Ok? && DropEdges(s, edgeOrder).value.nodes == s.nodes
    ensures var r := OnCleared(s, edgeOrder, nodeOrder);
            r.Ok? && r.value.nodes == map[] && r.value.edges == map[] &&
            r.value.mousedownNode == s.mousedownNode && r.value.errors == s.errors
  {
    DropEdgesSucceeds(s, edgeOrder);
    var s1 := DropEdges(s, edgeOrder).value;
    DropNodesSucceeds(s1, nodeOrder);
    var r := OnCleared(s, edgeOrder, nodeOrder).value;
    assert r.nodes.Keys == {};
    assert r.edges.Keys == {};
  }

  /** Clearing the edges with a snapshot empties the edge map and keeps the nodes. */
  lemma EdgesClearedKeepsNodes(s: Scene, edgeOrder: seq<Key>)
    requires Enumerates(edgeOrder, s.edges.Keys)
    ensures var r := OnEdgesCleared(s, edgeOrder);
            r.Ok? && r.value.edges == map[] && r.value.nodes == s.nodes
  {
    DropEdgesSucceeds(s, edgeOrder);
    assert OnEdgesCleared(s, edgeOrder).value.edges.Keys == {};
  }

  // ---------------------------------------------------------------------
  // Hover

  /** `hoverNode`: set the flag and restyle, unless it is already set. */
  function HoverNode(s: Scene, k: Key): (r: Result<Scene, Failure>)
    ensures r.Ok? <==> k in s.nodes
    ensures r.Err? ==> r.error == UnknownKey(k)
    ensures r.Ok? && s.nodes[k].hovered ==> r.value == s
    ensures r.Ok? && !s.nodes[k].hovered ==>
              r.value == s.(nodes := s.nodes[k := s.nodes[k].(hovered := true)],
                            restyled := s.restyled + [NodeStyled(k)])
  {
    if k !in s.nodes then Err(UnknownKey(k))
    else if s.nodes[k].hovered then Ok(s)
    else Ok(s.(nodes := s.nodes[k := s.nodes[k].(hovered := true)], restyled := s.restyled + [NodeStyled(k)]))
  }

  /** `unhoverNode`: clear the flag and restyle, unless it is already clear. */
  function UnhoverNode(s: Scene, k: Key): (r: Result<Scene, Failure>)
    ensures r.Ok? <==> k in s.nodes
    ensures r.Err? ==> r.error == UnknownKey(k)
    ensures r.Ok? && !s.nodes[k].hovered ==> r.value == s
    ensures r.Ok? && s.nodes[k].hovered ==>
              r.value == s.(nodes := s.nodes[k := s.nodes[k].(hovered := false)],
                            restyled := s.restyled + [NodeStyled(k)])
  {
    if k !in s.nodes then Err(UnknownKey(k))
    else if !s.nodes[k].hovered then Ok(s)
    else Ok(s.(nodes := s.nodes[k := s.nodes[k].(hovered := false)], restyled := s.restyled + [NodeStyled(k)]))
  }

  /** `hoverEdge`. */
  function HoverEdge(s: Scene, k: Key): (r: Result<Scene, Failure>)
    ensures r.Ok? <==> k in s.edges
    ensures r.Err? ==> r.error == UnknownKey(k)
    ensures r.Ok? && s.edges[k].hovered ==> r.value == s
    ensures r.Ok? && !s.edges[k].hovered ==>
              r.value == s.(edges := s.edges[k := s.edges[k].(hovered := true)],
                            restyled := s.restyled + [EdgeStyled(k)])
  {
    if k !in s.edges then Err(UnknownKey(k))
    else if s.edges[k].hovered then Ok(s)
    else Ok(s.(edges := s.edges[k := s.edges[k].(hovered := true)], restyled := s.restyled + [EdgeStyled(k)]))
  }

  /** `unhoverEdge`. */
  function UnhoverEdge(s: Scene, k: Key): (r: Result<Scene, Failure>)
    ensures r.Ok? <==> k in s.edges
    ensures r.Err? ==> r.error == UnknownKey(k)
    ensures r.Ok? && !s.edges[k].hovered ==> r.value == s
    ensures r.Ok? && s.edges[k].hovered ==>
              r.value == s.(edges := s.edges[k := s.edges[k].(hovered := false)],
                            restyled := s.restyled + [EdgeStyled(k)])
  {
    if k !in s.edges then Err(UnknownKey(k))
    else if !s.edges[k].hovered then Ok(s)
    else Ok(s.(edges := s.edges[k := s.edges[k].(hovered := false)], restyled := s.restyled + [EdgeStyled(k)]))
  }

  /**
   * Hovering a node twice is hovering it once, and hover then unhover
   * restores the flag it found (only the restyle requests remain).
   */
  lemma HoverNodeIdempotent(s: Scene, k: Key)
    requires k in s.nodes
    ensures HoverNode(HoverNode(s, k).value, k) == HoverNode(s, k)
    ensures UnhoverNode(UnhoverNode(s, k).value, k) == UnhoverNode(s, k)
    ensures !s.nodes[k].hovered ==>
              UnhoverNode(HoverNode(s, k).value, k).value.nodes == s.nodes
  {
    if !s.nodes[k].hovered {
      var h := HoverNode(s, k).value;
      assert h.nodes[k].hovered;
      assert UnhoverNode(h, k).value.nodes == h.nodes[k := h.nodes[k].(hovered := false)];
    }
  }

  /** The same for an edge. */
  lemma HoverEdgeIdempotent(s: Scene, k: Key)
    requires k in s.edges
    ensures HoverEdge(HoverEdge(s, k).value, k) == HoverEdge(s, k)
    ensures UnhoverEdge(UnhoverEdge(s, k).value, k) == UnhoverEdge(s, k)
    ensures !s.edges[k].hovered ==>
              UnhoverEdge(HoverEdge(s, k).value, k).value.edges == s.edges
  {
    if !s.edges[k].hovered {
      var h := HoverEdge(s, k).value;
      assert h.edges[k].hovered;
      assert UnhoverEdge(h, k).value.edges == h.edges[k := h.edges[k].(hovered := false)];
    }
  }

  // ---------------------------------------------------------------------
  // Mouse events

  /** `!this.mousedownNodeKey`: no key is held, or the held key is the falsy "". */
  predicate NoNodePressed(s: Scene) {
    s.mousedownNode.None? || s.mousedownNode.value == ""
  }

  /** A node's `mouseover`: hover it unless a node is being pressed. */
  function NodeMouseOver(s: Scene, k: Key): (r: Result<Scene, Failure>)
    ensures !NoNodePressed(s) ==> r == Ok(s)
    ensures NoNodePressed(s) ==> r == HoverNode(s, k)
  {
    if NoNodePressed(s) then HoverNode(s, k) else Ok(s)
  }

  /** A node's `mouseout`: unhover it unless a node is being pressed. */
  function NodeMouseOut(s: Scene, k: Key): (r: Result<Scene, Failure>)
    ensures !NoNodePressed(s) ==> r == Ok(s)
    ensures NoNodePressed(s) ==> r == UnhoverNode(s, k)
  {
    if NoNodePressed(s) then UnhoverNode(s, k) else Ok(s)
  }

  /** A node's `mousedown` records its key. */
  function NodeMouseDown(s: Scene, k: Key): (r: Scene)
    ensures r.mousedownNode == Some(k)
    ensures r.nodes == s.nodes && r.edges == s.edges
  {
    s.(mousedownNode := Some(k))
  }

  /** The document's `mouseup` forgets the pressed node. */
  function DocumentMouseUp(s: Scene): (r: Scene)
    ensures NoNodePressed(r)
    ensures r.nodes == s.nodes && r.edges == s.edges
  {
    s.(mousedownNode := None)
  }

  /** An edge's `mouseover` hovers it whatever is pressed. */
  function EdgeMouseOver(s: Scene, k: Key): (r: Result<Scene, Failure>)
    ensures r == HoverEdge(s, k)
  {
    HoverEdge(s, k)
  }

  /** An edge's `mouseout` unhovers it whatever is pressed. */
  function EdgeMouseOut(s: Scene, k: Key): (r: Result<Scene, Failure>)
    ensures r == UnhoverEdge(s, k)
  {
    UnhoverEdge(s, k)
  }

  /**
   * While a node is dragged no node changes its hover state; once the
   * button is released, node hovering resumes.
   */
  lemma DragFreezesNodeHover(s: Scene, pressed: Key, k: Key)
    requires pressed != "" && k in s.nodes
    ensures var d := NodeMouseDown(s, pressed);
            NodeMouseOver(d, k) == Ok(d) && NodeMouseOut(d, k) == Ok(d)
    ensures var u := DocumentMouseUp(NodeMouseDown(s, pressed));
            NodeMouseOver(u, k).value.nodes[k].hovered
  {
    var d := NodeMouseDown(s, pressed);
    assert !NoNodePressed(d);
  }

  /** Edges keep hovering and unhovering while a node is dragged. */
  lemma DragKeepsEdgeHover(s: Scene, pressed: Key, k: Key)
    requires k in s.edges
    ensures var d := NodeMouseDown(s, pressed);
            EdgeMouseOver(d, k).value.edges[k].hovered && !EdgeMouseOut(d, k).value.edges[k].hovered
  {
  }

  // ---------------------------------------------------------------------
  // Level of detail

  /** `[0.1, 0.2, 0.3, 0.4, 0.5]`; the sixth threshold is `Infinity`. */
  const Thresholds: seq<real> := [0.1, 0.2, 0.3, 0.4, 0.5]

  /** `findIndex` of the first threshold at or above `zoom`, from index `i`. */
  function StepFrom(zoom: real, i: nat): (step: nat)
    requires i <= |Thresholds|
    ensures i <= step <= |Thresholds|
    ensures step < |Thresholds| ==> zoom <= Thresholds[step]
    ensures forall j :: i <= j < step ==> Thresholds[j] < zoom
    decreases |Thresholds| - i
  {
    if i == |Thresholds| then i
    else if zoom <= Thresholds[i] then i
    else StepFrom(zoom, i + 1)
  }

  /** The LOD step of a zoom level: an index into the six thresholds. */
  function ZoomStep(zoom: real): (step: nat)
    ensures step <= 5
    ensures step < 5 ==> zoom <= Thresholds[step]
    ensures forall j :: 0 <= j < step ==> Thresholds[j] < zoom
  {
    StepFrom(zoom, 0)
  }

  /** The step is the number of thresholds strictly below the zoom: those are exactly the first `step`. */
  lemma ZoomStepCounts(zoom: real)
    ensures forall j :: 0 <= j < 5 ==> (Thresholds[j] < zoom <==> j < ZoomStep(zoom))
  {
    var step := ZoomStep(zoom);
    forall j | step <= j < 5 ensures zoom <= Thresholds[j] {
      assert Thresholds[step] <= Thresholds[j];
    }
  }

  /** A larger zoom never gives a smaller step. */
  lemma ZoomStepMonotone(z1: real, z2: real)
    requires z1 <= z2
    ensures ZoomStep(z1) <= ZoomStep(z2)
  {
  }

  lemma ZoomStepExamples()
    ensures ZoomStep(0.25) == 2 && ZoomStep(0.1) == 0 && ZoomStep(0.05) == 0
    ensures ZoomStep(1.5) == 5 && ZoomStep(0.5) == 4
  {
    assert Thresholds[0] < 0.25 && Thresholds[1] < 0.25 && 0.25 <= Thresholds[2];
    assert forall j :: 0 <= j < 5 ==> Thresholds[j] < 1.5;
  }

  // ---------------------------------------------------------------------
  // resetView

  const WorldPadding: real := 100.0

  /** What `resetView` does to the viewport. */
  datatype ViewChange =
    | CenterOnly(center: Point)
    | Fit(center: Point, worldWidth: real, worldHeight: real)

  /** `Math.min(...xs)` over the x (`byX`) or y coordinates of a non-empty list. */
  function Least(ps: seq<Point>, byX: bool): (m: real)
    requires ps != []
    ensures forall i :: 0 <= i < |ps| ==> m <= (if byX then ps[i].x else ps[i].y)
    ensures exists i :: 0 <= i < |ps| && m == (if byX then ps[i].x else ps[i].y)
    decreases |ps|
  {
    var c := if byX then ps[0].x else ps[0].y;
    if |ps| == 1 then c
    else
      var rest := Least(ps[1..], byX);
      assert forall i :: 1 <= i < |ps| ==> ps[1..][i - 1] == ps[i];
      Min(c, rest)
  }

  /** `Math.max(...xs)` over the x or y coordinates of a non-empty list. */
  function Greatest(ps: seq<Point>, byX: bool): (m: real)
    requires ps != []
    ensures forall i :: 0 <= i < |ps| ==> (if byX then ps[i].x else ps[i].y) <= m
    ensures exists i :: 0 <= i < |ps| && m == (if byX then ps[i].x else ps[i].y)
    decreases |ps|
  {
    var c := if byX then ps[0].x else ps[0].y;
    if |ps| == 1 then c
    else
      var rest := Greatest(ps[1..], byX);
      assert forall i :: 1 <= i < |ps| ==> ps[1..][i - 1] == ps[i];
      Max(c, rest)
  }

  /**
   * `resetView` over the positions of the listed nodes: with none it centres
   * on half the container; otherwise it centres on the bounding box and
   * sizes the world to the box plus `WORLD_PADDING` on every side.
   */
  function ResetView(ps: seq<Point>, clientWidth: real, clientHeight: real): (v: ViewChange)
    ensures ps == [] <==> v.CenterOnly?
    ensures ps == [] ==> v.center == Point(clientWidth / 2.0, clientHeight / 2.0)
    ensures ps != [] ==>
              v.worldWidth == Greatest(ps, true) - Least(ps, true) + 2.0 * WorldPadding &&
              v.worldHeight == Greatest(ps, false) - Least(ps, false) + 2.0 * WorldPadding &&
              v.center == Point((Least(ps, true) + Greatest(ps, true)) / 2.0,
                                (Least(ps, false) + Greatest(ps, false)) / 2.0)
  {
    if ps == [] then CenterOnly(Point(clientWidth / 2.0, clientHeight / 2.0))
    else
      var minX, maxX := Least(ps, true), Greatest(ps, true);
      var minY, maxY := Least(ps, false), Greatest(ps, false);
      var graphWidth := Abs(maxX - minX);
      var graphHeight := Abs(maxY - minY);
      Fit(Point(minX + graphWidth / 2.0, minY + graphHeight / 2.0),
          graphWidth + WorldPadding * 2.0, graphHeight + WorldPadding * 2.0)
  }

  /**
   * Every listed node lies inside the world centred on the new centre, at
   * least `WORLD_PADDING` away from each of its borders.
   */
  lemma ResetViewContainsNodes(ps: seq<Point>, clientWidth: real, clientHeight: real, i: nat)
    requires i < |ps|
    ensures var v := ResetView(ps, clientWidth, clientHeight);
            v.Fit? &&
            v.center.x - v.worldWidth / 2.0 + WorldPadding <= ps[i].x <= v.center.x + v.worldWidth / 2.0 - WorldPadding &&
            v.center.y - v.worldHeight / 2.0 + WorldPadding <= ps[i].y <= v.center.y + v.worldHeight / 2.0 - WorldPadding
  {
    var v := ResetView(ps, clientWidth, clientHeight);
    assert Least(ps, true) <= ps[i].x <= Greatest(ps, true);
    assert Least(ps, false) <= ps[i].y <= Greatest(ps, false);
  }

  // ---------------------------------------------------------------------
  // Visibility by key

  /** `nodeVisibility`: set the flag, or report an unknown key. */
  function SetNodeVisibility(s: Scene, k: Key, visible: bool): (r: Scene)
    ensures r.nodes.Keys == s.nodes.Keys && r.edges == s.edges
    ensures k in s.nodes ==> r.nodes[k].visible == visible && r.errors == s.errors
    ensures forall j :: j in s.nodes && j != k ==> r.nodes[j] == s.nodes[j]
    ensures k !in s.nodes ==> r == s.(errors := s.errors + [k])
  {
    if k in s.nodes then s.(nodes := s.nodes[k := s.nodes[k].(visible := visible)])
    else s.(errors := s.errors + [k])
  }

  /** `checkNodeVisibility`: the flag, or `undefined` and a report. */
  function CheckNodeVisibility(s: Scene, k: Key): (r: (Option<bool>, Scene))
    ensures k in s.nodes ==> r.0 == Some(s.nodes[k].visible) && r.1 == s
    ensures k !in s.nodes ==> r.0 == None && r.1 == s.(errors := s.errors + [k])
  {
    if k in s.nodes then (Some(s.nodes[k].visible), s) else (None, s.(errors := s.errors + [k]))
  }

  /** `edgeVisibility`: set the flag, or report an unknown key. */
  function SetEdgeVisibility(s: Scene, k: Key, visible: bool): (r: Scene)
    ensures r.edges.Keys == s.edges.Keys && r.nodes == s.nodes
    ensures k in s.edges ==> r.edges[k].visible == visible && r.errors == s.errors
    ensures forall j :: j in s.edges && j != k ==> r.edges[j] == s.edges[j]
    ensures k !in s.edges ==> r == s.(errors := s.errors + [k])
  {
    if k in s.edges then s.(edges := s.edges[k := s.edges[k].(visible := visible)])
    else s.(errors := s.errors + [k])
  }

  /** `checkEdgeVisibility`: the flag, or `undefined` and a report. */
  function CheckEdgeVisibility(s: Scene, k: Key): (r: (Option<bool>, Scene))
    ensures k in s.edges ==> r.0 == Some(s.edges[k].visible) && r.1 == s
    ensures k !in s.edges ==> r.0 == None && r.1 == s.(errors := s.errors + [k])
  {
    if k in s.edges then (Some(s.edges[k].visible), s) else (None, s.(errors := s.errors + [k]))
  }

  /**
   * A check reads back the last set; on an unknown key set and check both
   * leave every handle alone and report the key once each.
   */
  lemma VisibilityReadsBack(s: Scene, k: Key, visible: bool)
    ensures k in s.nodes ==> CheckNodeVisibility(SetNodeVisibility(s, k, visible), k).0 == Some(visible)
    ensures k in s.edges ==> CheckEdgeVisibility(SetEdgeVisibility(s, k, visible), k).0 == Some(visible)
    ensures k !in s.nodes ==>
              var r := CheckNodeVisibility(SetNodeVisibility(s, k, visible), k);
              r.0 == None && r.1.nodes == s.nodes && r.1.edges == s.edges && r.1.errors == s.errors + [k, k]
  {
  }

  // ---------------------------------------------------------------------
  // Following the graph

  /** The events graphology emits, with the key snapshots the clear handlers iterate. */
  datatype GraphEvent =
    | NodeAdded(key: Key)
    | EdgeAdded(key: Key, source: Key, target: Key, undirected: bool, attrs: Attrs)
    | NodeDropped(key: Key)
    | EdgeDropped(key: Key)
    | Cleared(edgeOrder: seq<Key>, nodeOrder: seq<Key>)
    | EdgesCleared(edgeOrder: seq<Key>)

  /** The events a graph can emit in state `g` (graphology drops incident edges before a node). */
  predicate Legal(g: Graph, ev: GraphEvent) {
    match ev
    case NodeAdded(k) => k !in g.nodes
    case EdgeAdded(k, a, b, u, _) => k !in g.edges && a in g.nodes && b in g.nodes && Admits(g.kind, u)
    case NodeDropped(k) => k in g.nodes && forall e :: e in g.edges ==> g.edges[e].source != k && g.edges[e].target != k
    case EdgeDropped(k) => k in g.edges
    case Cleared(eo, no) => Enumerates(eo, g.edges.Keys) && Enumerates(no, g.nodes)
    case EdgesCleared(eo) => Enumerates(eo, g.edges.Keys)
  }

  /** The graph after it emitted `ev`. */
  function GraphAfter(g: Graph, ev: GraphEvent): Graph {
    match ev
    case NodeAdded(k) => g.(nodes := g.nodes + {k})
    case EdgeAdded(k, a, b, u, _) => g.(edges := g.edges[k := Ends(a, b, u)])
    case NodeDropped(k) => g.(nodes := g.nodes - {k})
    case EdgeDropped(k) => g.(edges := g.edges - {k})
    case Cleared(_, _) => g.(nodes := {}, edges := map[])
    case EdgesCleared(_) => g.(edges := map[])
  }

  /**
   * The registry's handler for `ev`; `after` is the graph once the event
   * has happened. `bilateralKey` gives, for an edge's attributes, the
   * `bilateralKey` of the edge style resolved against them, so a style
   * function may pick a different attribute for each edge.
   */
  function Handle(s: Scene, after: Graph, ev: GraphEvent, bilateralKey: Attrs -> string): (r: Result<Scene, Failure>)
    ensures ev.EdgeAdded? ==>
              r.Ok? && ev.key in r.value.edges &&
              r.value.edges[ev.key].bilateral == Bilateral(ev.attrs, bilateralKey(ev.attrs), after, ev.source, ev.target)
  {
    match ev
    case NodeAdded(k) => Ok(CreateNode(s, k))
    case EdgeAdded(k, a, b, _, attrs) => Ok(CreateEdge(s, after, k, a, b, attrs, bilateralKey(attrs)))
    case NodeDropped(k) => DropNode(s, k)
    case EdgeDropped(k) => DropEdge(s, k)
    case Cleared(eo, no) => OnCleared(s, eo, no)
    case EdgesCleared(eo) => OnEdgesCleared(s, eo)
  }

  /** The maps hold exactly the graph's keys. */
  predicate InSync(s: Scene, g: Graph) {
    s.nodes.Keys == g.nodes && s.edges.Keys == g.edges.Keys
  }

  /** Replay a run of events against the scene; `None` once the run is not one the graph can emit. */
  function Replay(s: Scene, g: Graph, evs: seq<GraphEvent>, bilateralKey: Attrs -> string): (r: Option<Result<Scene, Failure>>)
    ensures r.None? ==> exists i :: 0 <= i < |evs| && !Legal(Fold(g, evs[..i]), evs[i])
    decreases |evs|
  {
    if evs == [] then Some(Ok(s))
    else if !Legal(g, evs[0]) then
      assert Fold(g, evs[..0]) == g;
      None
    else
      var g1 := GraphAfter(g, evs[0]);
      match Handle(s, g1, evs[0], bilateralKey)
      case Err(f) => Some(Err(f))
      case Ok(s1) =>
        var r := Replay(s1, g1, evs[1..], bilateralKey);
        if r.None? then
          var i :| 0 <= i < |evs[1..]| && !Legal(Fold(g1, evs[1..][..i]), evs[1..][i]);
          assert evs[..i + 1] == [evs[0]] + evs[1..][..i];
          FoldCons(g, evs[0], evs[1..][..i]);
          r
        else r
  }

  /** The graph after a run of events. */
  function Fold(g: Graph, evs: seq<GraphEvent>): Graph
    decreases |evs|
  {
    if evs == [] then g else Fold(GraphAfter(g, evs[0]), evs[1..])
  }

  lemma FoldCons(g: Graph, ev: GraphEvent, evs: seq<GraphEvent>)
    ensures Fold(g, [ev] + evs) == Fold(GraphAfter(g, ev), evs)
  {
    assert ([ev] + evs)[1..] == evs;
  }

  /** One legal event keeps a synchronised scene synchronised, without a throw. */
  lemma HandleKeepsSync(s: Scene, g: Graph, ev: GraphEvent, bilateralKey: Attrs -> string)
    requires InSync(s, g) && Legal(g, ev)
    ensures var r := Handle(s, GraphAfter(g, ev), ev, bilateralKey);
            r.Ok? && InSync(r.value, GraphAfter(g, ev))
  {
    match ev
    case Cleared(eo, no) => ClearedEmptiesBoth(s, eo, no);
    case EdgesCleared(eo) => EdgesClearedKeepsNodes(s, eo);
    case _ =>
  }

  /**
   * The registry follows the graph: over any run of events the graph can
   * emit, no handler throws and the maps end with exactly the graph's keys.
   */
  lemma {:induction false} RegistryFollowsGraph(s: Scene, g: Graph, evs: seq<GraphEvent>, bilateralKey: Attrs -> string)
    requires InSync(s, g)
    requires forall i :: 0 <= i < |evs| ==> Legal(Fold(g, evs[..i]), evs[i])
    ensures var r := Replay(s, g, evs, bilateralKey);
            r.Some? && r.value.Ok? && InSync(r.value.value, Fold(g, evs))
    decreases |evs|
  {
    if evs != [] {
      assert evs[..0] == [];
      assert Legal(g, evs[0]);
      var g1 := GraphAfter(g, evs[0]);
      HandleKeepsSync(s, g, evs[0], bilateralKey);
      var s1 := Handle(s, g1, evs[0], bilateralKey).value;
      forall i | 0 <= i < |evs[1..]| ensures Legal(Fold(g1, evs[1..][..i]), evs[1..][i]) {
        assert evs[..i + 1] == [evs[0]] + evs[1..][..i];
        FoldCons(g, evs[0], evs[1..][..i]);
        assert Legal(Fold(g, evs[..i + 1]), evs[i + 1]);
      }
      RegistryFollowsGraph(s1, g1, evs[1..], bilateralKey);
    }
  }
}

=== FILE: segment.dfy ===
/**
 * The edge-versus-rectangle test of the selection tools.
 *
 * The source computes the slope `k = (y2 - y1) / (x2 - x1)` and the
 * intercept `b = y1 - k * x1` and selects the edge when one of six clauses
 * holds: the line meets the top side, the segment is vertical and overlaps
 * the rectangle, the line meets the bottom side, the left side, the right
 * side, or both endpoints lie inside.
 *
 * `JsHits` evaluates that expression literally in `ExtReal`, where a
 * division by zero yields NaN or an infinity. `Hits` is the same test over
 * the reals with those outcomes written as guards. `JsHitsIsHits` shows the
 * two agree and `HitsIffMeets` shows that `Hits` is exactly "the closed
 * segment meets the closed rectangle".
 */
module SegmentTest {
  import opened Geometry
  import opened ExtReal

  predicate Vertical(s: Segment) {
    s.a.x == s.b.x
  }

  function Slope(s: Segment): real
    requires !Vertical(s)
  {
    (s.b.y - s.a.y) / (s.b.x - s.a.x)
  }

  function Intercept(s: Segment): real
    requires !Vertical(s)
  {
    s.a.y - Slope(s) * s.a.x
  }

  /** Ordinate of the segment's supporting line at abscissa `x`. */
  function LineY(s: Segment, x: real): real
    requires !Vertical(s)
  {
    Slope(s) * x + Intercept(s)
  }

  /** The abscissa `xc` lies inside the rectangle's and the segment's x-ranges. */
  predicate InHeightWindow(xc: real, s: Segment, r: Rect) {
    xc >= r.minX && xc <= r.maxX && xc >= Min(s.a.x, s.b.x) && xc <= Max(s.a.x, s.b.x)
  }

  /** The ordinate `yc` lies inside both y-ranges, and `x` inside the segment's x-range. */
  predicate InAbscissaWindow(yc: real, s: Segment, r: Rect, x: real) {
    yc >= r.minY && yc <= r.maxY && yc >= Min(s.a.y, s.b.y) && yc <= Max(s.a.y, s.b.y) &&
    Min(s.a.x, s.b.x) <= x && Max(s.a.x, s.b.x) >= x
  }

  /** The line's abscissa at height `y` lies in the window. */
  predicate CrossesAtHeight(s: Segment, r: Rect, y: real)
  {
    !Vertical(s) && Slope(s) != 0.0 && InHeightWindow((y - Intercept(s)) / Slope(s), s, r)
  }

  /** The line's ordinate at abscissa `x` lies in the window. */
  predicate CrossesAtAbscissa(s: Segment, r: Rect, x: real)
  {
    !Vertical(s) && InAbscissaWindow(LineY(s, x), s, r, x)
  }

  predicate TopClause(s: Segment, r: Rect) { CrossesAtHeight(s, r, r.minY) }

  predicate BottomClause(s: Segment, r: Rect) { CrossesAtHeight(s, r, r.maxY) }

  predicate LeftClause(s: Segment, r: Rect) { CrossesAtAbscissa(s, r, r.minX) }

  predicate RightClause(s: Segment, r: Rect) { CrossesAtAbscissa(s, r, r.maxX) }

  predicate VerticalClause(s: Segment, r: Rect) {
    s.b.x - s.a.x == 0.0 && s.b.x >= r.minX && s.b.x <= r.maxX &&
    !((s.a.y < r.minY && s.b.y < r.minY) || (s.a.y > r.maxY && s.b.y > r.maxY))
  }

  predicate InsideClause(s: Segment, r: Rect) {
    InRect(s.a, r) && InRect(s.b, r)
  }

  /** The selection predicate over the reals, clauses in the source's order. */
  predicate Hits(s: Segment, r: Rect) {
    TopClause(s, r) || VerticalClause(s, r) || BottomClause(s, r) ||
    LeftClause(s, r) || RightClause(s, r) || InsideClause(s, r)
  }

  // ---------------------------------------------------------------------
  // The same expression evaluated with JavaScript's NaN and infinities.

  predicate JsBetween(q: Num, lo: real, hi: real) {
    Ge(q, Fin(lo)) && Le(q, Fin(hi))
  }

  function JsSlope(s: Segment): Num {
    Div(Sub(Fin(s.b.y), Fin(s.a.y)), Sub(Fin(s.b.x), Fin(s.a.x)))
  }

  function JsIntercept(s: Segment): Num {
    Sub(Fin(s.a.y), Mul(JsSlope(s), Fin(s.a.x)))
  }

  /** `(y - b) / k`, the abscissa at height `y`. */
  function JsAbscissaAt(s: Segment, y: real): Num {
    Div(Sub(Fin(y), JsIntercept(s)), JsSlope(s))
  }

  /** `k * x + b`, the ordinate at abscissa `x`. */
  function JsOrdinateAt(s: Segment, x: real): Num {
    Add(Mul(JsSlope(s), Fin(x)), JsIntercept(s))
  }

  predicate JsInHeightWindow(q: Num, s: Segment, r: Rect) {
    JsBetween(q, r.minX, r.maxX) && JsBetween(q, Min(s.a.x, s.b.x), Max(s.a.x, s.b.x))
  }

  predicate JsInAbscissaWindow(q: Num, s: Segment, r: Rect, x: real) {
    JsBetween(q, r.minY, r.maxY) && JsBetween(q, Min(s.a.y, s.b.y), Max(s.a.y, s.b.y)) &&
    Min(s.a.x, s.b.x) <= x && Max(s.a.x, s.b.x) >= x
  }

  predicate JsCrossesAtHeight(s: Segment, r: Rect, y: real) {
    JsInHeightWindow(JsAbscissaAt(s, y), s, r)
  }

  predicate JsCrossesAtAbscissa(s: Segment, r: Rect, x: real) {
    JsInAbscissaWindow(JsOrdinateAt(s, x), s, r, x)
  }

  predicate JsHits(s: Segment, r: Rect) {
    JsCrossesAtHeight(s, r, r.minY) || VerticalClause(s, r) || JsCrossesAtHeight(s, r, r.maxY) ||
    JsCrossesAtAbscissa(s, r, r.minX) || JsCrossesAtAbscissa(s, r, r.maxX) || InsideClause(s, r)
  }

  /** For a vertical segment the slope is an infinity or NaN, and so is the intercept. */
  lemma VerticalSlopeSpecial(s: Segment)
    requires Vertical(s)
    ensures !JsSlope(s).Fin? && !JsIntercept(s).Fin?
  {
  }

  lemma JsHeightClauseAgrees(s: Segment, r: Rect, y: real)
    ensures JsCrossesAtHeight(s, r, y) == CrossesAtHeight(s, r, y)
  {
    if Vertical(s) || Slope(s) == 0.0 {
      JsAbscissaSpecial(s, y);
      SpecialWindows(JsAbscissaAt(s, y), s, r, y);
    } else {
      JsAbscissaFinite(s, y);
      FinWindows((y - Intercept(s)) / Slope(s), s, r, y);
    }
  }

  lemma JsAbscissaClauseAgrees(s: Segment, r: Rect, x: real)
    ensures JsCrossesAtAbscissa(s, r, x) == CrossesAtAbscissa(s, r, x)
  {
    if Vertical(s) {
      JsOrdinateSpecial(s, x);
      SpecialWindows(JsOrdinateAt(s, x), s, r, x);
    } else {
      FiniteAbscissaClause(s, r, x);
    }
  }

  lemma FiniteAbscissaClause(s: Segment, r: Rect, x: real)
    requires !Vertical(s)
    ensures JsCrossesAtAbscissa(s, r, x) == CrossesAtAbscissa(s, r, x)
  {
    JsOrdinateFinite(s, x);
    FinAbscissaWindow(JsOrdinateAt(s, x), LineY(s, x), s, r, x);
  }

  lemma FinAbscissaWindow(q: Num, yc: real, s: Segment, r: Rect, x: real)
    requires q == Fin(yc)
    ensures JsInAbscissaWindow(q, s, r, x) == InAbscissaWindow(yc, s, r, x)
  {
    FinWindows(yc, s, r, x);
  }

  /** On a finite value the source's window tests are the real ones. */
  lemma FinWindows(v: real, s: Segment, r: Rect, x: real)
    ensures JsInHeightWindow(Fin(v), s, r) == InHeightWindow(v, s, r)
    ensures JsInAbscissaWindow(Fin(v), s, r, x) == InAbscissaWindow(v, s, r, x)
  {
    FinBetween(v, r.minX, r.maxX);
    FinBetween(v, Min(s.a.x, s.b.x), Max(s.a.x, s.b.x));
    FinBetween(v, r.minY, r.maxY);
    FinBetween(v, Min(s.a.y, s.b.y), Max(s.a.y, s.b.y));
  }

  /** No NaN or infinity passes a window test. */
  lemma SpecialWindows(q: Num, s: Segment, r: Rect, x: real)
    requires !q.Fin?
    ensures !JsInHeightWindow(q, s, r) && !JsInAbscissaWindow(q, s, r, x)
  {
    SpecialNotBetween(q, r.minX, r.maxX);
    SpecialNotBetween(q, r.minY, r.maxY);
  }

  /** For a vertical segment `k * x + b` is an infinity or NaN. */
  lemma JsOrdinateSpecial(s: Segment, x: real)
    requires Vertical(s)
    ensures !JsOrdinateAt(s, x).Fin?
  {
    VerticalSlopeSpecial(s);
    SpecialSum(JsSlope(s), JsIntercept(s), x);
  }

  lemma JsOrdinateFinite(s: Segment, x: real)
    requires !Vertical(s)
    ensures JsOrdinateAt(s, x) == Fin(LineY(s, x))
  {
    JsLineFinite(s);
    FinLine(Slope(s), Intercept(s), x);
  }

  /** For a vertical or a horizontal segment `(y - b) / k` is an infinity or NaN. */
  lemma JsAbscissaSpecial(s: Segment, y: real)
    requires Vertical(s) || Slope(s) == 0.0
    ensures !JsAbscissaAt(s, y).Fin?
  {
    if Vertical(s) {
      VerticalSlopeSpecial(s);
    } else {
      JsLineFinite(s);
    }
  }

  lemma JsAbscissaFinite(s: Segment, y: real)
    requires !Vertical(s) && Slope(s) != 0.0
    ensures JsAbscissaAt(s, y) == Fin((y - Intercept(s)) / Slope(s))
  {
    JsLineFinite(s);
  }

  /** Off the vertical case the source's slope and intercept are the finite ones. */
  lemma JsLineFinite(s: Segment)
    requires !Vertical(s)
    ensures JsSlope(s) == Fin(Slope(s)) && JsIntercept(s) == Fin(Intercept(s))
  {
  }

  lemma FinLine(k: real, b: real, x: real)
    ensures Add(Mul(Fin(k), Fin(x)), Fin(b)) == Fin(k * x + b)
  {
  }

  lemma FinBetween(v: real, lo: real, hi: real)
    ensures JsBetween(Fin(v), lo, hi) == (lo <= v <= hi)
  {
  }

  /** `k * x + b` is not finite when neither `k` nor `b` is. */
  lemma SpecialSum(k: Num, b: Num, x: real)
    requires !k.Fin? && !b.Fin?
    ensures !Add(Mul(k, Fin(x)), b).Fin?
  {
  }

  /**
   * Evaluating the source's expression with JavaScript's special values
   * gives exactly the guarded real-valued predicate: the slope clauses are
   * false for vertical segments, and the top and bottom clauses are false
   * for horizontal ones.
   */
  lemma JsHitsIsHits(s: Segment, r: Rect)
    ensures JsHits(s, r) == Hits(s, r)
  {
    JsHeightClauseAgrees(s, r, r.minY);
    JsHeightClauseAgrees(s, r, r.maxY);
    JsAbscissaClauseAgrees(s, r, r.minX);
    JsAbscissaClauseAgrees(s, r, r.maxX);
  }

  // ---------------------------------------------------------------------
  // The guarded predicate is exactly "segment meets rectangle".

  // Small facts of real arithmetic, kept apart so that each is proved alone.

  lemma ScaleUnit(t: real, d: real)
    requires 0.0 <= t <= 1.0
    ensures Min(0.0, d) <= t * d <= Max(0.0, d)
  {
    Split(t, d);
    if d >= 0.0 {
      MulNonNeg(t, d);
      MulNonNeg(1.0 - t, d);
    } else {
      MulNonNeg(t, -d);
      MulNonNeg(1.0 - t, -d);
      Negate(t, d);
      Negate(1.0 - t, d);
    }
  }

  lemma Split(t: real, d: real)
    ensures t * d + (1.0 - t) * d == d
  {
  }

  lemma MulNonNeg(a: real, b: real)
    requires 0.0 <= a && 0.0 <= b
    ensures 0.0 <= a * b
  {
  }

  lemma Negate(a: real, b: real)
    ensures a * (-b) == -(a * b)
  {
  }

  lemma ProductSign(k: real, z: real)
    requires k != 0.0
    ensures k * z > 0.0 ==> (k > 0.0 <==> z > 0.0)
    ensures k * z < 0.0 ==> (k > 0.0 <==> z < 0.0)
    ensures k * z == 0.0 ==> z == 0.0
  {
    if k > 0.0 {
      if z > 0.0 { assert k * z > 0.0; } else if z < 0.0 { assert k * z < 0.0; }
    } else {
      if z > 0.0 { assert k * z < 0.0; } else if z < 0.0 { assert k * z > 0.0; }
    }
  }

  lemma DivCancel(a: real, d: real)
    requires d != 0.0
    ensures (a / d) * d == a
  {
  }

  lemma Regroup(k: real, t: real, d: real)
    ensures k * (t * d) == t * (k * d)
  {
  }

  lemma Distribute(k: real, u: real, w: real)
    ensures k * u - k * w == k * (u - w)
  {
  }

  lemma LineThroughEnds(s: Segment)
    requires !Vertical(s)
    ensures Slope(s) * (s.b.x - s.a.x) == s.b.y - s.a.y
    ensures LineY(s, s.a.x) == s.a.y && LineY(s, s.b.x) == s.b.y
  {
    DivCancel(s.b.y - s.a.y, s.b.x - s.a.x);
    LineYForm(s, s.a.x);
    LineYForm(s, s.b.x);
    EndsOnLine(Slope(s), s.a.x, s.a.y, s.b.x, s.b.y, LineY(s, s.a.x), LineY(s, s.b.x));
  }

  /** The line's ordinate with the intercept written out. */
  lemma LineYForm(s: Segment, x: real)
    requires !Vertical(s)
    ensures LineY(s, x) == Slope(s) * x + (s.a.y - Slope(s) * s.a.x)
  {
  }

  /** The line of slope `k` through `(ax, ay)` meets both ends when `k·(bx - ax) = by - ay`. */
  lemma EndsOnLine(k: real, ax: real, ay: real, bx: real, yb: real, la: real, lb: real)
    requires k * (bx - ax) == yb - ay
    requires la == k * ax + (ay - k * ax) && lb == k * bx + (ay - k * ax)
    ensures la == ay && lb == yb
  {
    LineThroughPoints(k, ax, ay, bx, yb);
  }

  /** A line of slope `k` through `(px, py)` with `k·(qx - px) = qy - py` also passes through `(qx, qy)`. */
  lemma LineThroughPoints(k: real, px: real, py: real, qx: real, qy: real)
    requires k * (qx - px) == qy - py
    ensures k * px + (py - k * px) == py
    ensures k * qx + (py - k * px) == qy
  {
    Distribute(k, qx, px);
  }

  /** The line of slope `k` through `(ax, ay)`, in point-slope form. */
  lemma LineAt(k: real, ax: real, ay: real, x: real)
    ensures k * x + (ay - k * ax) == ay + k * (x - ax)
  {
    Distribute(k, x, ax);
  }

  /** From `k·d = e` and `t·d = n` follows `t·e = k·n`. */
  lemma Chain(t: real, k: real, d: real, e: real, n: real)
    requires k * d == e && t * d == n
    ensures t * e == k * n
  {
    Regroup(k, t, d);
  }

  /** Every abscissa in the segment's x-range is the abscissa of a point of the segment. */
  lemma PointAtAbscissa(s: Segment, x: real) returns (t: real)
    requires !Vertical(s)
    requires Min(s.a.x, s.b.x) <= x <= Max(s.a.x, s.b.x)
    ensures 0.0 <= t <= 1.0
    ensures PointAt(s, t) == Point(x, LineY(s, x))
  {
    LineThroughEnds(s);
    t := UnitFraction(x - s.a.x, s.b.x - s.a.x);
    OnLine(t, Slope(s), s.a.x, s.a.y, s.b.x - s.a.x, s.b.y - s.a.y, x);
    assert PointAt(s, t).y == s.a.y + t * (s.b.y - s.a.y);
    assert LineY(s, x) == Slope(s) * x + (s.a.y - Slope(s) * s.a.x);
  }

  /** The point at parameter `t` of a run `(dx, dy)` of slope `k` from `(px, py)` lies on that line. */
  lemma OnLine(t: real, k: real, px: real, py: real, dx: real, dy: real, x: real)
    requires k * dx == dy && t * dx == x - px
    ensures py + t * dy == k * x + (py - k * px)
  {
    Chain(t, k, dx, dy, x - px);
    LineAt(k, px, py, x);
  }

  /** `t = num / d` lies in [0, 1] when `num` lies between 0 and `d`. */
  lemma UnitFraction(num: real, d: real) returns (t: real)
    requires d != 0.0
    requires d > 0.0 ==> 0.0 <= num <= d
    requires d < 0.0 ==> d <= num <= 0.0
    ensures t * d == num && 0.0 <= t <= 1.0
  {
    t := num / d;
    DivCancel(num, d);
    if t < 0.0 { ProductSign(d, t); }
    if t > 1.0 {
      assert (t - 1.0) * d == num - d;
      ProductSign(d, t - 1.0);
    }
  }

  /** Every point of a non-vertical segment lies on its line, within its x-range. */
  lemma AbscissaOfPoint(s: Segment, t: real)
    requires !Vertical(s)
    requires 0.0 <= t <= 1.0
    ensures Min(s.a.x, s.b.x) <= PointAt(s, t).x <= Max(s.a.x, s.b.x)
    ensures PointAt(s, t).y == LineY(s, PointAt(s, t).x)
  {
    LineThroughEnds(s);
    var dx := s.b.x - s.a.x;
    var k := Slope(s);
    var x := PointAt(s, t).x;
    ScaleUnit(t, dx);
    Chain(t, k, dx, s.b.y - s.a.y, x - s.a.x);
    LineAt(k, s.a.x, s.a.y, x);
  }

  /** Over the segment's x-range the line stays between the endpoint ordinates. */
  lemma LineYBetweenEnds(s: Segment, x: real)
    requires !Vertical(s)
    requires Min(s.a.x, s.b.x) <= x <= Max(s.a.x, s.b.x)
    ensures Min(s.a.y, s.b.y) <= LineY(s, x) <= Max(s.a.y, s.b.y)
  {
    var t := PointAtAbscissa(s, x);
    ScaleUnit(t, s.b.y - s.a.y);
  }

  /** Both abscissae lie in the segment's and the rectangle's x-ranges. */
  predicate InWindow(s: Segment, r: Rect, x: real) {
    Min(s.a.x, s.b.x) <= x <= Max(s.a.x, s.b.x) && r.minX <= x <= r.maxX
  }

  /**
   * If the line is inside the rectangle's y-range at one abscissa of the
   * window and outside at another, it crosses the top or the bottom side
   * between them.
   */
  lemma CrossingInWindow(s: Segment, r: Rect, u: real, w: real)
    requires !Vertical(s) && WellFormed(r)
    requires InWindow(s, r, u) && InWindow(s, r, w)
    requires r.minY <= LineY(s, u) <= r.maxY
    requires !(r.minY <= LineY(s, w) <= r.maxY)
    ensures TopClause(s, r) || BottomClause(s, r)
  {
    var k := Slope(s);
    var b := Intercept(s);
    var y := if LineY(s, w) < r.minY then r.minY else r.maxY;
    assert LineY(s, u) == k * u + b && LineY(s, w) == k * w + b;
    var xc := RootBetween(k, b, u, w, y);
    assert InWindow(s, r, xc);
    assert CrossesAtHeight(s, r, y);
  }

  /**
   * A line `k·x + b` that takes the value `y` somewhere between its values at
   * `u` and `w` does so at `(y - b) / k`, which lies between `u` and `w`.
   */
  lemma RootBetween(k: real, b: real, u: real, w: real, y: real) returns (xc: real)
    requires (k * u + b <= y <= k * w + b) || (k * w + b <= y <= k * u + b)
    requires k * u + b != k * w + b
    ensures k != 0.0 && xc == (y - b) / k
    ensures Min(u, w) <= xc <= Max(u, w)
  {
    assert k != 0.0;
    xc := (y - b) / k;
    DivCancel(y - b, k);
    Distribute(k, xc, w);
    Distribute(k, u, xc);
    ProductSign(k, xc - w);
    ProductSign(k, u - xc);
  }

  lemma VerticalWitness(s: Segment, r: Rect) returns (t: real)
    requires WellFormed(r) && VerticalClause(s, r)
    ensures 0.0 <= t <= 1.0 && InRect(PointAt(s, t), r)
  {
    var dy := s.b.y - s.a.y;
    if r.minY <= s.a.y <= r.maxY {
      t := 0.0;
    } else if r.minY <= s.b.y <= r.maxY {
      t := 1.0;
      assert PointAt(s, 1.0).y == s.b.y;
    } else {
      // One end lies below the rectangle and the other above it.
      t := (r.minY - s.a.y) / dy;
      DivCancel(r.minY - s.a.y, dy);
      if t < 0.0 { ProductSign(dy, t); }
      if t > 1.0 { ProductSign(dy, t - 1.0); }
    }
  }

  lemma HeightWitness(s: Segment, r: Rect, y: real) returns (t: real)
    requires r.minY <= y <= r.maxY && CrossesAtHeight(s, r, y)
    ensures 0.0 <= t <= 1.0 && InRect(PointAt(s, t), r)
  {
    var k := Slope(s);
    var xc := (y - Intercept(s)) / k;
    DivCancel(y - Intercept(s), k);
    t := PointAtAbscissa(s, xc);
  }

  lemma AbscissaWitness(s: Segment, r: Rect, x: real) returns (t: real)
    requires r.minX <= x <= r.maxX && CrossesAtAbscissa(s, r, x)
    ensures 0.0 <= t <= 1.0 && InRect(PointAt(s, t), r)
  {
    t := PointAtAbscissa(s, x);
  }

  lemma HitsImpliesMeets(s: Segment, r: Rect)
    requires WellFormed(r) && Hits(s, r)
    ensures Meets(s, r)
  {
    var t: real;
    if InsideClause(s, r) {
      assert PointAt(s, 0.0) == s.a;
      t := 0.0;
    } else if VerticalClause(s, r) {
      t := VerticalWitness(s, r);
    } else if TopClause(s, r) {
      t := HeightWitness(s, r, r.minY);
    } else if BottomClause(s, r) {
      t := HeightWitness(s, r, r.maxY);
    } else if LeftClause(s, r) {
      t := AbscissaWitness(s, r, r.minX);
    } else {
      assert RightClause(s, r);
      t := AbscissaWitness(s, r, r.maxX);
    }
    assert 0.0 <= t <= 1.0 && InRect(PointAt(s, t), r);
  }

  lemma MeetsVertical(s: Segment, r: Rect, t: real)
    requires Vertical(s) && 0.0 <= t <= 1.0 && InRect(PointAt(s, t), r)
    ensures VerticalClause(s, r)
  {
    ScaleUnit(t, s.b.y - s.a.y);
    var y := PointAt(s, t).y;
    assert Min(s.a.y, s.b.y) <= y <= Max(s.a.y, s.b.y);
    assert r.minY <= y <= r.maxY;
  }

  lemma SideFromWindow(s: Segment, r: Rect, x: real)
    requires !Vertical(s) && WellFormed(r)
    requires x == r.minX || x == r.maxX
    requires InWindow(s, r, x) && r.minY <= LineY(s, x) <= r.maxY
    ensures CrossesAtAbscissa(s, r, x)
  {
    LineYBetweenEnds(s, x);
  }

  lemma EndsFromWindow(s: Segment, r: Rect)
    requires !Vertical(s)
    requires InWindow(s, r, s.a.x) && r.minY <= LineY(s, s.a.x) <= r.maxY
    requires InWindow(s, r, s.b.x) && r.minY <= LineY(s, s.b.x) <= r.maxY
    ensures InsideClause(s, r)
  {
    LineThroughEnds(s);
  }

  lemma MeetsSloped(s: Segment, r: Rect, x: real)
    requires !Vertical(s) && WellFormed(r)
    requires InWindow(s, r, x) && r.minY <= LineY(s, x) <= r.maxY
    ensures Hits(s, r)
  {
    var lo := Max(Min(s.a.x, s.b.x), r.minX);
    var hi := Min(Max(s.a.x, s.b.x), r.maxX);
    assert InWindow(s, r, lo) && InWindow(s, r, hi);
    var yLo := LineY(s, lo);
    var yHi := LineY(s, hi);
    if !(r.minY <= yLo <= r.maxY) {
      CrossingInWindow(s, r, x, lo);
    } else if lo == r.minX {
      SideFromWindow(s, r, lo);
    } else if !(r.minY <= yHi <= r.maxY) {
      CrossingInWindow(s, r, lo, hi);
    } else if hi == r.maxX {
      SideFromWindow(s, r, hi);
    } else if s.a.x <= s.b.x {
      // Both window ends are segment ends, and both lie inside.
      EndsFromWindow(s, r);
    } else {
      EndsFromWindow(s, r);
    }
  }

  lemma MeetsImpliesHits(s: Segment, r: Rect)
    requires WellFormed(r) && Meets(s, r)
    ensures Hits(s, r)
  {
    var t :| 0.0 <= t <= 1.0 && InRect(PointAt(s, t), r);
    if Vertical(s) {
      MeetsVertical(s, r, t);
    } else {
      AbscissaOfPoint(s, t);
      MeetsSloped(s, r, PointAt(s, t).x);
    }
  }

  /**
   * On a well-formed rectangle the six-clause predicate holds exactly when
   * the closed segment and the closed rectangle share a point.
   */
  lemma HitsIffMeets(s: Segment, r: Rect)
    requires WellFormed(r)
    ensures Hits(s, r) <==> Meets(s, r)
  {
    if Hits(s, r) {
      HitsImpliesMeets(s, r);
    }
    if Meets(s, r) {
      MeetsImpliesHits(s, r);
    }
  }
}

=== FILE: style.dfy ===
/**
 * Style resolution (src/utils/style.ts): a style definition is a function
 * of the element's attributes, a record of nested definitions, or a
 * literal; a list of such definitions is resolved layer by layer and the
 * layers are merged, later layers winning.
 */
module Style {
  import opened Wrappers

  /** JavaScript primitive values (numbers as reals). */
  datatype Prim = Undef | Null | Bool(b: bool) | Num(n: real) | Str(s: string)

  /** A resolved style value: a primitive, a plain record or an array. */
  datatype Value = P(p: Prim) | Obj(fields: map<string, Value>) | Arr(items: seq<Value>)

  /** The attributes a style function is applied to. */
  type Attrs = map<string, Value>

  /**
   * A style definition. `Rec` is a non-null object literal, `Items` an
   * array literal (also an object to `typeof`), `Lit` a primitive or null.
   */
  datatype StyleDef =
    | Fn(f: Attrs -> Value)
    | Rec(entries: map<string, StyleDef>)
    | Items(elems: seq<StyleDef>)
    | Lit(p: Prim)

  // ---------------------------------------------------------------------
  // Decimal property names, as `Object.entries` reports array indices.

  function DigitChar(d: nat): (c: char)
    requires d < 10
    ensures '0' <= c <= '9' && c as int - '0' as int == d
  {
    ('0' as int + d) as char
  }

  /** The decimal numeral of `n`, without leading zeros. */
  function NatToString(n: nat): (s: string)
    ensures |s| >= 1 && forall i :: 0 <= i < |s| ==> '0' <= s[i] <= '9'
    decreases n
  {
    if n < 10 then [DigitChar(n)] else NatToString(n / 10) + [DigitChar(n % 10)]
  }

  /** The value of a string of decimal digits. */
  function DecimalValue(s: string): nat
    requires forall i :: 0 <= i < |s| ==> '0' <= s[i] <= '9'
    decreases |s|
  {
    if s == [] then 0
    else 10 * DecimalValue(s[..|s| - 1]) + (s[|s| - 1] as int - '0' as int)
  }

  /** Reading the numeral back gives the number: index names are distinct. */
  lemma {:induction false} NatToStringRoundTrip(n: nat)
    ensures DecimalValue(NatToString(n)) == n
    decreases n
  {
    if n >= 10 {
      var s := NatToString(n / 10);
      NatToStringRoundTrip(n / 10);
      assert (s + [DigitChar(n % 10)])[..|s|] == s;
    }
  }

  /** The property names `0`, ..., `n - 1`. */
  function IndexKeys(n: nat): set<string> {
    set i | 0 <= i < n :: NatToString(i)
  }

  lemma IndexKeysStep(n: nat)
    ensures IndexKeys(n + 1) == IndexKeys(n) + {NatToString(n)}
  {
    forall x | x in IndexKeys(n + 1)
      ensures x in IndexKeys(n) + {NatToString(n)}
    {
      var i :| 0 <= i < n + 1 && x == NatToString(i);
      if i < n { assert x in IndexKeys(n); }
    }
  }

  /** The record of an array: element `i` under the key `i` in decimal. */
  function IndexRecord(vs: seq<Value>): map<string, Value>
    decreases |vs|
  {
    if vs == [] then map[]
    else IndexRecord(vs[..|vs| - 1])[NatToString(|vs| - 1) := vs[|vs| - 1]]
  }

  lemma {:induction false} IndexRecordSpec(vs: seq<Value>)
    ensures IndexRecord(vs).Keys == IndexKeys(|vs|)
    ensures forall i :: 0 <= i < |vs| ==> IndexRecord(vs)[NatToString(i)] == vs[i]
    decreases |vs|
  {
    if vs != [] {
      var n := |vs| - 1;
      var init := vs[..n];
      var m := IndexRecord(init);
      assert IndexRecord(vs) == m[NatToString(n) := vs[n]];
      IndexRecordSpec(init);
      IndexKeysStep(n);
      forall i | 0 <= i < |vs|
        ensures IndexRecord(vs)[NatToString(i)] == vs[i]
      {
        if i < n {
          DistinctNames(i, n);
          assert init[i] == vs[i];
        }
      }
    }
  }

  lemma DistinctNames(i: nat, n: nat)
    requires i != n
    ensures NatToString(i) != NatToString(n)
  {
    NatToStringRoundTrip(i);
    NatToStringRoundTrip(n);
  }

  // ---------------------------------------------------------------------
  // resolveStyleDefinition

  /**
   * Resolve one definition against the attributes: a function is applied
   * once, a record or array is resolved entry by entry into a plain record
   * (array indices become decimal keys), a literal is returned as is.
   */
  function Resolve(d: StyleDef, attrs: Attrs): (v: Value)
    ensures d.Fn? ==> v == d.f(attrs)
    ensures d.Lit? ==> v == P(d.p)
    ensures d.Rec? ==> v.Obj? && v.fields.Keys == d.entries.Keys
    ensures d.Items? ==> v.Obj?
    decreases d
  {
    match d
    case Fn(f) => f(attrs)
    case Rec(entries) => Obj(map k | k in entries :: Resolve(entries[k], attrs))
    case Items(elems) => Obj(IndexRecord(ResolveSeq(elems, attrs)))
    case Lit(p) => P(p)
  }

  /** Resolve each element of an array definition. */
  function ResolveSeq(elems: seq<StyleDef>, attrs: Attrs): (vs: seq<Value>)
    ensures |vs| == |elems|
    ensures forall i :: 0 <= i < |elems| ==> vs[i] == Resolve(elems[i], attrs)
    decreases elems
  {
    seq(|elems|, i requires 0 <= i < |elems| => Resolve(elems[i], attrs))
  }

  /** Every entry of a record definition resolves to the resolution of its definition. */
  lemma ResolveRecordEntries(entries: map<string, StyleDef>, attrs: Attrs, k: string)
    requires k in entries
    ensures Resolve(Rec(entries), attrs).fields[k] == Resolve(entries[k], attrs)
  {
  }

  /** An array definition resolves to a record keyed `0`, ..., `n - 1`, element `i` under `i`. */
  lemma ResolveArrayElements(elems: seq<StyleDef>, attrs: Attrs)
    ensures var v := Resolve(Items(elems), attrs);
            v.Obj? && v.fields.Keys == IndexKeys(|elems|) &&
            forall i :: 0 <= i < |elems| ==> v.fields[NatToString(i)] == Resolve(elems[i], attrs)
  {
    IndexRecordSpec(ResolveSeq(elems, attrs));
  }

  /** Whether a function definition occurs anywhere inside `d`. */
  predicate HasFn(d: StyleDef)
    decreases d
  {
    match d
    case Fn(_) => true
    case Rec(entries) => exists k :: k in entries && HasFn(entries[k])
    case Items(elems) => exists i :: 0 <= i < |elems| && HasFn(elems[i])
    case Lit(_) => false
  }

  /** Only function definitions consult the attributes. */
  lemma {:induction false} StaticIndependent(d: StyleDef, a1: Attrs, a2: Attrs)
    requires !HasFn(d)
    ensures Resolve(d, a1) == Resolve(d, a2)
    decreases d
  {
    match d
    case Fn(_) =>
    case Lit(_) =>
    case Rec(entries) =>
      forall k | k in entries
        ensures Resolve(entries[k], a1) == Resolve(entries[k], a2)
      {
        StaticIndependent(entries[k], a1, a2);
      }
      assert Resolve(d, a1).fields == Resolve(d, a2).fields;
    case Items(elems) =>
      forall i | 0 <= i < |elems|
        ensures Resolve(elems[i], a1) == Resolve(elems[i], a2)
      {
        StaticIndependent(elems[i], a1, a2);
      }
      assert ResolveSeq(elems, a1) == ResolveSeq(elems, a2);
  }

  /** A resolved style is an array only when a function produced it. */
  lemma ArrayOnlyFromFunction(d: StyleDef, attrs: Attrs)
    ensures Resolve(d, attrs).Arr? ==> d.Fn?
  {
  }

  // ---------------------------------------------------------------------
  // deepmerge, with the default options, arrays taken from the right.

  /**
   * `deepmerge(a, b)`: two records are merged key by key (a key of `b`
   * whose value is a record is merged into `a`'s value, any other value of
   * `b` replaces it; keys of `a` alone are kept); a record or array on the
   * right replaces a non-record on the left; a primitive on the right
   * leaves a record on the left as it is and otherwise yields `{}`.
   */
  function Merge(a: Value, b: Value): (r: Value)
    ensures a.Obj? && b.Obj? ==> r.Obj? && r.fields.Keys == a.fields.Keys + b.fields.Keys
    ensures a.Obj? && b.Obj? ==>
              forall k :: k in b.fields && !b.fields[k].Obj? ==> r.fields[k] == b.fields[k]
    ensures a.Obj? && b.Obj? ==>
              forall k :: k in a.fields && k !in b.fields ==> r.fields[k] == a.fields[k]
    ensures !b.P? ==> (r.Obj? <==> b.Obj?)
    decreases b
  {
    match b
    case Arr(_) => b
    case Obj(bf) =>
      if a.Obj? then
        Obj(map k | k in a.fields.Keys + bf.Keys ::
              if k in bf then
                (if k in a.fields && bf[k].Obj? then Merge(a.fields[k], bf[k]) else bf[k])
              else a.fields[k])
      else b
    case P(_) => if a.Obj? then a else if a.Arr? then b else Obj(map[])
  }

  /** Merging a record tree into itself gives it back. */
  lemma {:induction false} MergeSelf(a: Value)
    requires a.Obj?
    ensures Merge(a, a) == a
    decreases a
  {
    forall k | k in a.fields && a.fields[k].Obj?
      ensures Merge(a.fields[k], a.fields[k]) == a.fields[k]
    {
      MergeSelf(a.fields[k]);
    }
    assert Merge(a, a).fields == a.fields;
  }

  /** The empty record is a left and right identity for records. */
  lemma MergeEmpty(a: Value)
    requires a.Obj?
    ensures Merge(Obj(map[]), a) == a && Merge(a, Obj(map[])) == a
  {
    assert Merge(Obj(map[]), a).fields == a.fields;
    assert Merge(a, Obj(map[])).fields == a.fields;
  }

  // ---------------------------------------------------------------------
  // Paths into nested records: what deepmerge promises at every depth.

  /** The value at path `p` inside `v`: each step reads a field of a record. */
  function Get(v: Value, p: seq<string>): Option<Value>
    decreases |p|
  {
    if p == [] then Some(v)
    else if v.Obj? && p[0] in v.fields then Get(v.fields[p[0]], p[1..])
    else None
  }

  /** `v` holds a leaf at `p`: a value deepmerge does not descend into. */
  predicate LeafAt(v: Value, p: seq<string>) {
    Get(v, p).Some? && !Get(v, p).value.Obj?
  }

  /** `v` holds a record at `p`. */
  predicate RecordAt(v: Value, p: seq<string>) {
    Get(v, p).Some? && Get(v, p).value.Obj?
  }

  /**
   * `b` sets nothing at or above `p`: it is a record along the way and the
   * path leaves it before its end.
   */
  predicate Absent(b: Value, p: seq<string>)
    decreases |p|
  {
    p != [] && b.Obj? && (p[0] !in b.fields || Absent(b.fields[p[0]], p[1..]))
  }

  lemma {:induction false} AbsentNone(b: Value, p: seq<string>)
    requires Absent(b, p)
    ensures Get(b, p) == None
    decreases |p|
  {
    if p[0] in b.fields {
      AbsentNone(b.fields[p[0]], p[1..]);
    }
  }

  /**
   * Merging two records, path by path: a leaf of the right side wins, a
   * record of the right side stays a record, a path the right side leaves
   * untouched reads as on the left, and a path is defined exactly when the
   * right side defines it or the left side does and the right leaves it
   * untouched.
   */
  lemma {:induction false} MergeAt(a: Value, b: Value, p: seq<string>)
    requires a.Obj? && b.Obj?
    ensures LeafAt(b, p) ==> Get(Merge(a, b), p) == Get(b, p)
    ensures RecordAt(b, p) ==> RecordAt(Merge(a, b), p)
    ensures Absent(b, p) ==> Get(Merge(a, b), p) == Get(a, p)
    ensures Get(Merge(a, b), p).Some? <==> Get(b, p).Some? || (Get(a, p).Some? && Absent(b, p))
    decreases |p|
  {
    if p != [] {
      var k, rest := p[0], p[1..];
      var m := Merge(a, b);
      if k in b.fields {
        var bk := b.fields[k];
        assert m.fields[k] == (if k in a.fields && bk.Obj? then Merge(a.fields[k], bk) else bk);
        if k in a.fields && bk.Obj? && a.fields[k].Obj? {
          MergeAt(a.fields[k], bk, rest);
        } else {
          assert m.fields[k] == bk;
          if Absent(bk, rest) {
            AbsentNone(bk, rest);
          }
        }
      } else {
        assert k in a.fields ==> m.fields[k] == a.fields[k];
        assert k !in a.fields ==> k !in m.fields;
      }
    }
  }

  /** `deepmerge.all`: fold the layers from `{}`, left to right. */
  function MergeAll(layers: seq<Value>): Value
    decreases |layers|
  {
    if layers == [] then Obj(map[])
    else Merge(MergeAll(layers[..|layers| - 1]), layers[|layers| - 1])
  }

  predicate AllRecords(layers: seq<Value>) {
    forall i :: 0 <= i < |layers| ==> layers[i].Obj?
  }

  /** The keys appearing in some layer. */
  function LayerKeys(layers: seq<Value>): set<string>
    requires AllRecords(layers)
    decreases |layers|
  {
    if layers == [] then {}
    else LayerKeys(layers[..|layers| - 1]) + layers[|layers| - 1].fields.Keys
  }

  /**
   * Merging record layers keeps every key of every layer, a non-record
   * leaf of the last layer is the merged value, and at any depth a leaf
   * wins over every earlier layer unless a later layer sets something at
   * or above it.
   */
  lemma {:induction false} MergeAllLayers(layers: seq<Value>)
    requires AllRecords(layers)
    ensures MergeAll(layers).Obj? && MergeAll(layers).fields.Keys == LayerKeys(layers)
    ensures layers != [] ==>
              forall k :: k in layers[|layers| - 1].fields && !layers[|layers| - 1].fields[k].Obj? ==>
                MergeAll(layers).fields[k] == layers[|layers| - 1].fields[k]
    ensures forall p, i :: 0 <= i < |layers| && LeafAt(layers[i], p) && UntouchedAfter(layers, i, p) ==>
              Get(MergeAll(layers), p) == Get(layers[i], p)
    decreases |layers|
  {
    forall p, i | 0 <= i < |layers| && LeafAt(layers[i], p) && UntouchedAfter(layers, i, p)
      ensures Get(MergeAll(layers), p) == Get(layers[i], p)
    {
      MergeAllWinner(layers, i, p);
    }
    if layers != [] {
      var init := layers[..|layers| - 1];
      assert AllRecords(init) by {
        forall i | 0 <= i < |init| ensures init[i].Obj? { assert init[i] == layers[i]; }
      }
      MergeAllLayers(init);
    }
  }

  /** Some layer defines `p` and no later layer sets anything at or above it. */
  predicate DefinedBy(layers: seq<Value>, p: seq<string>) {
    exists i :: 0 <= i < |layers| && Get(layers[i], p).Some? && UntouchedAfter(layers, i, p)
  }

  /** No layer after the `i`-th sets anything at or above `p`. */
  predicate UntouchedAfter(layers: seq<Value>, i: int, p: seq<string>) {
    forall j :: 0 <= j < |layers| && i < j ==> Absent(layers[j], p)
  }

  /**
   * Merging record layers, path by path: the value at `p` is decided by the
   * last layer that sets something there. A leaf of that layer is the
   * merged value, a record of it stays a record, and `p` is defined in the
   * merge exactly when some layer defines it and no later layer overwrites
   * it from above.
   */
  lemma MergeAllAt(layers: seq<Value>, p: seq<string>)
    requires AllRecords(layers)
    ensures forall i :: 0 <= i < |layers| && LeafAt(layers[i], p) && UntouchedAfter(layers, i, p) ==>
              Get(MergeAll(layers), p) == Get(layers[i], p)
    ensures forall i :: 0 <= i < |layers| && RecordAt(layers[i], p) && UntouchedAfter(layers, i, p) ==>
              RecordAt(MergeAll(layers), p)
    ensures Get(MergeAll(layers), p).Some? <==> p == [] || DefinedBy(layers, p)
  {
    forall i | 0 <= i < |layers| && UntouchedAfter(layers, i, p)
      ensures LeafAt(layers[i], p) ==> Get(MergeAll(layers), p) == Get(layers[i], p)
      ensures RecordAt(layers[i], p) ==> RecordAt(MergeAll(layers), p)
    {
      MergeAllWinner(layers, i, p);
    }
    MergeAllDefined(layers, p);
  }

  /** The first and last layers, and the merge of all but the last. */
  lemma SplitLast(layers: seq<Value>) returns (init: seq<Value>, last: Value)
    requires AllRecords(layers) && layers != []
    ensures init == layers[..|layers| - 1] && last == layers[|layers| - 1]
    ensures AllRecords(init) && last.Obj? && MergeAll(init).Obj?
    ensures MergeAll(layers) == Merge(MergeAll(init), last)
    ensures forall i :: 0 <= i < |init| ==> init[i] == layers[i]
  {
    init, last := layers[..|layers| - 1], layers[|layers| - 1];
    assert AllRecords(init) by {
      forall i | 0 <= i < |init| ensures init[i].Obj? { assert init[i] == layers[i]; }
    }
    if init != [] { assert init[|init| - 1] == layers[|layers| - 2]; }
  }

  /** Dropping the last layer keeps the layers after `i` untouched at `p`, and the last one is. */
  lemma UntouchedInit(layers: seq<Value>, init: seq<Value>, i: int, p: seq<string>)
    requires |layers| >= 1 && init == layers[..|layers| - 1] && 0 <= i < |init|
    requires UntouchedAfter(layers, i, p)
    ensures UntouchedAfter(init, i, p) && Absent(layers[|layers| - 1], p)
  {
    forall j | 0 <= j < |init| && i < j ensures Absent(init[j], p) { assert init[j] == layers[j]; }
  }

  /** The layer that sets `p` last decides it. */
  lemma {:induction false} MergeAllWinner(layers: seq<Value>, i: int, p: seq<string>)
    requires AllRecords(layers) && 0 <= i < |layers| && UntouchedAfter(layers, i, p)
    ensures LeafAt(layers[i], p) ==> Get(MergeAll(layers), p) == Get(layers[i], p)
    ensures RecordAt(layers[i], p) ==> RecordAt(MergeAll(layers), p)
    decreases |layers|
  {
    var init, last := SplitLast(layers);
    MergeAt(MergeAll(init), last, p);
    if i < |init| {
      UntouchedInit(layers, init, i, p);
      MergeAllWinner(init, i, p);
    }
  }

  /** A path is defined in the merge exactly when a layer defines it and no later one overwrites it. */
  lemma {:induction false} MergeAllDefined(layers: seq<Value>, p: seq<string>)
    requires AllRecords(layers)
    ensures Get(MergeAll(layers), p).Some? <==> p == [] || DefinedBy(layers, p)
    decreases |layers|
  {
    if layers != [] {
      var init, last := SplitLast(layers);
      MergeAt(MergeAll(init), last, p);
      MergeAllDefined(init, p);
      DefinedByStep(layers, init, p);
    }
  }

  /** The last layer defines `p`, or an earlier one does and the last leaves it untouched. */
  lemma DefinedByStep(layers: seq<Value>, init: seq<Value>, p: seq<string>)
    requires |layers| >= 1 && init == layers[..|layers| - 1]
    ensures DefinedBy(layers, p) <==>
              Get(layers[|layers| - 1], p).Some? || (DefinedBy(init, p) && Absent(layers[|layers| - 1], p))
  {
    var n := |init|;
    if DefinedBy(layers, p) && !Get(layers[n], p).Some? {
      var i :| 0 <= i < |layers| && Get(layers[i], p).Some? && UntouchedAfter(layers, i, p);
      UntouchedInit(layers, init, i, p);
      assert init[i] == layers[i];
    }
    if Get(layers[n], p).Some? {
      assert UntouchedAfter(layers, n, p);
    }
    if DefinedBy(init, p) && Absent(layers[n], p) {
      var i :| 0 <= i < n && Get(init[i], p).Some? && UntouchedAfter(init, i, p);
      assert init[i] == layers[i];
      assert UntouchedAfter(layers, i, p) by {
        forall j | 0 <= j < |layers| && i < j ensures Absent(layers[j], p) {
          if j < n { assert init[j] == layers[j]; }
        }
      }
    }
  }

  // ---------------------------------------------------------------------
  // resolveStyleDefinitions

  /** A definition JavaScript treats as false: undefined, null, false, 0, "". */
  predicate Falsy(d: StyleDef) {
    d.Lit? && (d.p.Undef? || d.p.Null? || d.p == Bool(false) || d.p == Num(0.0) || d.p == Str(""))
  }

  function Truthy(defs: seq<StyleDef>): (r: seq<StyleDef>)
    ensures forall i :: 0 <= i < |r| ==> !Falsy(r[i])
    ensures |r| <= |defs|
    decreases |defs|
  {
    if defs == [] then []
    else (if Falsy(defs[0]) then [] else [defs[0]]) + Truthy(defs[1..])
  }

  function ResolveEach(defs: seq<StyleDef>, attrs: Attrs): (vs: seq<Value>)
    ensures |vs| == |defs|
    ensures forall i :: 0 <= i < |defs| ==> vs[i] == Resolve(defs[i], attrs)
    decreases |defs|
  {
    if defs == [] then [] else [Resolve(defs[0], attrs)] + ResolveEach(defs[1..], attrs)
  }

  /** Drop the falsy layers, resolve the rest, and merge them in order. */
  function ResolveAll(defs: seq<StyleDef>, attrs: Attrs): Value {
    MergeAll(ResolveEach(Truthy(defs), attrs))
  }

  lemma {:induction false} TruthyAppend(d1: seq<StyleDef>, d2: seq<StyleDef>)
    ensures Truthy(d1 + d2) == Truthy(d1) + Truthy(d2)
    decreases |d1|
  {
    if d1 == [] {
      assert d1 + d2 == d2;
    } else {
      var x, rest := d1[0], d1[1..];
      assert d1 == [x] + rest;
      assert d1 + d2 == [x] + (rest + d2);
      TruthyAppend(rest, d2);
      TruthyCons(x, rest + d2);
      TruthyCons(x, rest);
      var head := if Falsy(x) then [] else [x];
      assert head + (Truthy(rest) + Truthy(d2)) == (head + Truthy(rest)) + Truthy(d2);
    }
  }

  /** The filter takes or drops the first definition, then filters the rest. */
  lemma TruthyCons(x: StyleDef, rest: seq<StyleDef>)
    ensures Truthy([x] + rest) == (if Falsy(x) then [] else [x]) + Truthy(rest)
  {
    assert ([x] + rest)[0] == x;
    assert ([x] + rest)[1..] == rest;
  }

  /** A falsy layer anywhere in the list has no effect: `[d, u, undefined]` resolves like `[d, u]`. */
  lemma FalsyLayerIgnored(d1: seq<StyleDef>, x: StyleDef, d2: seq<StyleDef>, attrs: Attrs)
    requires Falsy(x)
    ensures ResolveAll(d1 + [x] + d2, attrs) == ResolveAll(d1 + d2, attrs)
  {
    TruthyAppend(d1 + [x], d2);
    TruthyAppend(d1, [x]);
    TruthyAppend(d1, d2);
    assert Truthy([x]) == [] + Truthy([]);
    assert Truthy(d1 + [x] + d2) == Truthy(d1 + d2);
  }

  /**
   * The default / user / hover layering of the scene, at every depth: a
   * leaf set by the hover layer wins; where hover sets nothing at or above
   * a path, the user layer's leaf wins; where neither does, the default
   * shows through; and every top-level key of every layer is present.
   * So a hover `border.color` wins while the user's `border.width` stays.
   */
  lemma HoverLayerWins(default: StyleDef, user: StyleDef, hover: StyleDef, attrs: Attrs, p: seq<string>)
    requires default.Rec? && user.Rec? && hover.Rec?
    ensures var r := ResolveAll([default, user, hover], attrs);
            var (d, u, h) := (Resolve(default, attrs), Resolve(user, attrs), Resolve(hover, attrs));
            r.Obj? && r.fields.Keys == default.entries.Keys + user.entries.Keys + hover.entries.Keys &&
            (LeafAt(h, p) ==> Get(r, p) == Get(h, p)) &&
            (Absent(h, p) && LeafAt(u, p) ==> Get(r, p) == Get(u, p)) &&
            (Absent(h, p) && Absent(u, p) ==> Get(r, p) == Get(d, p))
  {
    var layers := [Resolve(default, attrs), Resolve(user, attrs), Resolve(hover, attrs)];
    ThreeLayers(default, user, hover, attrs);
    ThreeRecordLayers(layers, p);
  }

  /** Hovering `{border: {color: red}}` over `{border: {width: 2, color: black}}` keeps the width. */
  lemma HoverBorderExample(attrs: Attrs)
    ensures var user := Rec(map["border" := Rec(map["width" := Lit(Num(2.0)), "color" := Lit(Str("black"))])]);
            var hover := Rec(map["border" := Rec(map["color" := Lit(Str("red"))])]);
            var r := ResolveAll([Rec(map[]), user, hover], attrs);
            Get(r, ["border", "color"]) == Some(P(Str("red"))) && Get(r, ["border", "width"]) == Some(P(Num(2.0)))
  {
    var user := Rec(map["border" := Rec(map["width" := Lit(Num(2.0)), "color" := Lit(Str("black"))])]);
    var hover := Rec(map["border" := Rec(map["color" := Lit(Str("red"))])]);
    var u, h := Resolve(user, attrs), Resolve(hover, attrs);
    var ub := Resolve(Rec(map["width" := Lit(Num(2.0)), "color" := Lit(Str("black"))]), attrs);
    var hb := Resolve(Rec(map["color" := Lit(Str("red"))]), attrs);
    assert u.fields["border"] == ub && h.fields["border"] == hb;
    assert ub.fields["width"] == P(Num(2.0)) && hb.fields["color"] == P(Str("red"));
    assert "width" !in hb.fields;
    assert Get(h, ["border", "color"]) == Get(hb, ["color"]) == Get(P(Str("red")), []);
    assert Absent(h, ["border", "width"]) by {
      assert ["border", "width"][1..] == ["width"];
      assert Absent(hb, ["width"]);
    }
    assert Get(u, ["border", "width"]) == Get(ub, ["width"]) == Get(P(Num(2.0)), []);
    HoverLayerWins(Rec(map[]), user, hover, attrs, ["border", "color"]);
    HoverLayerWins(Rec(map[]), user, hover, attrs, ["border", "width"]);
  }

  /** Over three record layers, path by path, with every top-level key kept. */
  lemma ThreeRecordLayers(layers: seq<Value>, p: seq<string>)
    requires |layers| == 3 && layers[0].Obj? && layers[1].Obj? && layers[2].Obj?
    ensures var r := MergeAll(layers);
            r.Obj? && r.fields.Keys == layers[0].fields.Keys + layers[1].fields.Keys + layers[2].fields.Keys &&
            (LeafAt(layers[2], p) ==> Get(r, p) == Get(layers[2], p)) &&
            (Absent(layers[2], p) && LeafAt(layers[1], p) ==> Get(r, p) == Get(layers[1], p)) &&
            (Absent(layers[2], p) && Absent(layers[1], p) ==> Get(r, p) == Get(layers[0], p))
  {
    assert AllRecords(layers);
    MergeAllLayers(layers);
    ThreeLayerKeys(layers);
    var (d, u, h) := (layers[0], layers[1], layers[2]);
    assert layers[..2] == [d, u] && [d, u][..1] == [d] && [d][..0] == [];
    MergeEmpty(d);
    assert MergeAll([d]) == d;
    assert MergeAll([d, u]) == Merge(d, u);
    assert MergeAll(layers) == Merge(Merge(d, u), h);
    MergeAt(d, u, p);
    MergeAt(Merge(d, u), h, p);
  }

  lemma ThreeLayers(a: StyleDef, b: StyleDef, c: StyleDef, attrs: Attrs)
    requires !Falsy(a) && !Falsy(b) && !Falsy(c)
    ensures ResolveEach(Truthy([a, b, c]), attrs) == [Resolve(a, attrs), Resolve(b, attrs), Resolve(c, attrs)]
  {
    assert [a, b, c][1..] == [b, c];
    assert [b, c][1..] == [c];
    assert Truthy([c]) == [c] + Truthy([]);
    assert Truthy([b, c]) == [b] + Truthy([c]);
    assert Truthy([a, b, c]) == [a] + Truthy([b, c]);
  }

  lemma ThreeLayerKeys(layers: seq<Value>)
    requires |layers| == 3 && AllRecords(layers)
    ensures LayerKeys(layers) == layers[0].fields.Keys + layers[1].fields.Keys + layers[2].fields.Keys
  {
    assert layers[..2][..1] == [layers[0]];
    assert [layers[0]][..0] == [];
    assert LayerKeys(layers) == LayerKeys(layers[..2]) + layers[2].fields.Keys;
    assert LayerKeys(layers[..2]) == LayerKeys(layers[..2][..1]) + layers[1].fields.Keys;
    assert LayerKeys([layers[0]]) == LayerKeys([]) + layers[0].fields.Keys;
  }
}

=== FILE: throttle.dfy ===
/**
 * `throttle(func, delay)` (src/utils/tools.ts) as a clock-driven state
 * machine. Time is the `Date.now()` reading each call brings; a pending
 * `setTimeout` is a timer in the state, run when a later event finds its
 * due time reached (timers run on time, before the event that follows).
 */
module Throttle {
  import opened Wrappers

  /** A deferred invocation: when it is due, its arguments, and the `now` of the call that scheduled it. */
  datatype Timer<A> = Timer(due: int, args: A, scheduledAt: int)

  /** `func` ran at time `at` with `args`. */
  datatype Invocation<A> = Invocation(at: int, args: A)

  /** One call of the throttled wrapper. */
  datatype Call<A> = Call(now: int, args: A)

  /**
   * What `lastCalledTime` records when a deferred invocation runs: the `now`
   * captured by the call that scheduled it (as written), or the time it
   * actually runs.
   */
  datatype Stamp = ScheduledTime | RunTime

  /** The closure's variables: the delay, `lastCalledTime` and the pending timeout. */
  datatype State<A> = State(delay: int, last: int, pending: Option<Timer<A>>)

  function Fresh<A>(delay: int): (s: State<A>)
    ensures s.last == 0 && s.pending.None? && s.delay == delay
  {
    State(delay, 0, None)
  }

  /** `!lastCalledTime || now - lastCalledTime >= delay`: run at once. */
  predicate Immediate<A>(s: State<A>, now: int) {
    s.last == 0 || now - s.last >= s.delay
  }

  /** The `setTimeout` wait of a deferred call. */
  function Wait<A>(s: State<A>, now: int): int {
    s.delay - (now - s.last)
  }

  /** Run the pending timer if it is due by `now`. */
  function Expire<A>(stamp: Stamp, s: State<A>, now: int): (r: (State<A>, seq<Invocation<A>>))
    ensures s.pending.None? || now < s.pending.value.due ==> r == (s, [])
    ensures s.pending.Some? && s.pending.value.due <= now ==>
              var t := s.pending.value;
              r.1 == [Invocation(t.due, t.args)] && r.0.pending.None? && r.0.delay == s.delay &&
              r.0.last == (if stamp == ScheduledTime then t.scheduledAt else t.due)
  {
    match s.pending
    case None => (s, [])
    case Some(t) =>
      if t.due <= now then
        (s.(last := if stamp == ScheduledTime then t.scheduledAt else t.due, pending := None),
         [Invocation(t.due, t.args)])
      else (s, [])
  }

  /**
   * The wrapper body: run `func` now and stamp the time, or replace the
   * pending timer by one that runs these arguments when `delay` has passed
   * since the last run.
   */
  function Invoke<A>(s: State<A>, c: Call<A>): (r: (State<A>, seq<Invocation<A>>))
    ensures Immediate(s, c.now) ==>
              r.1 == [Invocation(c.now, c.args)] && r.0 == s.(last := c.now)
    ensures !Immediate(s, c.now) ==>
              r.1 == [] && r.0.last == s.last && r.0.delay == s.delay &&
              r.0.pending == Some(Timer(s.last + s.delay, c.args, c.now))
  {
    if Immediate(s, c.now) then (s.(last := c.now), [Invocation(c.now, c.args)])
    else (s.(pending := Some(Timer(c.now + Wait(s, c.now), c.args, c.now))), [])
  }

  /** One call: the timer that has come due runs first, then the wrapper body. */
  function Step<A>(stamp: Stamp, s: State<A>, c: Call<A>): (State<A>, seq<Invocation<A>>) {
    var (s1, out1) := Expire(stamp, s, c.now);
    var (s2, out2) := Invoke(s1, c);
    (s2, out1 + out2)
  }

  function Run<A>(stamp: Stamp, s: State<A>, calls: seq<Call<A>>): (State<A>, seq<Invocation<A>>)
    decreases |calls|
  {
    if calls == [] then (s, [])
    else
      var (s1, out1) := Step(stamp, s, calls[0]);
      var (s2, out2) := Run(stamp, s1, calls[1..]);
      (s2, out1 + out2)
  }

  /** Let every pending timer run: the state once the calls stop. */
  function Settle<A>(stamp: Stamp, s: State<A>): (r: (State<A>, seq<Invocation<A>>))
    ensures r.0.pending.None?
    ensures s.pending.None? ==> r.1 == []
    ensures s.pending.Some? ==> r.1 == [Invocation(s.pending.value.due, s.pending.value.args)]
  {
    match s.pending
    case None => (s, [])
    case Some(t) => Expire(stamp, s, t.due)
  }

  /**
   * On a clock that does not run backwards, a deferred call waits a positive
   * time of at most `delay`, and its timer is due exactly `delay` after the
   * last run.
   */
  lemma DeferredWaitBounds<A>(s: State<A>, c: Call<A>)
    requires s.last <= c.now && !Immediate(s, c.now)
    ensures 0 < Wait(s, c.now) <= s.delay
    ensures c.now + Wait(s, c.now) == s.last + s.delay
  {
  }

  // ---------------------------------------------------------------------
  // Spacing between runs

  /** Consecutive runs are at least `delay` apart. */
  predicate Spaced<A>(out: seq<Invocation<A>>, delay: int) {
    forall i :: 0 < i < |out| ==> out[i - 1].at + delay <= out[i].at
  }

  /** Call times never go backwards and are positive, as `Date.now()` readings are. */
  predicate Clock<A>(calls: seq<Call<A>>, from: int) {
    (forall i :: 0 <= i < |calls| ==> 0 < calls[i].now && from <= calls[i].now) &&
    (forall i, j :: 0 <= i < j < |calls| ==> calls[i].now <= calls[j].now)
  }

  /**
   * What holds between calls under the `RunTime` stamp, after the runs
   * `out` and the latest call at `clock`.
   */
  predicate Inv<A>(s: State<A>, clock: int, out: seq<Invocation<A>>) {
    (out == [] ==> s.last == 0 && s.pending.None?) &&
    (out != [] ==> s.last == out[|out| - 1].at && 0 < s.last <= clock) &&
    (s.pending.Some? ==> s.pending.value.due == s.last + s.delay && clock < s.pending.value.due) &&
    Spaced(out, s.delay)
  }

  /** Appending a run at least `delay` after the previous one keeps the runs spaced. */
  lemma SpacedAppend<A>(out: seq<Invocation<A>>, more: seq<Invocation<A>>, delay: int)
    requires Spaced(out, delay) && |more| <= 1
    requires more != [] && out != [] ==> out[|out| - 1].at + delay <= more[0].at
    ensures Spaced(out + more, delay)
  {
    if more != [] {
      var o := out + more;
      forall i | 0 < i < |o| ensures o[i - 1].at + delay <= o[i].at {
        if i < |out| {
          assert o[i - 1] == out[i - 1] && o[i] == out[i];
        } else {
          assert o[i] == more[0] && o[i - 1] == out[|out| - 1];
        }
      }
    }
  }

  lemma StepKeepsInv<A>(s: State<A>, clock: int, out: seq<Invocation<A>>, c: Call<A>)
    requires Inv(s, clock, out) && clock <= c.now && 0 < c.now
    ensures var r := Step(RunTime, s, c);
            Inv(r.0, c.now, out + r.1) && r.0.delay == s.delay
  {
    var (s1, out1) := Expire(RunTime, s, c.now);
    var (s2, out2) := Invoke(s1, c);
    SpacedAppend(out, out1, s.delay);
    var o := out + out1;
    assert o != [] ==> o[|o| - 1] == (if out1 != [] then out1[0] else out[|out| - 1]);
    assert Inv(s1, c.now, o);
    SpacedAppend(o, out2, s.delay);
    assert o + out2 != [] ==> (o + out2)[|o + out2| - 1] == (if out2 != [] then out2[0] else o[|o| - 1]);
    assert out + (out1 + out2) == o + out2;
  }

  lemma {:induction false} RunKeepsInv<A>(s: State<A>, clock: int, out: seq<Invocation<A>>, calls: seq<Call<A>>)
    requires Inv(s, clock, out) && Clock(calls, clock)
    ensures var r := Run(RunTime, s, calls);
            Spaced(out + r.1, s.delay)
    decreases |calls|
  {
    if calls != [] {
      var (s1, out1) := Step(RunTime, s, calls[0]);
      StepKeepsInv(s, clock, out, calls[0]);
      assert Clock(calls[1..], calls[0].now) by {
        forall i | 0 <= i < |calls[1..]| ensures calls[0].now <= calls[1..][i].now {
          assert calls[1..][i] == calls[i + 1];
        }
      }
      RunKeepsInv(s1, calls[0].now, out + out1, calls[1..]);
      assert out + out1 + Run(RunTime, s1, calls[1..]).1 == out + Run(RunTime, s, calls).1;
    }
  }

  /**
   * With the run time stamped, `func` never runs twice within `delay`: over
   * any sequence of calls on a forward clock, consecutive runs are at least
   * `delay` apart.
   */
  lemma RunTimeStampSpacesRuns<A>(delay: int, calls: seq<Call<A>>)
    requires Clock(calls, 0)
    ensures Spaced(Run(RunTime, Fresh(delay), calls).1, delay)
  {
    RunKeepsInv(Fresh<A>(delay), 0, [], calls);
    assert [] + Run(RunTime, Fresh<A>(delay), calls).1 == Run(RunTime, Fresh<A>(delay), calls).1;
  }

  /**
   * As written, a deferred run stamps the time of the call that scheduled
   * it, so the next call can run immediately too soon: with a delay of 100,
   * calls at 1000, 1050 and 1150 run `func` at 1000, 1100 and 1150.
   */
  lemma ScheduledTimeStampRunsTooSoon()
    ensures var calls := [Call(1000, 1), Call(1050, 2), Call(1150, 3)];
            Clock(calls, 0) &&
            Run(ScheduledTime, Fresh(100), calls).1 ==
              [Invocation(1000, 1), Invocation(1100, 2), Invocation(1150, 3)] &&
            !Spaced(Run(ScheduledTime, Fresh(100), calls).1, 100)
  {
    var calls := [Call(1000, 1), Call(1050, 2), Call(1150, 3)];
    var s0 := Fresh<int>(100);
    var s1 := State(100, 1000, None);
    var s2 := State(100, 1000, Some(Timer(1100, 2, 1050)));
    var s3 := State(100, 1150, None);
    assert Expire(ScheduledTime, s0, 1000) == (s0, []);
    assert Immediate(s0, 1000);
    assert Invoke(s0, calls[0]) == (s1, [Invocation(1000, 1)]);
    assert Step(ScheduledTime, s0, calls[0]) == (s1, [] + [Invocation(1000, 1)]);
    assert [] + [Invocation(1000, 1)] == [Invocation(1000, 1)];
    assert Expire(ScheduledTime, s1, 1050) == (s1, []);
    assert !Immediate(s1, 1050);
    assert Invoke(s1, calls[1]) == (s2, []);
    assert Step(ScheduledTime, s1, calls[1]) == (s2, [] + []);
    var e := State(100, 1050, None);
    assert Expire(ScheduledTime, s2, 1150) == (e, [Invocation(1100, 2)]);
    assert Immediate(e, 1150);
    assert Invoke(e, calls[2]) == (s3, [Invocation(1150, 3)]);
    assert Step(ScheduledTime, s2, calls[2]) == (s3, [Invocation(1100, 2)] + [Invocation(1150, 3)]);
    assert calls[1..][1..][1..] == [];
    var out := Run(ScheduledTime, s0, calls).1;
    assert out[2].at - out[1].at == 50;
  }

  // ---------------------------------------------------------------------
  // The trailing call

  /** A pending timer is due `delay` after a real run; no timer is pending before the first run. */
  predicate PendingDue<A>(s: State<A>) {
    s.pending.Some? ==> s.pending.value.due == s.last + s.delay && s.last != 0
  }

  /** A call that runs at once always finds no timer pending, whatever the clock does. */
  lemma StepKeepsPendingDue<A>(stamp: Stamp, s: State<A>, c: Call<A>)
    requires PendingDue(s)
    ensures PendingDue(Step(stamp, s, c).0)
    ensures var e := Expire(stamp, s, c.now).0;
            Immediate(e, c.now) ==> e.pending.None?
  {
  }

  /**
   * Whatever the stamp, once the calls stop and the pending timer has run,
   * the last run had the arguments of the last call.
   */
  lemma {:induction false} LastCallRuns<A>(stamp: Stamp, s: State<A>, calls: seq<Call<A>>)
    requires PendingDue(s) && calls != []
    ensures var r := Run(stamp, s, calls);
            var out := r.1 + Settle(stamp, r.0).1;
            out != [] && out[|out| - 1].args == calls[|calls| - 1].args
    decreases |calls|
  {
    var (s1, out1) := Step(stamp, s, calls[0]);
    if |calls| == 1 {
      assert calls[1..] == [];
      assert Run(stamp, s, calls) == (s1, out1 + []);
      OneCallRuns(stamp, s, calls[0]);
    } else {
      StepKeepsPendingDue(stamp, s, calls[0]);
      LastCallRuns(stamp, s1, calls[1..]);
      var r1 := Run(stamp, s1, calls[1..]);
      assert Run(stamp, s, calls) == (r1.0, out1 + r1.1);
      assert calls[1..][|calls[1..]| - 1] == calls[|calls| - 1];
      LastOfAppend(out1, r1.1, Settle(stamp, r1.0).1);
    }
  }

  /** A single call runs, at once or once its timer has been let run. */
  lemma OneCallRuns<A>(stamp: Stamp, s: State<A>, c: Call<A>)
    requires PendingDue(s)
    ensures var r := Step(stamp, s, c);
            var out := r.1 + Settle(stamp, r.0).1;
            out != [] && out[|out| - 1].args == c.args
  {
    StepKeepsPendingDue(stamp, s, c);
    var (e, eo) := Expire(stamp, s, c.now);
    if Immediate(e, c.now) {
      assert Step(stamp, s, c).1 == eo + [Invocation(c.now, c.args)];
    } else {
      assert Step(stamp, s, c).0.pending == Some(Timer(e.last + e.delay, c.args, c.now));
    }
  }

  lemma LastOfAppend<T>(a: seq<T>, b: seq<T>, c: seq<T>)
    requires b + c != []
    ensures a + b + c != [] && (a + b + c)[|a + b + c| - 1] == (b + c)[|b + c| - 1]
  {
    assert a + b + c == a + (b + c);
  }
}

=== FILE: watermark.dfy ===
/**
 * The watermark builder (src/watermark.ts): which content an option yields,
 * where its sprites go (one at the option's position, or a 3 x 3 grid over
 * the container in cover mode), and the default text style.
 */
module Watermark {
  import opened Wrappers
  import opened Geometry

  datatype TextStyle = TextStyle(fontFamily: string, fontSize: real, fontWeight: string, color: string)

  /** The own properties of `option.style`; a missing one is `None`. */
  datatype StyleOption = StyleOption(
    fontFamily: Option<string>, fontSize: Option<real>, fontWeight: Option<string>, color: Option<string>)

  datatype WatermarkOption = WatermarkOption(
    kind: string, content: string, cover: bool, position: Point, rotation: real, style: StyleOption)

  /** What a sprite shows: an image loaded from a URL, or a text drawn in a style. */
  datatype Content = Image(url: string) | Text(text: string, style: TextStyle)

  /**
   * A sprite: its content, its position, its rotation, and whether its anchor
   * is its centre (`anchor.set(0.5)`) rather than its top-left corner.
   */
  datatype Sprite = Sprite(content: Content, at: Point, rotation: real, centred: bool)

  const DefaultStyle := TextStyle("Arial", 26.0, "normal", "black")

  function Pick<T>(o: Option<T>, default: T): (v: T)
    ensures o.Some? ==> v == o.value
    ensures o.None? ==> v == default
  {
    if o.Some? then o.value else default
  }

  /** `Object.assign(styleDefault, option.style)`: each given property overrides its default. */
  function ResolvedStyle(o: StyleOption): (t: TextStyle)
    ensures o.fontFamily.Some? ==> t.fontFamily == o.fontFamily.value
    ensures o.fontFamily.None? ==> t.fontFamily == "Arial"
    ensures o.fontSize.Some? ==> t.fontSize == o.fontSize.value
    ensures o.fontSize.None? ==> t.fontSize == 26.0
    ensures o.fontWeight.Some? ==> t.fontWeight == o.fontWeight.value
    ensures o.fontWeight.None? ==> t.fontWeight == "normal"
    ensures o.color.Some? ==> t.color == o.color.value
    ensures o.color.None? ==> t.color == "black"
  {
    TextStyle(Pick(o.fontFamily, DefaultStyle.fontFamily), Pick(o.fontSize, DefaultStyle.fontSize),
              Pick(o.fontWeight, DefaultStyle.fontWeight), Pick(o.color, DefaultStyle.color))
  }

  /** The single, centre-anchored sprite: at the option's position unless in cover mode. */
  function Single(c: Content, option: WatermarkOption): (s: Sprite)
    ensures s.content == c && s.centred && s.rotation == option.rotation
    ensures !option.cover ==> s.at == option.position
    ensures option.cover ==> s.at == Point(0.0, 0.0)
  {
    Sprite(c, if option.cover then Point(0.0, 0.0) else option.position, option.rotation, true)
  }

  /** The centre of cell `i` (row-major) of a 3 x 3 grid over a `width` x `height` container. */
  function CellCentre(width: real, height: real, i: nat): Point {
    Point(width / 3.0 * ((i % 3) as real) + (width / 3.0) / 2.0,
          height / 3.0 * ((i / 3) as real) + (height / 3.0) / 2.0)
  }

  /**
   * `coverScreen`: nine copies of the measured sprite, top-left anchored, each
   * shifted by half the measured size from the centre of its cell; the
   * option's position, applied only outside cover mode, is overwritten.
   */
  function CoverScreen(width: real, height: real, c: Content, spriteWidth: real, spriteHeight: real,
                       option: WatermarkOption): (sprites: seq<Sprite>)
    ensures |sprites| == 9
    ensures forall i :: 0 <= i < 9 ==>
              sprites[i].content == c && !sprites[i].centred && sprites[i].rotation == option.rotation &&
              sprites[i].at.x + spriteWidth / 2.0 == CellCentre(width, height, i).x &&
              sprites[i].at.y + spriteHeight / 2.0 == CellCentre(width, height, i).y
  {
    seq(9, i requires 0 <= i < 9 =>
      var centre := CellCentre(width, height, i);
      var placed := if !option.cover then option.position else Point(0.0, 0.0);
      Sprite(c, placed, option.rotation, false).(at := Point(centre.x - spriteWidth / 2.0, centre.y - spriteHeight / 2.0)))
  }

  /**
   * `makeWatermark`: image or text content by the option's type, covering
   * the screen or placed once; any other type gives an empty container.
   * `measure` gives the rendered size of a content (a texture measurement).
   */
  function MakeWatermark(width: real, height: real, option: WatermarkOption, measure: Content -> Point): (sprites: seq<Sprite>)
    ensures option.kind != "IMAGE" && option.kind != "TEXT" ==> sprites == []
    ensures option.kind == "IMAGE" || option.kind == "TEXT" ==> |sprites| == (if option.cover then 9 else 1)
    ensures option.kind == "IMAGE" ==> forall i :: 0 <= i < |sprites| ==> sprites[i].content == Image(option.content)
    ensures option.kind == "TEXT" ==>
              forall i :: 0 <= i < |sprites| ==> sprites[i].content == Text(option.content, ResolvedStyle(option.style))
  {
    if option.kind == "IMAGE" || option.kind == "TEXT" then
      var c := if option.kind == "IMAGE" then Image(option.content) else Text(option.content, ResolvedStyle(option.style));
      if option.cover then
        var size := measure(c);
        CoverScreen(width, height, c, size.x, size.y, option)
      else [Single(c, option)]
    else []
  }

  /** Outside cover mode the one sprite is centred on the option's position. */
  lemma UncoveredAtPosition(width: real, height: real, option: WatermarkOption, measure: Content -> Point)
    requires option.kind == "IMAGE" || option.kind == "TEXT"
    requires !option.cover
    ensures var s := MakeWatermark(width, height, option, measure);
            |s| == 1 && s[0].at == option.position && s[0].centred && s[0].rotation == option.rotation
  {
  }

  /** In cover mode the option's position never matters. */
  lemma CoverIgnoresPosition(width: real, height: real, option: WatermarkOption, p: Point, measure: Content -> Point)
    requires option.cover
    ensures MakeWatermark(width, height, option.(position := p), measure) == MakeWatermark(width, height, option, measure)
  {
    if option.kind == "IMAGE" || option.kind == "TEXT" {
      var c := if option.kind == "IMAGE" then Image(option.content) else Text(option.content, ResolvedStyle(option.style));
      var size := measure(c);
      var a := CoverScreen(width, height, c, size.x, size.y, option.(position := p));
      var b := CoverScreen(width, height, c, size.x, size.y, option);
      assert forall i :: 0 <= i < 9 ==> a[i] == b[i];
    }
  }

  /**
   * Cell centres on a non-degenerate container lie inside their own cell, so
   * the nine sprites of cover mode tile the container with no two sharing a
   * centre.
   */
  lemma CellsTile(width: real, height: real, i: nat, j: nat)
    requires 0.0 < width && 0.0 < height && i < 9 && j < 9
    ensures var c := CellCentre(width, height, i);
            width / 3.0 * ((i % 3) as real) < c.x < width / 3.0 * ((i % 3 + 1) as real) &&
            height / 3.0 * ((i / 3) as real) < c.y < height / 3.0 * ((i / 3 + 1) as real) &&
            0.0 < c.x < width && 0.0 < c.y < height
    ensures i != j ==> CellCentre(width, height, i) != CellCentre(width, height, j)
  {
    var w, h := width / 3.0, height / 3.0;
    assert i % 3 <= 2 && i / 3 <= 2;
    if i != j {
      assert i % 3 != j % 3 || i / 3 != j / 3;
      if i % 3 != j % 3 {
        ScaleInjective(w, (i % 3) as real, (j % 3) as real);
      } else {
        ScaleInjective(h, (i / 3) as real, (j / 3) as real);
      }
    }
  }

  lemma ScaleInjective(w: real, a: real, b: real)
    requires 0.0 < w && a != b
    ensures w * a + w / 2.0 != w * b + w / 2.0
  {
    assert w * a - w * b == w * (a - b);
  }

  /** A 300 x 300 container puts the nine centres at 50, 150 and 250 on each axis. */
  lemma GridExample()
    ensures CellCentre(300.0, 300.0, 0) == Point(50.0, 50.0)
    ensures CellCentre(300.0, 300.0, 5) == Point(250.0, 150.0)
    ensures CellCentre(300.0, 300.0, 7) == Point(150.0, 250.0)
  {
  }
}

=== FILE: wrappers.dfy ===
/** Small failure-carrying datatypes shared by the whole model. */
module Wrappers {

  /** A value that may be absent (JavaScript's `undefined`). */
  datatype Option<+T> = None | Some(value: T)

  /** The outcome of an operation that may throw. */
  datatype Result<+T, +E> = Ok(value: T) | Err(error: E)
}
